=== FILE: README.md ===
# ORANSim core in Dafny

This project models the core of ORANSim, a discrete-event simulator of an
O-RAN deployment, and proves properties of the model. The simulator is
built from these parts:

- **Scheduler.** A virtual clock over a simpy event engine, plus UEs whose
  positions are updated every 0.1 virtual seconds.
- **Node-to-node routers.** X2, Xn and F1 queue messages and deliver them
  in a zero-delay drain.
- **E2.** The interface between E2 nodes and the Near-RT RIC is a
  publish/subscribe hub, as is the older `E2Termination`.
- **Open Fronthaul and the radio nodes.** The Open Fronthaul link moves IQ
  data from an O-RU to an O-DU, and the O-DU and O-RU apply O1
  configuration dicts.
- **A1.** A validating A1 policy data model and the A1 interface's own,
  laxer policy model.
- **The two RICs.** The Near-RT RIC (xApps, stored A1 policies, E2 nodes,
  policy enforcement) and the Non-RT RIC (rApps, managed Near-RT RICs,
  policy minting).
- **The app framework.** The xApp and rApp base classes and the example
  load-balancing rApp.
- **O1.** The configuration store: store, get, apply, roll back, commit.
- **Mobility.** The UE with its random-waypoint and Manhattan mobility
  models.
- **E2 service models.** The E2SM-KPM and E2SM-RC message models.

## How the model is built

**Values and dicts.**
- A Python value is a `Base.Value` and a dict is a `Base.Content`.
- An insertion-ordered Python dict is a `PyDict.Dict`: a sequence of
  key/value pairs with distinct keys.

**Side effects become return values.**
- Exceptions are `Result` errors, named after the Python exception class.
- A call to `scheduler.add_event` becomes a returned `Channel.Request`,
  which holds the delay and the callback.
- A drain that calls receivers returns one `Channel.Outcome` per call: the
  call returned, the call raised, or nobody was called.
- Which receiver calls raise is a parameter. The drains do assume that a
  receiver does not call back into the interface serving it; "## Left
  out" lists what such a call would change.
- Which fired scheduler entries raise is a parameter too, of
  `Scheduler.RunChecked`. A callback the model gives an `Err` result,
  such as `LoadBalancing.Monitor` or `Mobility.UpdateUe`, stands for an
  entry that parameter picks. `Scheduler.Run` is the run in which
  nothing raises.

**Randomness becomes parameters.**
- Normal draws are parameters.
- `random.uniform(a, b)` is a fraction in [0, 1] scaled onto the range.
- `random.choice(xs)` is an index `pick` taken modulo `|xs|`.
- `np.linalg.norm` is a parameter `dist` constrained to be the Euclidean
  length of its vector.

**The event engine.** simpy's engine is `EventQueue`. Pending entries are
ordered by time, then by insertion. A periodic process re-inserts itself
one period later each time it fires. A run stops strictly before the end
time. When a fired job raises, simpy re-raises the exception from `run`
only when the failed process's own event comes up. That event is queued
behind every entry already pending at the same instant, so those entries
still fire first. Times are exact reals, not binary floats.

**Values from the running program.** Where the code looks at an object's
identity or attributes, the model takes a function parameter instead:
`idOf` gives a RIC's `near_rt_ric_id`, and `hosts` stands in for a RIC's
`e2_nodes` lookup.

## Model

| member | source | states |
|---|---|---|
| EventQueue.Schedule | oransim/simulation/scheduler.py:30-34 | a negative delay is a ValueError; otherwise exactly one new entry, due `delay` after now with the next sequence number, joins the pending entries and the queue stays ordered |
| EventQueue.Insert | oransim/simulation/scheduler.py:32-34 | a newly scheduled entry joins the pending entries in (time, insertion) order, and nothing else is added or lost |
| EventQueue.Step | oransim/simulation/scheduler.py:55-61 | firing the head moves the clock forward to its time, and only a periodic head takes up a new sequence number |
| EventQueue.StepMembers | oransim/simulation/scheduler.py:55-61 | after a step the pending entries are exactly those behind the head, plus, for a periodic head, the head one period later |
| EventQueue.Fire | oransim/simulation/scheduler.py:37-43 | after firing up to an end time nothing due before it remains pending and the clock never goes back |
| EventQueue.FireOrdered | oransim/simulation/scheduler.py:37-43 | the fired trace is in strict (time, insertion) order within [now, until), and each entry was pending or was created by a process later |
| EventQueue.FireDue | oransim/simulation/scheduler.py:37-43 | every entry due before the end time fires, and every other entry stays pending |
| EventQueue.FireOnceKept | oransim/simulation/scheduler.py:30-35 | a one-shot callback fires at most where it was scheduled; the engine invents none |
| EventQueue.FireKeepsProcesses | oransim/simulation/scheduler.py:55-61 | in a run where nothing raises, a UE process never ends: after the run it is still pending |
| EventQueue.FirePeriodic | oransim/simulation/scheduler.py:59-61 | each time a process fires, its next wake-up one period later either fires within the run or is left pending |
| EventQueue.FireEveryPeriod | oransim/simulation/scheduler.py:59-61 | a pending process fires at every multiple of its period, in exact arithmetic, that falls before the end time |
| EventQueue.FireAllOnce | oransim/simulation/scheduler.py:22-35 | with only one-shot callbacks pending, a run fires exactly the due prefix of the queue and leaves the rest in order |
| EventQueue.Run | oransim/simulation/scheduler.py:37-43 | an end time not after now is a ValueError; otherwise the clock stands at the end time and nothing due before it remains |
| EventQueue.StepChecked | oransim/simulation/scheduler.py:30-61 | a raising job's process ends: its entry leaves the queue and nothing is put back; a job that returns steps as usual |
| EventQueue.FireInstant | oransim/simulation/scheduler.py:37-43 | after a job raises at time t, every entry already pending at t still fires, and what is left pending is all later than t |
| EventQueue.FireChecked | oransim/simulation/scheduler.py:37-43 | a run in which jobs may raise stops at a raising entry, with the clock at its time, having fired nothing later than that time; a run that meets none fires everything due |
| EventQueue.FireCheckedNoRaise | oransim/simulation/scheduler.py:37-43 | a run ends without an exception exactly when no entry of the plain run raises, and it is then the plain run |
| EventQueue.FireCheckedFirstRaise | oransim/simulation/scheduler.py:37-43 | the entry that stops a run is the first raising entry of the plain run, and up to it the two runs fire the same entries |
| EventQueue.RunChecked | oransim/simulation/scheduler.py:37-43 | `run` re-raises the first exception of a fired job and leaves the clock at that job's time; an end time not after now is a ValueError; otherwise the clock ends at `until` |
| EventQueue.RunCheckedNoRaise | oransim/simulation/scheduler.py:37-43 | `run` finishes normally exactly when no entry of the plain run raises, and then gives the plain run |
| Scheduler.NewIsEmpty | oransim/simulation/scheduler.py:12-20 | a new scheduler starts at time zero with no UEs and nothing pending |
| Scheduler.AddEvent | oransim/simulation/scheduler.py:22-35 | a negative delay is a ValueError; otherwise the callback is pending once, due `delay` from now, and the UE list and clock are unchanged |
| Scheduler.AddUe | oransim/simulation/scheduler.py:45-52 | the UE is appended and its movement process is pending, first waking 0.1 s from now |
| Scheduler.Run | oransim/simulation/scheduler.py:37-43 | in a run where no callback or UE update raises: an end time not after now is a ValueError; otherwise the clock ends at `until`, the UE list is unchanged (positions change through the UE entries of the trace) and every fired entry lies in [now, until) |
| Scheduler.RunChecked | oransim/simulation/scheduler.py:30-61 | a raising callback or UE update makes `run` re-raise, with the clock left at that entry's time, which lies in [now, until); otherwise the clock ends at `until`; the UE list never changes |
| Scheduler.RunCheckedMatchesRun | oransim/simulation/scheduler.py:30-61 | a run in which entries may raise finishes exactly when no entry of the plain run raises, and then agrees with it; otherwise it stops at the first raising entry of the plain run |
| Scheduler.UeErrorStopsRun | oransim/simulation/scheduler.py:37-61 | a UE whose update raises stops `run(until=1)` at t = 0.1 with only that tick fired and the UE's process gone |
| Scheduler.EventFiresAfterDelay | oransim/simulation/scheduler.py:22-43 | a scheduled callback fires in a run exactly when its due time is before the end time, and otherwise stays pending |
| Scheduler.FreshEventFires | tests/simulation/test_scheduler.py:25-27 | a callback with delay 1 fires under `run(until=2)` |
| Scheduler.TwoEventsFire | tests/test_simulation.py:23-26 | callbacks at 1 and 3 both fire, once each and in that order, under `run(until=4)` |
| Scheduler.ClockAfterRun | tests/simulation/test_scheduler.py:51-53 | the clock starts at 0 and reads 5 after `run(until=5)` with a UE added |
| Scheduler.UeMovesEveryPeriod | oransim/simulation/scheduler.py:55-61 | an added UE is moved at every 0.1 s tick, in exact arithmetic, before the end time |
| Channel.Attempt | oransim/interfaces/x2.py:81-86 | a receiver call is made with the target and payload, and is recorded as raised exactly when the receiver raises |
| Channel.Calls | oransim/interfaces/x2.py:77-86 | the calls a drain made are read off its outcomes in order, one per outcome that called a receiver |
| Channel.CallsIgnoreFailures | oransim/interfaces/x2.py:81-86 | outcomes that differ only in which calls raised record the same calls |
| Channel.Deliver | oransim/interfaces/x2.py:81-86 | a payload with a receiver calls it and records whether it raised; one without a receiver is dropped |
| Channel.Drain | oransim/interfaces/x2.py:75-86 | a drain settles every queued payload once and in order, calling the receiver routed to it exactly when there is one and catching a raise |
| Channel.DrainCalls | oransim/interfaces/x2.py:75-86 | the calls a drain makes are exactly the routable payloads with their receivers, in queue order |
| Channel.DrainIsolatesFailures | oransim/interfaces/x2.py:75-86 | which receivers raise changes neither which calls a drain makes nor their order |
| PeerRouter.ReceiverMethod | oransim/interfaces/xn.py:76-87 | X2 delivers through `receive_x2_message` and Xn through `receive_xn_message` |
| PeerRouter.NewIsEmpty | oransim/interfaces/x2.py:18-28 | a new router has no nodes and an empty queue |
| PeerRouter.Register | oransim/interfaces/x2.py:30-43 | a new id is added; a duplicate id keeps its first node; no other registration changes |
| PeerRouter.Unregister | oransim/interfaces/x2.py:45-56 | the id is gone, all other registrations are kept, and an unknown id changes nothing |
| PeerRouter.RegisterUnregister | oransim/interfaces/x2.py:30-56 | registering a fresh id and then unregistering it restores the router |
| PeerRouter.RegisterFirstWins | oransim/interfaces/x2.py:38-40 | a second registration under the same id has no effect |
| PeerRouter.Send | oransim/interfaces/x2.py:58-73 | an unregistered source or destination is a ValueError; otherwise the message goes on the end of the queue and a zero-delay drain is requested |
| PeerRouter.Route | oransim/interfaces/x2.py:82-85 | a message goes to the node registered under its destination id when the drain runs, and to nobody when none is |
| PeerRouter.ProcessQueue | oransim/interfaces/x2.py:75-86 | the drain empties the queue, handles every message once and in order, calls the destination's receiver exactly when it is registered, and catches a raising receiver |
| PeerRouter.DrainIdempotent | oransim/interfaces/x2.py:75-86 | a drain right after a drain delivers nothing |
| PeerRouter.SendThenDrain | oransim/interfaces/x2.py:58-86 | on an idle router a send followed by the drain calls the destination exactly once, with the message and the source id |
| F1.NewIsEmpty | oransim/interfaces/f1.py:15-27 | a new F1 interface has no CU-UP, CU-CP or DU and nothing queued |
| F1.SetCuUp | oransim/interfaces/f1.py:29-36 | only the CU-UP slot changes |
| F1.SetCuCp | oransim/interfaces/f1.py:38-45 | only the CU-CP slot changes |
| F1.SetDu | oransim/interfaces/f1.py:47-54 | only the DU slot changes |
| F1.SlotOf | oransim/interfaces/f1.py:80-87 | "o_cu_cp", "o_cu_up" and "o_du" address the CU-CP, CU-UP and DU slots; any other name addresses none; the code tests each slot for truthiness, and a node object is always truthy, so a slot holding a node counts as set |
| F1.Send | oransim/interfaces/f1.py:56-71 | a source or destination outside the three names is a ValueError; otherwise the message is queued and a zero-delay drain is requested |
| F1.ProcessQueue | oransim/interfaces/f1.py:73-88 | the drain handles every message once and in order; a message reaches the node in its destination slot exactly when that slot is set, and a raise is caught |
| F1.SendToDu | oransim/interfaces/f1.py:56-88 | a message sent to "o_du" on an idle interface reaches the DU exactly once when one is set, and nobody otherwise |
| E2.NewIsEmpty | oransim/interfaces/e2.py:16-28 | a new E2 interface has no subscribers and an empty queue |
| E2.Subscribe | oransim/interfaces/e2.py:72-89 | a non-string id or a non-callable callback is a TypeError; otherwise the id maps to the callback, keeps its place if it was present or is appended if new, and no other subscriber changes |
| E2.Unsubscribe | oransim/interfaces/e2.py:91-101 | the id no longer receives, other subscribers keep their callbacks and their relative call order, the queue is kept, and an unknown id changes nothing |
| E2.SubscribeUnsubscribe | oransim/interfaces/e2.py:72-101 | subscribing a new id and unsubscribing it restores the interface |
| E2.SendMessage | oransim/interfaces/e2.py:30-39 | the message and node id go on the end of the queue and a zero-delay drain is requested |
| E2.FanOut | oransim/interfaces/e2.py:41-52 | every subscriber is called in dict order with the same payload, and each outcome records whether that call raised |
| E2.FanOutOnce | oransim/interfaces/e2.py:41-52 | an id is called in a fan-out exactly when it is subscribed, and then exactly once |
| E2.ProcessQueue | oransim/interfaces/e2.py:41-52 | the drain empties the queue and hands each queued message, in order, to the subscribers current at drain time |
| E2.DrainIsolatesFailures | oransim/interfaces/e2.py:41-52 | a raising subscriber does not stop the others: every subscriber is called for every message, whatever raises |
| E2.SendIndication | oransim/interfaces/e2.py:54-70 | an indication calls every subscriber once, in order, with the message and the DU id |
| E2.DrainMatchesIndication | oransim/interfaces/e2.py:30-70 | on an idle interface a queued message, once drained, reaches the subscribers exactly as an immediate indication would |
| E2Termination.NewIsEmpty | oransim/core/interfaces/e2.py:4-5 | a new termination has no subscribers |
| E2Termination.Subscribe | oransim/core/interfaces/e2.py:7-9 | the xApp id maps to the callback, no other subscriber changes, and a new id is called last while a known one keeps its place |
| E2Termination.CallUntilRaise | oransim/core/interfaces/e2.py:11-13 | subscribers are called in order with the message; calls stop right after the first one that raises |
| E2Termination.Publish | oransim/core/interfaces/e2.py:11-13 | the publish raises exactly when some subscriber raises; it then stops at that subscriber, and otherwise every subscriber returned |
| E2Termination.PublishIsFanOutPrefix | oransim/core/interfaces/e2.py:11-13 | a publish makes a prefix of the calls the newer E2 hub's fan-out makes |
| E2Termination.OutcomeOfCall | oransim/core/interfaces/e2.py:11-13 | how a subscriber call ends is fixed by the subscriber, the message and whether the call raised |
| E2Termination.PublishNoSubscribers | oransim/core/interfaces/e2.py:11-13 | with no subscribers a publish calls nobody and raises nothing |
| OpenFronthaul.NewDefaults | oransim/interfaces/open_fronthaul.py:15-30 | the defaults are a mean latency of 0.1 s, a deviation of 0.02 s and a jitter of 0.005 s, with no endpoints |
| OpenFronthaul.SetORu | oransim/interfaces/open_fronthaul.py:33-40 | only the O-RU endpoint changes |
| OpenFronthaul.SetODu | oransim/interfaces/open_fronthaul.py:42-49 | only the O-DU endpoint changes |
| OpenFronthaul.CalculateLatency | oransim/interfaces/open_fronthaul.py:69-78 | the latency is the latency draw plus the jitter draw, clamped at zero, and never negative |
| OpenFronthaul.Transmit | oransim/interfaces/open_fronthaul.py:51-67 | endpoints that are not the configured ones are a ValueError and a missing O-DU is an AttributeError; otherwise the O-DU's `receive_iq_data` is scheduled with a non-negative delay |
| OpenFronthaul.TransmitConfigured | oransim/interfaces/open_fronthaul.py:33-67 | once both endpoints are set, sending between exactly them always schedules the delivery to that O-DU |
| OpenFronthaul.LatencyMonotone | oransim/interfaces/open_fronthaul.py:69-78 | the latency never decreases when either draw increases |
| Nodes.DefaultDuConfig | oransim/core/nodes.py:9-12 | the base-station defaults are 100 UEs and 46.0 transmit power |
| Nodes.NewDuIsEmpty | oransim/core/nodes.py:32-35 | a new O-DU has received no IQ data |
| Nodes.ReceiveIqData | oransim/core/nodes.py:37-39 | exactly one IQ block is added, at the end, and the configuration is unchanged |
| Nodes.Override | oransim/core/nodes.py:42-47 | a field takes the dict's value when the key is present and keeps its own value otherwise |
| Nodes.ApplyDuConfig | oransim/core/nodes.py:42-47 | `max_ues` and `transmit_power` are overwritten only when the dict names them, and nothing else changes |
| Nodes.DefaultRuConfig | oransim/core/nodes.py:53-58 | the RU defaults are 3.5 GHz, 100 MHz, 46.0 dBm and 1024 samples per slot |
| Nodes.NewRuIsEmpty | oransim/core/nodes.py:61-65 | a new O-RU keeps the given configuration and starts with an empty IQ buffer |
| Nodes.ApplyRuConfig | oransim/core/nodes.py:78-85 | `frequency`, `bandwidth` and `tx_power` are overwritten only when named, and nothing else changes |
| Nodes.ApplyDuConfigMerges | oransim/core/nodes.py:42-47 | applying two dicts in turn is applying their merge, with the later dict's keys winning |
| Nodes.ApplyRuConfigMerges | oransim/core/nodes.py:78-85 | applying two dicts in turn is applying their merge, with the later dict's keys winning |
| Nodes.ApplyUnrelatedConfig | oransim/core/nodes.py:42-85 | a dict naming none of a node's fields leaves the node unchanged |
| Nodes.RuLatency | oransim/core/nodes.py:72-76 | the O-RU's latency is the draw, raised to one millisecond when below it |
| Nodes.SendIqData | oransim/core/nodes.py:72-76 | the send schedules `receive_iq_data` of the target with this IQ block, after the drawn latency, or one millisecond when the draw is below that |
| Nodes.SendIqDataDelivers | oransim/core/nodes.py:37-76 | running the scheduled delivery appends exactly that block to the O-DU's received IQ data |
| A1PolicyData.TypeValue | oransim/data_models/a1_policy.py:5-11 | the three policy types have the distinct values "POLICY-TYPE-1", "POLICY-TYPE-2" and "POLICY-TYPE-3" |
| A1PolicyData.TypeOfValue | oransim/data_models/a1_policy.py:5-11 | a string names a policy type exactly when it is one of the three values, and then names the type with that value |
| A1PolicyData.ParseType | oransim/data_models/a1_policy.py:24-24 | the `policy_type` field accepts exactly an enum member or one of the three values |
| A1PolicyData.ParseTypeRoundTrip | oransim/data_models/a1_policy.py:5-24 | a type's value and the type's member both parse back to that type |
| A1PolicyData.FieldErrors | oransim/data_models/a1_policy.py:24-41 | a field is reported exactly when it is missing, of the wrong type, or refused by its validator: the id must be non-empty and the target must be "o_du" or "o_ru" |
| A1PolicyData.Validate | oransim/data_models/a1_policy.py:13-45 | validation succeeds exactly when no field is bad; it returns the given values with `version` defaulting to "1.0", and otherwise reports every bad field |
| A1PolicyData.Dump | oransim/data_models/a1_policy.py:43-45 | the dump has exactly the five fields, with the type by its value |
| A1PolicyData.DumpValidates | oransim/data_models/a1_policy.py:13-45 | a policy with a non-empty id and a valid target validates back from its dump unchanged |
| A1PolicyData.ValidateDumps | oransim/data_models/a1_policy.py:13-45 | dumping a validated policy gives back the id, content, target and version it was given, and a type that parses the same |
| A1.FieldErrors | oransim/interfaces/a1.py:17-32 | the A1 interface's policy model only checks types: it reports a missing or mistyped field, and no id or target value is refused |
| A1.FromDict | oransim/interfaces/a1.py:17-32 | construction fails exactly when some field is bad, naming every bad field; otherwise it keeps the given values, with the version defaulting to "1.0" |
| A1.ToDict | oransim/interfaces/a1.py:17-32 | the dict form has exactly the five fields |
| A1.ToDictFromDict | oransim/interfaces/a1.py:17-32 | every policy survives a round trip through its dict form |
| A1.ValidatedIsAccepted | oransim/interfaces/a1.py:17-32 | whatever the validating data model accepts, this model accepts with the same field values |
| A1.LaxerThanValidated | oransim/interfaces/a1.py:17-32 | an empty id with target "o_cu" is accepted here and refused by the validating model |
| A1.PolicyId | oransim/core/ric.py:114-124 | a count-based policy id always starts with "policy-" |
| A1.PolicyIdInjective | oransim/core/ric.py:114-124 | different counts give different policy ids |
| A1.DenseNextIsFresh | oransim/xapp_rapp_framework/rapp.py:48-69 | in a dict numbered `policy-1 ... policy-n` with no gaps, the next count-based id is free |
| A1.SendPolicy | oransim/interfaces/a1.py:54-70 | sending to a RIC other than the interface's own is a ValueError; otherwise the dict sent reconstructs the very policy |
| A1.ReceivePolicy | oransim/interfaces/a1.py:72-93 | receipt succeeds and yields a policy exactly when the dict has no bad field, and the policy carries the dict's id, content and target |
| Ric.NewNearRtRicIsEmpty | oransim/core/ric.py:15-24 | a new Near-RT RIC has no xApps, no A1 policies and no E2 nodes |
| Ric.AddXapp | oransim/core/ric.py:26-30 | the xApp is stored under its id and its `receive_indication` is subscribed under that id; no other xApp, subscriber, policy or node changes, and a new id goes last in both orders while a known one keeps its place |
| Ric.RemoveXapp | oransim/core/ric.py:32-39 | the xApp and its subscription are gone, the remaining xApps and subscribers keep their values and relative order, policies and nodes are untouched, and an unknown id changes nothing |
| Ric.XappsStaySubscribed | oransim/core/ric.py:26-39 | adding and removing xApps keeps every registered xApp subscribed on E2 |
| Ric.AddThenRemoveXapp | oransim/core/ric.py:26-39 | adding an xApp under a fresh id and removing it again restores the RIC |
| Ric.StoreA1Policy | oransim/core/ric.py:51-54 | the policy is kept under its id, replacing one already stored there, and the other policies are unchanged |
| Ric.LastPolicyWins | oransim/core/ric.py:51-54 | of two policies stored under one id the later is kept, with the key order of a single store |
| Ric.ReceiveA1Policy | oransim/core/ric.py:41-49 | a dict the A1 policy model refuses leaves the RIC unchanged; an accepted one is stored |
| Ric.ReceivePolicyVia | oransim/interfaces/a1.py:72-93 | the A1 interface answers True exactly when the dict was accepted, and the RIC then holds the policy the interface built |
| Ric.ApplyTo | oransim/core/ric.py:56-69 | one policy is applied to exactly the E2 nodes of the class its target names, never to another class |
| Ric.Sweep | oransim/core/ric.py:56-69 | each listed policy is applied to exactly the nodes of its target class |
| Ric.ApplyToAppend | oransim/core/ric.py:56-69 | applications follow node order: the nodes of an earlier run are served before those of a later run |
| Ric.ApplyToOne | oransim/core/ric.py:56-69 | one node yields at most one application, and it does exactly when its class matches the policy's target |
| Ric.SweepAppend | oransim/core/ric.py:56-69 | applications follow policy order: all applications of an earlier policy come before those of a later one |
| Ric.EnforceA1Policies | oransim/core/ric.py:56-69 | enforcement applies each stored policy to exactly the registered nodes of the class its target names |
| Ric.EnforceRespectsClass | oransim/core/ric.py:56-69 | only O-DUs receive "o_du" policies and only O-RUs receive "o_ru" ones; other targets reach no node |
| Ric.ReceiveE2Message | oransim/core/ric.py:71-74 | an E2 message is passed to every subscriber, once each, in subscription order, as an indication from that node, and each call raises exactly when that subscriber fails on it |
| Ric.RegisterE2Node | oransim/core/ric.py:76-79 | after registration the id looks up that node and no other lookup changes |
| Ric.GetE2Node | oransim/core/ric.py:81-83 | a lookup gives None exactly for an unregistered id, and otherwise the registered node |
| Ric.NewNonRtRicIsEmpty | oransim/core/ric.py:94-99 | a new Non-RT RIC has no rApps and manages no Near-RT RIC |
| Ric.AddRapp | oransim/core/ric.py:101-104 | the rApp is stored under its id and no other rApp changes |
| Ric.RemoveRapp | oransim/core/ric.py:106-112 | the rApp is gone, the others are kept, and an unknown id changes nothing |
| Ric.AddThenRemoveRapp | oransim/core/ric.py:101-112 | adding an rApp under a fresh id and removing it again restores the Non-RT RIC |
| Ric.AddManagedNearRtRic | oransim/core/ric.py:131-133 | the RIC is appended to the managed list, so a RIC can be listed twice |
| Ric.CreateA1Policy | oransim/core/ric.py:114-124 | the new policy's id is `policy-(n+1)` for a Near-RT RIC holding n policies; it has the given type, content and target and version "1.0" |
| Ric.CreateTwiceSameId | oransim/core/ric.py:114-124 | two creations with no store in between mint the same id |
| Ric.CreateThenStoreAdvances | oransim/core/ric.py:114-124 | with densely numbered policies the minted id is new, and storing it adds one policy |
| Ric.SendA1Policy | oransim/core/ric.py:126-129 | sending fails exactly when the RIC is not the A1 interface's own; otherwise the dict rebuilds the policy |
| Ric.SendThenReceiveStores | oransim/core/ric.py:41-129 | end to end, a policy the Non-RT RIC sends is stored, unchanged, in the receiving Near-RT RIC |
| RApp.New | oransim/xapp_rapp_framework/rapp.py:19-32 | a new rApp holds no policy |
| RApp.Register | oransim/xapp_rapp_framework/rapp.py:34-39 | registering stores the rApp in the Non-RT RIC under its id and changes nothing else there |
| RApp.Unregister | oransim/xapp_rapp_framework/rapp.py:41-46 | unregistering removes the rApp's id and keeps every other rApp |
| RApp.RegisterThenUnregister | oransim/xapp_rapp_framework/rapp.py:34-46 | registering and then unregistering an unregistered rApp restores the Non-RT RIC |
| RApp.CreateA1Policy | oransim/xapp_rapp_framework/rapp.py:48-69 | the policy gets id `policy-(n+1)` for n held policies, the given fields and version "1.0", and is stored under that id, overwriting nothing else |
| RApp.CreateKeepsDense | oransim/xapp_rapp_framework/rapp.py:48-69 | without deletions ids stay `policy-1, policy-2, ...` in order, and each creation adds a policy |
| RApp.FindRic | oransim/xapp_rapp_framework/rapp.py:85-92 | the search finds the first managed RIC with the id, or reports none exactly when no RIC has it |
| RApp.SendA1Policy | oransim/xapp_rapp_framework/rapp.py:71-95 | an unknown policy is a KeyError and an unknown RIC id a ValueError; the send succeeds exactly when the found RIC is the A1 interface's own, and then carries the stored policy |
| RApp.UpdateA1Policy | oransim/xapp_rapp_framework/rapp.py:97-109 | an unknown id is a KeyError; otherwise only that policy's content changes, and the keys and other policies are kept |
| RApp.UpdateKeepsIdentity | oransim/xapp_rapp_framework/rapp.py:97-109 | an update keeps the policy's id, type, version and target and sets the new content |
| RApp.DeleteA1Policy | oransim/xapp_rapp_framework/rapp.py:111-122 | an unknown id is a KeyError; otherwise that policy alone is removed |
| RApp.CreateThenDelete | oransim/xapp_rapp_framework/rapp.py:48-122 | deleting the policy just created restores the rApp, when the id it took was free |
| RApp.CreateAfterDeleteCollides | oransim/xapp_rapp_framework/rapp.py:60-67 | after create, create, delete the first, a third creation reuses the second's id and silently replaces that policy |
| XApp.Register | oransim/xapp_rapp_framework/xapp.py:35-40 | after registering, the RIC holds the xApp and its `receive_indication` is subscribed on E2; other xApps, subscribers, policies and nodes are untouched, and a new id is appended to both orders |
| XApp.Unregister | oransim/xapp_rapp_framework/xapp.py:42-47 | after unregistering the RIC no longer holds the xApp and a registered xApp's subscription is gone; everything else, including the order of the remaining xApps and subscribers, is kept |
| XApp.RegisterThenUnregister | oransim/xapp_rapp_framework/xapp.py:35-47 | registering and unregistering an unknown xApp leaves the RIC as it was |
| XApp.RegisteredHearsIndication | oransim/xapp_rapp_framework/xapp.py:49-59 | a registered xApp hears each E2 message the RIC receives exactly once, through its own callback |
| XApp.SendControlMessage | oransim/xapp_rapp_framework/xapp.py:61-73 | a control message goes on the end of the RIC's E2 queue with a zero-delay drain, and nothing else in the RIC changes |
| XApp.ControlMessageDrains | oransim/xapp_rapp_framework/xapp.py:61-73 | once drained, a control message reaches every subscriber as an indication would |
| LoadBalancing.New | oransim/xapp_rapp_framework/examples/load_balancing_rapp.py:20-23 | the default load threshold is 0.8 |
| LoadBalancing.Register | oransim/xapp_rapp_framework/examples/load_balancing_rapp.py:25-31 | registering is the rApp's registration plus the first monitor run five seconds later |
| LoadBalancing.OverloadedAt | oransim/xapp_rapp_framework/examples/load_balancing_rapp.py:47-47 | it gives, in increasing order, exactly the positions whose load is strictly above the threshold |
| LoadBalancing.Overloaded | oransim/xapp_rapp_framework/examples/load_balancing_rapp.py:47-47 | it gives the ids at exactly those positions |
| LoadBalancing.OverloadedExactly | oransim/xapp_rapp_framework/examples/load_balancing_rapp.py:47-47 | an O-DU is reported exactly when its load is strictly above the threshold, and reports keep the loads' order |
| LoadBalancing.ArgMin | oransim/xapp_rapp_framework/examples/load_balancing_rapp.py:68-68 | it finds the first position of least load |
| LoadBalancing.LeastLoaded | oransim/xapp_rapp_framework/examples/load_balancing_rapp.py:68-68 | no loads is a ValueError; otherwise the result is the first id of least load |
| LoadBalancing.SteerContent | oransim/xapp_rapp_framework/examples/load_balancing_rapp.py:71-77 | the policy content has exactly the five keys and names the source and target O-DUs |
| LoadBalancing.FirstHosting | oransim/xapp_rapp_framework/examples/load_balancing_rapp.py:80-87 | it finds the first managed RIC hosting the O-DU, or reports none exactly when no RIC hosts it |
| LoadBalancing.Hosted | oransim/xapp_rapp_framework/examples/load_balancing_rapp.py:79-87 | it keeps exactly the O-DUs some managed RIC hosts, never more than it was given |
| LoadBalancing.BalanceOne | oransim/xapp_rapp_framework/examples/load_balancing_rapp.py:66-87 | the TYPE_2 "o_du" steering policy is created and stored under the next id whether or not a RIC hosts the O-DU, and nothing else is replaced; it is sent, once, exactly when some managed RIC hosts the O-DU, to the first such RIC; the turn fails, with ValueError, exactly when that RIC is not the A1 interface's own |
| LoadBalancing.CreateSteerDense | oransim/xapp_rapp_framework/examples/load_balancing_rapp.py:78-78 | creating the steering policy in a densely numbered rApp keeps the numbering dense and adds exactly one policy |
| LoadBalancing.SteersToWiden | oransim/xapp_rapp_framework/examples/load_balancing_rapp.py:66-87 | a policy steering from some O-DU of a list also steers from some O-DU of any larger list |
| LoadBalancing.Initiate | oransim/xapp_rapp_framework/examples/load_balancing_rapp.py:58-87 | overloaded O-DUs with no loads are a ValueError; a success means every overloaded O-DU was reachable, and then the sends match the hosted overloaded O-DUs one for one, in order, each steering from its O-DU to the least-loaded one and going to the first RIC hosting it |
| LoadBalancing.InitiateSends | oransim/xapp_rapp_framework/examples/load_balancing_rapp.py:66-87 | the first O-DU's send, if any, followed by the rest's sends are the sends for the hosted O-DUs in order |
| LoadBalancing.InitiateSendsNothing | oransim/xapp_rapp_framework/examples/load_balancing_rapp.py:80-87 | when no managed RIC hosts any overloaded O-DU, balancing succeeds and sends nothing |
| LoadBalancing.InitiateSendsOnePerHosted | oransim/xapp_rapp_framework/examples/load_balancing_rapp.py:66-87 | with some load to compare, balancing succeeds exactly when every overloaded O-DU is reachable, and then sends one policy per hosted O-DU |
| LoadBalancing.InitiateCreatesOnePerOverloaded | oransim/xapp_rapp_framework/examples/load_balancing_rapp.py:66-78 | a successful run creates one steering policy per overloaded O-DU, hosted or not, under consecutive new ids in order, and leaves the earlier policies untouched |
| LoadBalancing.InitiateCreates | oransim/xapp_rapp_framework/examples/load_balancing_rapp.py:66-78 | the first turn's policy under the next id and the rest's policies under the ids after it together are the run's policies |
| LoadBalancing.SampleLoads | oransim/xapp_rapp_framework/examples/load_balancing_rapp.py:41-45 | the monitor samples loads for `o_du_1`, `o_du_2`, `o_du_3` in that order |
| LoadBalancing.Monitor | oransim/xapp_rapp_framework/examples/load_balancing_rapp.py:33-56 | with no O-DU over the threshold nothing is sent; the run succeeds exactly when every overloaded O-DU is reachable, and a run that does not raise reschedules itself five seconds on, sends one policy per hosted overloaded O-DU towards the least-loaded one, and creates one policy per overloaded O-DU |
| LoadBalancing.SecondDuNeverOverloaded | oransim/xapp_rapp_framework/examples/load_balancing_rapp.py:41-47 | with the sampled ranges `o_du_2` is never overloaded at 0.8, and `o_du_3` is never the least loaded |
| LoadBalancing.TargetCanBeSource | oransim/xapp_rapp_framework/examples/load_balancing_rapp.py:47-68 | with only one O-DU, and that one overloaded, the least-loaded O-DU is the overloaded one, so the policy steers it to itself |
| O1.New | oransim/interfaces/o1.py:25-40 | a new interface holds no configuration |
| O1.CurrentConfig | oransim/interfaces/o1.py:110-121 | the current configuration is the node's own dict or, after a rollback, the very history entry rolled back to |
| O1.Store | oransim/interfaces/o1.py:82-108 | a config without `node_id` is a KeyError; otherwise the config is appended to that node's history, merged into its current configuration, the status becomes APPLIED at the newest version, and other nodes are unchanged |
| O1.StoreKeepsOtherEntries | oransim/interfaces/o1.py:82-108 | a store changes no history entry except the one the current configuration aliases |
| O1.GetNodeConfig | oransim/interfaces/o1.py:110-121 | an unknown node is a KeyError; otherwise the result is the current configuration |
| O1.ApplyConfig | oransim/interfaces/o1.py:123-136 | an unknown node id or a node without `apply_o1_config` leaves the node as it was; otherwise the node applies its current configuration |
| O1.ApplyConfigs | oransim/interfaces/o1.py:138-149 | every node in the dict gets `apply_config` under its own id, in order, and nothing is raised |
| O1.RollbackTarget | oransim/interfaces/o1.py:162-171 | with no version the target is the second-last entry, and a history of one entry is a ValueError; a version outside the history is a ValueError |
| O1.Rollback | oransim/interfaces/o1.py:151-185 | an unknown node is a KeyError and a bad version a ValueError; otherwise the history is kept, the status becomes ROLLED_BACK at the target version, and the current configuration is that history entry itself |
| O1.Commit | oransim/interfaces/o1.py:187-199 | an unknown node raises a bare Exception; otherwise only the node's status changes, to COMMITTED |
| O1.CommitIdempotent | oransim/interfaces/o1.py:187-199 | committing twice is the same as committing once |
| O1.RollbackRestores | oransim/interfaces/o1.py:151-185 | after rolling back to a version, reading the configuration gives that version's entry |
| O1.StoreAfterRollbackRewritesHistory | oransim/interfaces/o1.py:174-177 | after a rollback, a store with a new key rewrites the rolled-back history entry, so a second rollback to that version no longer restores it |
| O1.RollbackCopy | oransim/interfaces/o1.py:151-185 | a rollback that copies the entry has the same errors, history, status, version and visible configuration as the original, but owns its current dict |
| O1.HistoryAppendOnly | oransim/interfaces/o1.py:82-199 | with copying rollbacks, store only appends to a history, and rollback and commit leave every history as it was |
| O1.CopyingRollbackRestoresAgain | oransim/interfaces/o1.py:151-185 | with copying rollbacks, a later store leaves the rolled-back entry alone, so rolling back to it again restores it |
| Mobility.ScaleNorm | oransim/core/mobility.py:116-122 | scaling a vector by a non-negative factor scales its length by that factor |
| Mobility.Move | oransim/core/mobility.py:116-122 | a UE closer to its target than one step lands exactly on it |
| Mobility.MoveOnTarget | oransim/core/mobility.py:116-122 | a UE already on its target stays there |
| Mobility.MoveApproaches | oransim/core/mobility.py:116-122 | a step either reaches the target or moves exactly `step` along the straight line, leaving `dist - step` to go |
| Mobility.NewWaypoint | oransim/core/mobility.py:79-97 | a new waypoint model has no target, is not paused and has a zero pause timer |
| Mobility.WaypointUpdate | oransim/core/mobility.py:100-122 | a paused UE stays put and its pause ends when the timer reaches the drawn pause; a UE without a target, or near it, stays put, pauses and gets a new target inside the area; otherwise it moves toward its target |
| Mobility.Max0 | oransim/core/mobility.py:106-106 | a drawn pause is raised to zero when negative |
| Mobility.UniformInRange | oransim/core/mobility.py:112-112 | a uniform draw over a side lies between 0 and that side |
| Mobility.FirstUpdateStays | oransim/core/mobility.py:100-114 | the first update of a new waypoint model picks a waypoint and pauses without moving the UE |
| Mobility.PausedNeverMoves | oransim/core/mobility.py:104-109 | a paused UE does not move, including on the tick that ends its pause |
| Mobility.NewManhattan | oransim/core/mobility.py:128-141 | a new Manhattan model has no target and keeps the given speed, grid and block size |
| Mobility.Candidates | oransim/core/mobility.py:151-159 | the candidates are exactly the up, down, left and right neighbours that lie inside the grid |
| Mobility.CandidatesAreNeighbours | oransim/core/mobility.py:151-159 | every candidate differs from the current cell by one step in one coordinate |
| Mobility.CandidatesInBounds | oransim/core/mobility.py:151-159 | from a cell inside the grid every candidate is inside the grid |
| Mobility.FloorDiv | oransim/core/mobility.py:148-149 | a nonzero block gives the integer at or just below the quotient; a zero block gives infinity, an OverflowError in `int`, or NaN for a zero component, a ValueError |
| Mobility.ManhattanUpdate | oransim/core/mobility.py:143-169 | a UE away from its target moves toward it; one with no target, or on its target, stays put and heads for the corner of a neighbouring cell; with a nonzero block size the retarget fails exactly when the cell has no neighbour, with IndexError, and otherwise takes the `pick`-th neighbour modulo their number; a zero block size fails on the row component, with ValueError when it is zero and OverflowError otherwise |
| Mobility.SingleCellHasNoMove | oransim/core/mobility.py:151-162 | on a 1 x 1 grid the first update raises, because no neighbour exists |
| Mobility.ManhattanPicksWhenNeighbours | oransim/core/mobility.py:147-162 | from a cell inside the grid the retarget succeeds exactly when the grid has more than one cell, and the new target is the corner of an in-grid cell one step away |
| Mobility.Heading | tests/core/test_mobility.py:64-69 | the test's Manhattan model heads for (15, 5) at speed 5 |
| Mobility.ManhattanWalksHalfway | tests/core/test_mobility.py:69-73 | from (5, 5) toward (15, 5) at speed 5, one second reaches (10, 5) |
| Mobility.ManhattanArrives | tests/core/test_mobility.py:76-78 | the next second the UE reaches (15, 5) and does not overshoot |
| Mobility.UpdateUe | oransim/core/mobility.py:43-50 | the UE's new position and model state are exactly what its mobility model gives, and a Manhattan failure is passed on |
| Fields.AsStr | oransim/data_models/e2sm_kpm.py:14-20 | a `str` field accepts exactly strings |
| Fields.AsFloat | oransim/data_models/e2sm_kpm.py:14-20 | a `float` field accepts floats and ints, and widens an int |
| Fields.Nested | oransim/data_models/e2sm_kpm.py:29-32 | a nested model field validates a dict with the nested model and refuses anything else |
| Fields.EachOk | oransim/data_models/e2sm_kpm.py:29-33 | a list field is accepted exactly when every item validates, and then holds the validated items in order |
| Fields.EachOkOfDumps | oransim/data_models/e2sm_kpm.py:29-33 | items that each validate to given values validate, as a list, to exactly those values |
| E2smKpm.MeasValue | oransim/data_models/e2sm_kpm.py:5-12 | the three measurement types have the distinct values "RSRP", "RSRQ" and "SNR" |
| E2smKpm.ParseMeasType | oransim/data_models/e2sm_kpm.py:5-18 | a measurement type is accepted exactly as one of those values or the matching member |
| E2smKpm.RecordErrors | oransim/data_models/e2sm_kpm.py:14-20 | a record field is reported exactly when it is missing or has the wrong type |
| E2smKpm.ValidateRecord | oransim/data_models/e2sm_kpm.py:14-20 | a record validates exactly when no field is bad, and then carries the given values |
| E2smKpm.DumpRecord | oransim/data_models/e2sm_kpm.py:14-20 | a dumped record has exactly its three fields |
| E2smKpm.RecordRoundTrip | oransim/data_models/e2sm_kpm.py:14-20 | every record validates back from its dump |
| E2smKpm.RecordItem | oransim/data_models/e2sm_kpm.py:29-33 | a list item is a record exactly when it is a dict that validates as one |
| E2smKpm.HeaderErrors | oransim/data_models/e2sm_kpm.py:22-27 | a header field is reported exactly when it is missing or has the wrong type |
| E2smKpm.ValidateHeader | oransim/data_models/e2sm_kpm.py:22-27 | a header validates exactly when no field is bad, and then carries the given values |
| E2smKpm.DumpHeader | oransim/data_models/e2sm_kpm.py:22-27 | a dumped header has exactly its two fields |
| E2smKpm.HeaderRoundTrip | oransim/data_models/e2sm_kpm.py:22-27 | every header validates back from its dump |
| E2smKpm.MessageErrors | oransim/data_models/e2sm_kpm.py:29-43 | "header" is reported for a bad header and "measurements" for a bad list or an empty one |
| E2smKpm.Validate | oransim/data_models/e2sm_kpm.py:29-43 | a message validates exactly when its header is good and its measurements are a non-empty list of good records, keeping them in order; otherwise every bad field is reported |
| E2smKpm.Dump | oransim/data_models/e2sm_kpm.py:29-38 | the dump has exactly the header and measurements fields |
| E2smKpm.DumpValidates | oransim/data_models/e2sm_kpm.py:29-43 | a message with at least one measurement validates back from its dump unchanged |
| E2smKpm.ValidateIdempotent | oransim/data_models/e2sm_kpm.py:29-43 | validating the dump of a validated message gives the same message |
| E2smKpm.EmptyMeasurementsRejected | oransim/data_models/e2sm_kpm.py:40-43 | an empty measurement list is refused, and only the measurements field is reported |
| E2smKpm.UnknownMeasTypeRejected | oransim/data_models/e2sm_kpm.py:5-18 | a record whose measurement type is not RSRP, RSRQ or SNR makes the message fail |
| E2smRc.ControlValue | oransim/data_models/e2sm_rc.py:5-11 | the two control types have the distinct values "HO_REQUEST" and "BEAMFORMING_UPDATE" |
| E2smRc.ParseControlType | oransim/data_models/e2sm_rc.py:5-16 | a control type is accepted exactly as one of those values or the matching member |
| E2smRc.ActionErrors | oransim/data_models/e2sm_rc.py:13-18 | an action field is reported exactly when it is missing or has the wrong type |
| E2smRc.ValidateAction | oransim/data_models/e2sm_rc.py:13-18 | an action validates exactly when no field is bad, and then carries the given values |
| E2smRc.DumpAction | oransim/data_models/e2sm_rc.py:13-18 | a dumped action has exactly its two fields |
| E2smRc.ActionRoundTrip | oransim/data_models/e2sm_rc.py:13-18 | every action validates back from its dump |
| E2smRc.ActionItem | oransim/data_models/e2sm_rc.py:28-32 | a list item is an action exactly when it is a dict that validates as one |
| E2smRc.HeaderErrors | oransim/data_models/e2sm_rc.py:20-26 | a header field is reported exactly when it is missing or has the wrong type |
| E2smRc.ValidateHeader | oransim/data_models/e2sm_rc.py:20-26 | a header validates exactly when no field is bad, and then carries the given values |
| E2smRc.DumpHeader | oransim/data_models/e2sm_rc.py:20-26 | a dumped header has exactly its three fields |
| E2smRc.HeaderRoundTrip | oransim/data_models/e2sm_rc.py:20-26 | every header validates back from its dump |
| E2smRc.MessageErrors | oransim/data_models/e2sm_rc.py:28-42 | "header" is reported for a bad header and "actions" for a bad list or an empty one |
| E2smRc.Validate | oransim/data_models/e2sm_rc.py:28-42 | a message validates exactly when its header is good and its actions are a non-empty list of good actions, keeping them in order; otherwise every bad field is reported |
| E2smRc.Dump | oransim/data_models/e2sm_rc.py:28-37 | the dump has exactly the header and actions fields |
| E2smRc.DumpValidates | oransim/data_models/e2sm_rc.py:28-42 | a message with at least one action validates back from its dump unchanged |
| E2smRc.ValidateIdempotent | oransim/data_models/e2sm_rc.py:28-42 | validating the dump of a validated message gives the same message |
| E2smRc.EmptyActionsRejected | oransim/data_models/e2sm_rc.py:39-42 | an empty action list is refused, and only the actions field is reported |
| E2smRc.UnknownControlTypeRejected | oransim/data_models/e2sm_rc.py:5-16 | an action whose control type is not one of the two makes the message fail |

## Left out

- **The O-RU's `connected_ues` set.** It is created empty and nothing in
  the core reads or changes it, so the O-RU model has no field for it.
- **simpy internals.** simpy's engine is modelled by its observable
  behaviour only: ordering, re-insertion of processes, and the end time.
  Its generators, process objects and event callbacks are not modelled.
- **Scheduler.AddEvent: when the ValueError is raised.** The model raises
  the ValueError for a negative delay when the event is added. The
  scheduler itself only creates a process at that point, and simpy raises
  when the process first runs. The test at
  tests/simulation/test_scheduler.py:29-32 expects the error at
  `add_event`. The model follows the test's timing, not simpy's.
- **EventQueue.Schedule: when the ValueError is raised.** This is the
  same early ValueError as for `Scheduler.AddEvent`: the model refuses a
  negative delay when the entry is scheduled.
- **Callback bodies.** What a fired callback does is opaque:
  `Scheduler.Run` returns the trace of what fired. Callbacks that
  schedule further events while a run is in progress are not modelled.
- **EventQueue.Fire: runs in which nothing raises.** `Fire` fires every
  due entry. When a job raises, the source's run stops early, and
  `EventQueue.FireChecked` models that run instead.
  `EventQueue.FireCheckedNoRaise` proves the two agree exactly when no
  fired entry raises.
- **EventQueue.Run: runs in which nothing raises.** The aborting run is
  `EventQueue.RunChecked`. `EventQueue.RunCheckedNoRaise` proves the two
  agree when nothing raises.
- **Scheduler.Run: runs in which nothing raises.** For example, add a UE
  on a 1 x 1 Manhattan grid and call `run(until=1)`. The source raises
  IndexError at t = 0.1, but `Scheduler.Run` reaches t = 1.0 with nine
  moves fired. `Scheduler.RunChecked` models the abort, and
  `Scheduler.UeErrorStopsRun` proves this example stops at t = 0.1.
- **EventQueue.FireDue: runs in which nothing raises.** After a raising
  entry, the due entries behind it do not fire in the source.
  `EventQueue.FireCheckedFirstRaise` states where such a run stops.
- **EventQueue.FireKeepsProcesses: runs in which nothing raises.** A UE
  process whose update raises ends. `EventQueue.StepChecked` drops its
  entry.
- **Scheduler.EventFiresAfterDelay: runs in which nothing raises.** An
  earlier raising callback stops a due callback from firing.
  `Scheduler.RunCheckedMatchesRun` covers that case.
- **A second failure at the same instant.** When two entries due at the
  same instant both raise, only the first exception leaves `run`. The
  second failed process's event stays queued in simpy and raises on the
  next `run`. The model drops that second failure.
- **EventQueue.FireEveryPeriod: exact times.** Times are exact reals. simpy
  adds 0.1 to the clock in binary floats, so the ticks fall at 0.1, 0.2,
  0.30000000000000004, and so on up to 0.9999999999999999. After `add_ue`,
  `run(until=1.0)` therefore moves the UE ten times in the source. In the
  model the tenth tick is exactly 1.0, which is not before the end time,
  so there are nine moves. The lemma is exact only for ticks that are not
  within a rounding error of the end time.
- **Scheduler.UeMovesEveryPeriod: exact times.** The same rounding
  difference applies: with `run(until=1.0)` the source moves the UE ten
  times and the model nine.
- **PeerRouter.ProcessQueue: re-entrant sends.** The drain at
  x2.py:77 and xn.py:78 loops until the queue is empty. A message that a
  receiver sends during the drain is therefore delivered by the same
  drain. The model drains the messages queued when the drain starts, and
  the new message waits for the drain that its own send requests.
- **F1.ProcessQueue: re-entrant sends.** f1.py:75 behaves the same way as
  the X2 drain and is modelled the same way.
- **Channel.Drain: re-entrant sends.** This is the shared drain behind the
  two drains above, with the same limit.
- **E2.FanOut: re-entrant subscriptions.** A subscriber that subscribes a
  new id or unsubscribes while e2.py:48 or e2.py:65 iterates the
  subscriber dict makes the next iteration step raise RuntimeError. That
  error arises outside the `try`, so it is not caught. The model assumes
  subscribers do not change the subscriptions during a fan-out.
- **E2.ProcessQueue: re-entrant subscriptions.** Under that RuntimeError
  the source's drain stops, and later messages stay queued.
- **E2.ProcessQueue: re-entrant sends.** The drain at e2.py:43 loops
  until the queue is empty, so a message a subscriber sends during the
  drain is delivered by that same drain. The handover xApp does this:
  handover_xapp.py:79 sends a control message from inside its indication
  callback, through `send_message` at xapp.py:70. The model drains only
  the messages queued when the drain starts; the new message waits for
  the drain that its own send requests. The subscribers it reaches and
  their order are the same, but it arrives one drain later.
- **XApp.ControlMessageDrains: re-entrant sends.** The lemma covers a
  control message sent outside any drain. A control message sent from a
  subscriber callback during a drain is delivered in the source by the
  running drain, as described for E2.ProcessQueue.
- **E2.DrainIsolatesFailures: re-entrant subscriptions.** The RuntimeError
  above is not isolated: it ends the drain.
- **E2.SendIndication: re-entrant subscriptions.** The same RuntimeError
  leaves `send_indication` at e2.py:65.
- **E2Termination.Publish: re-entrant subscriptions.** A callback that
  subscribes a new xApp during the loop at core/interfaces/e2.py:13 makes
  the publish raise RuntimeError, even if every callback returns.
- **LoadBalancing.BalanceOne: state after an error.** In the source a
  failed send leaves the policy just created stored in the rApp. The
  model's error result carries no rApp, so it does not say this. The
  same holds for LoadBalancing.Initiate and LoadBalancing.Monitor, whose
  policies created before the failing send also stay stored.
- **Mobility.FloorDiv: integer positions.** Positions are taken to hold
  floats. A position of integer dtype with an integer zero block size
  would floor-divide to 0 with a warning in numpy, rather than fail.
- **Scheduler.UeMovesEveryPeriod: exactly one move per tick.** The lemma
  states that a UE is moved at every tick, not that it is moved exactly
  once at each tick.
- **The scheduler's `events` list** is created and never used, so it is
  not modelled.
- **Logging, `print` and the logger objects** are not modelled.
- **OpenFronthaul.Transmit: the failing log line.** A successful transmit
  logs `o_du.config.du_id`, but `BaseStationConfig` has no `du_id` field.
  Against a real O-DU the call therefore raises AttributeError after the
  delivery has already been scheduled. The model returns the scheduled
  delivery and leaves out that late error.
- **Random draws and norms are parameters.** Random draws, `np.random`
  and `np.linalg.norm` are parameters, as described above. The
  distributions are not modelled, only the ranges.
- **Mobility.Move: NaN results.** At zero distance with any step that is
  not positive (zero or negative), `distance < step` is false and the
  source divides by the zero distance, giving NaN. The model returns the
  position instead.
- **RandomWalkModel** is left out, because it moves by a random angle
  through `cos` and `sin`.
- **Pydantic coercion.** Only these field types are modelled:
  - a `str` field accepts strings only;
  - a `float` field accepts ints and floats;
  - a `Dict` field accepts dicts.
  Pydantic's other coercions are left out, such as numeric strings and
  bools as ints.
- **Pydantic error locations.** Errors name the top-level fields only.
  Nested locations and messages are left out.
- **Enum identity.** Enum members are compared by value.
- **`add_supported_e2sm`** stores an opaque object and nothing reads it,
  so it is left out.
- **O1 files and schema.** Loading O1 configurations from files, schema
  validation and `reload_configs` are left out, because they are file
  I/O. `Store` is the internal store step.
- **RApp.UpdateA1Policy: object aliasing.** The update mutates the stored
  policy object in place, so a policy object returned earlier by `create`
  also changes. The model has values, not objects.
- **O1.CurrentConfig: aliasing from outside the interface.** `Own` and
  `Alias` track only the sharing that `rollback_config` creates between a
  node's current configuration and its history. Two other kinds of
  sharing are left out. One is a caller that mutates the dict returned by
  `get_node_config` (oransim/interfaces/o1.py:110-121); that dict is the
  stored object itself. The other is the same dict object stored twice.
- **Other packages.** `core/interfaces/o1.py`, the analytics package, the
  RU radio physics, the example scripts, the config loader and the
  `xApp_framework` SDK are not part of this model.

Where the code differs from its documentation or its tests, the model
follows the code:

- **RIC policy model.** The Near-RT RIC stores policies built by the A1
  interface's own type-only policy model, not the validating data model.
  `A1.LaxerThanValidated` shows a policy that only the former accepts.
- **E2 subscribers at drain time.** A drain reads the subscribers as they
  are when it runs, not as they were when the message was sent.
- **The first waypoint update.** tests/core/test_mobility.py:39-42
  expects the UE to move on its first update. The code only picks a
  waypoint and pauses, as `Mobility.FirstUpdateStays` states.
- **Picking a new target.** tests/core/test_mobility.py:50-54 and 80-83
  expect the UE to move on the update that picks a new target. The code
  returns the position unchanged on that update: mobility.py:111-114 for
  the waypoint model and mobility.py:161-162 for the Manhattan model.
  `Mobility.WaypointUpdate` and `Mobility.ManhattanUpdate` state this.
- **Annotations that fail at import.** Some annotations name classes that
  are never imported, so these modules fail at import:
  - ric.py's annotations `RApp` (line 101) and `A1PolicyType` (line 114);
  - load_balancing_rapp.py's `List` (line 58);
  - xapp.py (line 3) and examples/handover_xapp.py (line 3) import
    `E2Interface` from `oransim.core.interfaces.e2`, which defines only
    `E2Termination`, so both fail with ImportError.
  load_balancing_rapp.py also uses `random` without importing it. The
  model gives these names their evident meaning.
- **The rApp's A1 import.** rapp.py (line 3) imports `A1Interface`,
  `A1Policy` and `A1PolicyType` from `oransim.core.interfaces.a1`, and
  that module is not part of this model. The rApp model takes the A1
  policy and interface to be those of `oransim/interfaces/a1.py`.
- **Reused policy ids.** Policy ids are `policy-(count+1)`, so after a
  deletion a new policy can reuse an existing id and replace that policy.
  `RApp.CreateAfterDeleteCollides` shows this.

## Findings

| source | as written | input that shows it | evidently intended | confidence | as-written member | corrected member |
|---|---|---|---|---|---|---|
| oransim/interfaces/o1.py:174-177 | a rollback makes the node's current configuration the very dict held in the history, so the next store merges its keys into that history entry | store configs v0 and v1 for a node, roll back to version 0, then store a config with a key that v0 lacks: history[0] now holds that key, and rolling back to version 0 again no longer restores v0 | the history only grows: past versions never change, and a rollback restores the stored version | not executed | O1.StoreAfterRollbackRewritesHistory | O1.CopyingRollbackRestoresAgain |

`O1.Rollback` models the aliasing rollback as written. `O1.RollbackCopy`
is the corrected rollback: it copies the history entry. `O1.HistoryAppendOnly`
proves that, with copying rollbacks, every operation keeps past history
entries unchanged.

=== FILE: a1.dfy ===
/**
 * The A1 interface between the Non-RT RIC and a Near-RT RIC, with its own
 * A1 policy model. Unlike the validating data model, this `A1Policy` only
 * checks field types: any string id (the empty one included) and any string
 * target pass, `version` defaults to "1.0", and the policy type is kept as
 * an enum member, which is how it is dumped. Its policy-type enum has the
 * same three values as the data model's, which this model shares.
 */
module A1 {
  import opened Base
  import P = A1PolicyData
  import D = PyDict

  datatype A1Policy = A1Policy(policyType: P.PolicyType, policyId: string, policyContent: Content, version: string, target: string)

  /** The fields that are missing or of the wrong type. */
  function FieldErrors(d: Content): (errs: set<string>)
    ensures "policy_type" in errs <==> !P.TypeOk(d)
    ensures "policy_id" in errs <==> !("policy_id" in d && d["policy_id"].VStr?)
    ensures "policy_content" in errs <==> !P.ContentOk(d)
    ensures "version" in errs <==> !P.VersionOk(d)
    ensures "target" in errs <==> !("target" in d && d["target"].VStr?)
  {
    (if P.TypeOk(d) then {} else {"policy_type"})
    + (if "policy_id" in d && d["policy_id"].VStr? then {} else {"policy_id"})
    + (if P.ContentOk(d) then {} else {"policy_content"})
    + (if P.VersionOk(d) then {} else {"version"})
    + (if "target" in d && d["target"].VStr? then {} else {"target"})
  }

  /** `A1Policy(**d)`: a ValidationError naming every bad field, or the policy with the given values. */
  function FromDict(d: Content): (r: Result<A1Policy>)
    ensures r.Err? <==> FieldErrors(d) != {}
    ensures r.Err? ==> r.error == ValidationError(FieldErrors(d))
    ensures r.Ok? ==> Some(r.value.policyType) == P.ParseType(d["policy_type"])
    ensures r.Ok? ==> VStr(r.value.policyId) == d["policy_id"] && VDict(r.value.policyContent) == d["policy_content"]
    ensures r.Ok? ==> VStr(r.value.target) == d["target"]
    ensures r.Ok? ==> r.value.version == if "version" in d then d["version"].s else P.DefaultVersion
  {
    if FieldErrors(d) != {} then Err(ValidationError(FieldErrors(d)))
    else
      Ok(A1Policy(P.ParseType(d["policy_type"]).value, d["policy_id"].s, d["policy_content"].entries,
                  if "version" in d then d["version"].s else P.DefaultVersion, d["target"].s))
  }

  /** `model_dump()`: the type stays an enum member. */
  function ToDict(p: A1Policy): (d: Content)
    ensures d.Keys == {"policy_type", "policy_id", "policy_content", "version", "target"}
  {
    map["policy_type" := VEnum(P.TypeValue(p.policyType)), "policy_id" := VStr(p.policyId),
        "policy_content" := VDict(p.policyContent), "version" := VStr(p.version), "target" := VStr(p.target)]
  }

  /** Every policy survives a trip through its dict form. */
  lemma ToDictFromDict(p: A1Policy)
    ensures FromDict(ToDict(p)) == Ok(p)
  {
    P.ParseTypeRoundTrip(p.policyType);
  }

  /** Whatever the validating model accepts, this one accepts with the same values. */
  lemma ValidatedIsAccepted(d: Content)
    requires P.Validate(d).Ok?
    ensures FromDict(d).Ok?
    ensures var p, q := FromDict(d).value, P.Validate(d).value;
      p.policyType == q.policyType && p.policyId == q.policyId && p.policyContent == q.policyContent
      && p.version == q.version && p.target == q.target
  {
  }

  /** The converse fails: an empty id or an unknown target passes here but not in the validating model. */
  lemma LaxerThanValidated()
    ensures var d := map["policy_type" := VStr("POLICY-TYPE-1"), "policy_id" := VStr(""),
                         "policy_content" := VDict(map[]), "target" := VStr("o_cu")];
      FromDict(d).Ok? && P.Validate(d) == Err(ValidationError({"policy_id", "target"}))
  {
    var d := map["policy_type" := VStr("POLICY-TYPE-1"), "policy_id" := VStr(""),
                 "policy_content" := VDict(map[]), "target" := VStr("o_cu")];
    assert P.TypeOfValue("POLICY-TYPE-1") == Some(P.Type1);
    assert P.FieldErrors(d) == {"policy_id", "target"};
  }

  /** The identifier the simple id scheme gives the `n`-th policy: `policy-n`. */
  function PolicyId(n: nat): (id: string)
    ensures |id| > |"policy-"| && id[..|"policy-"|] == "policy-"
  {
    "policy-" + NatToString(n)
  }

  lemma PolicyIdInjective(a: nat, b: nat)
    requires PolicyId(a) == PolicyId(b)
    ensures a == b
  {
    PrefixedNumbersDistinct("policy-", a, b);
  }

  /** A policy dict whose keys are `policy-1`, `policy-2`, ... in order, as count-based ids produce without deletions. */
  predicate DenseIds(d: D.Dict<string, A1Policy>) {
    forall i :: 0 <= i < |d.items| ==> d.items[i].0 == PolicyId(i + 1)
  }

  /** In a densely numbered dict the next count-based id is not yet taken. */
  lemma DenseNextIsFresh(d: D.Dict<string, A1Policy>)
    requires DenseIds(d)
    ensures !D.Has(d, PolicyId(|d.items| + 1))
  {
    if D.Has(d, PolicyId(|d.items| + 1)) {
      var i :| 0 <= i < |d.items| && d.items[i].0 == PolicyId(|d.items| + 1);
      PolicyIdInjective(i + 1, |d.items| + 1);
    }
  }

  /** The interface knows one Near-RT RIC, compared by identity. */
  datatype A1Interface<R> = A1Interface(nonRtRic: R, nearRtRic: R)

  /**
   * `send_policy(policy, ric)`: ValueError for any RIC but the configured one;
   * otherwise the configured RIC's `receive_a1_policy` is called with the
   * policy's dict form. Anything that call raises is logged and swallowed.
   */
  function SendPolicy<R(==)>(a1: A1Interface<R>, policy: A1Policy, ric: R): (r: Result<Content>)
    ensures r.Err? <==> ric != a1.nearRtRic
    ensures r.Err? ==> r.error == ValueError
    ensures r.Ok? ==> FromDict(r.value) == Ok(policy)
  {
    if ric != a1.nearRtRic then Err(ValueError)
    else
      ToDictFromDict(policy);
      Ok(ToDict(policy))
  }

  /**
   * `receive_policy(d)`: an invalid dict makes it answer False and store
   * nothing; a valid one is handed to the Near-RT RIC's store and the answer
   * is True. The store is a dict assignment that cannot raise, so its
   * failure branch is never taken. The second component is the policy to store.
   */
  function ReceivePolicy(d: Content): (r: (bool, Option<A1Policy>))
    ensures r.0 <==> r.1.Some?
    ensures r.1.Some? <==> FieldErrors(d) == {}
    ensures r.1.Some? ==> ToDict(r.1.value)["policy_id"] == d["policy_id"]
    ensures r.1.Some? ==> ToDict(r.1.value)["policy_content"] == d["policy_content"]
    ensures r.1.Some? ==> ToDict(r.1.value)["target"] == d["target"]
  {
    match FromDict(d)
    case Err(_) => (false, None)
    case Ok(p) => (true, Some(p))
  }
}

=== FILE: a1_policy.dfy ===
/**
 * The validating A1 policy data model: a pydantic model with required
 * `policy_type`, `policy_id`, `policy_content` and `target`, an optional
 * `version` defaulting to "1.0", and two field validators: the id must be
 * non-empty and the target must be "o_du" or "o_ru". Enum members are stored
 * by value. Validation reports every offending field at once.
 */
module A1PolicyData {
  import opened Base

  /** `A1PolicyType`: three policy types, by their string values. */
  datatype PolicyType = Type1 | Type2 | Type3

  function TypeValue(t: PolicyType): (s: string)
    ensures s == "POLICY-TYPE-1" <==> t.Type1?
    ensures s == "POLICY-TYPE-2" <==> t.Type2?
    ensures s == "POLICY-TYPE-3" <==> t.Type3?
  {
    match t
    case Type1 => "POLICY-TYPE-1"
    case Type2 => "POLICY-TYPE-2"
    case Type3 => "POLICY-TYPE-3"
  }

  function TypeOfValue(s: string): (t: Option<PolicyType>)
    ensures t.Some? <==> s in {"POLICY-TYPE-1", "POLICY-TYPE-2", "POLICY-TYPE-3"}
    ensures t.Some? ==> TypeValue(t.value) == s
  {
    if s == "POLICY-TYPE-1" then Some(Type1)
    else if s == "POLICY-TYPE-2" then Some(Type2)
    else if s == "POLICY-TYPE-3" then Some(Type3)
    else None
  }

  /** An enum field accepts a member of the enum or one of its values. */
  function ParseType(v: Value): (t: Option<PolicyType>)
    ensures t.Some? <==> (v.VStr? || v.VEnum?) && TypeOfValue(if v.VStr? then v.s else v.value).Some?
  {
    match v
    case VStr(s) => TypeOfValue(s)
    case VEnum(s) => TypeOfValue(s)
    case _ => None
  }

  /** The type's value and the type's member both parse back to the type. */
  lemma ParseTypeRoundTrip(t: PolicyType)
    ensures ParseType(VStr(TypeValue(t))) == Some(t)
    ensures ParseType(VEnum(TypeValue(t))) == Some(t)
  {
  }

  const DefaultVersion: string := "1.0"

  predicate ValidTarget(t: string) {
    t == "o_du" || t == "o_ru"
  }

  datatype A1Policy = A1Policy(policyType: PolicyType, policyId: string, policyContent: Content, version: string, target: string)

  /** What every validated policy satisfies. */
  predicate WellFormed(p: A1Policy) {
    p.policyId != "" && ValidTarget(p.target)
  }

  predicate TypeOk(d: Content) {
    "policy_type" in d && ParseType(d["policy_type"]).Some?
  }

  predicate IdOk(d: Content) {
    "policy_id" in d && d["policy_id"].VStr? && d["policy_id"].s != ""
  }

  predicate ContentOk(d: Content) {
    "policy_content" in d && d["policy_content"].VDict?
  }

  predicate VersionOk(d: Content) {
    "version" !in d || d["version"].VStr?
  }

  predicate TargetOk(d: Content) {
    "target" in d && d["target"].VStr? && ValidTarget(d["target"].s)
  }

  /** The fields validation reports: missing, of the wrong type, or refused by a validator. */
  function FieldErrors(d: Content): (errs: set<string>)
    ensures "policy_type" in errs <==> !TypeOk(d)
    ensures "policy_id" in errs <==> !IdOk(d)
    ensures "policy_content" in errs <==> !ContentOk(d)
    ensures "version" in errs <==> !VersionOk(d)
    ensures "target" in errs <==> !TargetOk(d)
    ensures errs <= {"policy_type", "policy_id", "policy_content", "version", "target"}
  {
    (if TypeOk(d) then {} else {"policy_type"})
    + (if IdOk(d) then {} else {"policy_id"})
    + (if ContentOk(d) then {} else {"policy_content"})
    + (if VersionOk(d) then {} else {"version"})
    + (if TargetOk(d) then {} else {"target"})
  }

  /**
   * `A1Policy(**d)`: a ValidationError naming every bad field, or the policy
   * with the given values, the version defaulting to "1.0". Keys the model
   * does not know are ignored.
   */
  function Validate(d: Content): (r: Result<A1Policy>)
    ensures r.Ok? <==> TypeOk(d) && IdOk(d) && ContentOk(d) && VersionOk(d) && TargetOk(d)
    ensures r.Err? ==> r.error == ValidationError(FieldErrors(d)) && FieldErrors(d) != {}
    ensures r.Ok? ==> WellFormed(r.value)
    ensures r.Ok? ==> Some(r.value.policyType) == ParseType(d["policy_type"])
    ensures r.Ok? ==> VStr(r.value.policyId) == d["policy_id"] && VDict(r.value.policyContent) == d["policy_content"]
    ensures r.Ok? ==> VStr(r.value.target) == d["target"]
    ensures r.Ok? ==> r.value.version == if "version" in d then d["version"].s else DefaultVersion
  {
    if FieldErrors(d) != {} then Err(ValidationError(FieldErrors(d)))
    else
      Ok(A1Policy(ParseType(d["policy_type"]).value, d["policy_id"].s, d["policy_content"].entries,
                  if "version" in d then d["version"].s else DefaultVersion, d["target"].s))
  }

  /** `model_dump()`: the policy as a dict, the type by its value. */
  function Dump(p: A1Policy): (d: Content)
    ensures d.Keys == {"policy_type", "policy_id", "policy_content", "version", "target"}
  {
    map["policy_type" := VStr(TypeValue(p.policyType)), "policy_id" := VStr(p.policyId),
        "policy_content" := VDict(p.policyContent), "version" := VStr(p.version), "target" := VStr(p.target)]
  }

  /** A well-formed policy passes validation unchanged: validating its dump gives it back. */
  lemma DumpValidates(p: A1Policy)
    requires WellFormed(p)
    ensures Validate(Dump(p)) == Ok(p)
  {
    ParseTypeRoundTrip(p.policyType);
  }

  /** Validation loses nothing the model keeps: dumping the validated policy restores the fields given. */
  lemma ValidateDumps(d: Content)
    requires Validate(d).Ok?
    ensures var e := Dump(Validate(d).value);
      && e["policy_id"] == d["policy_id"] && e["policy_content"] == d["policy_content"] && e["target"] == d["target"]
      && ParseType(e["policy_type"]) == ParseType(d["policy_type"])
      && ("version" in d ==> e["version"] == d["version"])
  {
    ParseTypeRoundTrip(Validate(d).value.policyType);
  }
}

=== FILE: base.dfy ===
/**
 * Shared vocabulary of the model: optional values, results carrying the
 * exception the simulator would raise, dynamically typed payload values,
 * and the decimal rendering used to build policy identifiers.
 */
module Base {

  datatype Option<+T> = None | Some(value: T)

  /** The exception classes the simulator raises or reports. */
  datatype Error =
    | ValueError
    | KeyError
    | TypeError
    | AttributeError
    | IndexError
    | RuntimeError
    | OverflowError
      /** a bare `Exception` */
    | BareException
      /** a pydantic validation failure, naming every offending field */
    | ValidationError(fields: set<string>)

  datatype Result<+T> = Ok(value: T) | Err(error: Error)

  /** A dynamically typed value stored in a message, policy content or configuration dict. */
  datatype Value =
    | VInt(i: int)
    | VReal(r: real)
    | VStr(s: string)
    | VBool(b: bool)
    | VNone
      /** a member of an `Enum` class, by its value */
    | VEnum(value: string)
    | VList(items: seq<Value>)
    | VDict(entries: map<string, Value>)
      /** any other object, identified only by a tag */
    | VOpaque(tag: nat)

  /** A string-keyed dict of dynamic values (policy content, messages, configurations). */
  type Content = map<string, Value>

  function Digit(d: nat): (c: char)
    requires d < 10
    ensures '0' <= c <= '9'
  {
    "0123456789"[d]
  }

  /** Decimal rendering of a natural number, as Python's `str` / f-string does it. */
  function NatToString(n: nat): (s: string)
    ensures |s| >= 1
    ensures n < 10 <==> |s| == 1
    ensures forall i :: 0 <= i < |s| ==> '0' <= s[i] <= '9'
  {
    if n < 10 then [Digit(n)] else NatToString(n / 10) + [Digit(n % 10)]
  }

  lemma DigitInjective(a: nat, b: nat)
    requires a < 10 && b < 10
    requires Digit(a) == Digit(b)
    ensures a == b
  {
  }

  /** Distinct numbers render as distinct strings. */
  lemma {:induction false} NatToStringInjective(a: nat, b: nat)
    requires NatToString(a) == NatToString(b)
    ensures a == b
  {
    if a < 10 || b < 10 {
      DigitInjective(a % 10, b % 10);
    } else {
      var sa, sb := NatToString(a), NatToString(b);
      assert sa[|sa| - 1] == Digit(a % 10);
      assert sb[|sb| - 1] == Digit(b % 10);
      DigitInjective(a % 10, b % 10);
      assert sa[..|sa| - 1] == NatToString(a / 10);
      assert sb[..|sb| - 1] == NatToString(b / 10);
      NatToStringInjective(a / 10, b / 10);
    }
  }

  /** Prefixing a common string keeps rendered numbers distinct. */
  lemma PrefixedNumbersDistinct(prefix: string, a: nat, b: nat)
    requires prefix + NatToString(a) == prefix + NatToString(b)
    ensures a == b
  {
    var s := prefix + NatToString(a);
    assert NatToString(a) == s[|prefix|..];
    assert NatToString(b) == (prefix + NatToString(b))[|prefix|..];
    NatToStringInjective(a, b);
  }

  /** Two positive reals have a positive product. */
  lemma ProductPositive(a: real, b: real)
    requires a > 0.0 && b > 0.0
    ensures a * b > 0.0
  {
  }

  /** A non-negative real no larger than a positive one gives a quotient of at most one. */
  lemma QuotientAtMostOne(a: real, b: real)
    requires 0.0 <= a <= b && b > 0.0
    ensures a / b <= 1.0
  {
    var q := a / b;
    assert (q - 1.0) * b == a - b;
    if q > 1.0 {
      ProductPositive(q - 1.0, b);
    }
  }
}

=== FILE: channel.dfy ===
/**
 * What the message routers have in common. A send does not call the
 * scheduler itself: it returns the request it would pass to `add_event`
 * (a delay and the callback to run). A drain does not call the receivers
 * either: it returns, per queued message, the call it makes and how that
 * call ended, given which receiver calls raise.
 */
module Channel {
  import opened Base

  /** One `scheduler.add_event(delay, callback)` the caller must issue. */
  datatype Request<Cb> = Request(delay: real, callback: Cb)

  /** The fate of one delivery: the receiver was called and returned or raised, or nobody was called. */
  datatype Outcome<T, P> =
    | Delivered(target: T, payload: P)
    | Raised(target: T, payload: P)
    | Dropped(payload: P)

  predicate Called<T, P>(o: Outcome<T, P>) {
    o.Delivered? || o.Raised?
  }

  /** Settle one attempted call with the receiver's behaviour `fails`. */
  function Attempt<T, P>(target: T, payload: P, fails: (T, P) -> bool): (o: Outcome<T, P>)
    ensures Called(o) && o.target == target && o.payload == payload
    ensures o.Raised? <==> fails(target, payload)
  {
    if fails(target, payload) then Raised(target, payload) else Delivered(target, payload)
  }

  /** The receiver calls made, in order, whatever they returned. */
  function Calls<T, P>(os: seq<Outcome<T, P>>): (cs: seq<(T, P)>)
    ensures |cs| <= |os|
    ensures (forall i :: 0 <= i < |os| ==> Called(os[i])) ==> |cs| == |os|
  {
    if |os| == 0 then []
    else (if Called(os[0]) then [(os[0].target, os[0].payload)] else []) + Calls(os[1..])
  }

  /** Two outcome sequences that differ only in which calls raised make the same calls. */
  lemma {:induction false} CallsIgnoreFailures<T, P>(a: seq<Outcome<T, P>>, b: seq<Outcome<T, P>>)
    requires |a| == |b|
    requires forall i :: 0 <= i < |a| ==> (Called(a[i]) <==> Called(b[i]))
    requires forall i :: 0 <= i < |a| && Called(a[i]) && Called(b[i]) ==> a[i].target == b[i].target && a[i].payload == b[i].payload
    ensures Calls(a) == Calls(b)
  {
    if |a| > 0 {
      CallsIgnoreFailures(a[1..], b[1..]);
    }
  }

  /** Settle one queued payload with its receiver: called if there is one, logged and dropped if not. */
  function Deliver<T, P>(receiver: Option<T>, payload: P, fails: (T, P) -> bool): (o: Outcome<T, P>)
    ensures o.payload == payload
    ensures Called(o) <==> receiver.Some?
    ensures Called(o) ==> o.target == receiver.value && (o.Raised? <==> fails(o.target, payload))
  {
    match receiver
    case Some(t) => Attempt(t, payload, fails)
    case None => Dropped(payload)
  }

  /**
   * A drain: empty `queue` front to back, settling each payload with the
   * receiver `route` finds for it as the drain runs. A raising receiver is
   * caught and the drain goes on.
   */
  function Drain<T, P>(queue: seq<P>, route: P -> Option<T>, fails: (T, P) -> bool): (os: seq<Outcome<T, P>>)
    ensures |os| == |queue|
    ensures forall i :: 0 <= i < |queue| ==> os[i].payload == queue[i]
    ensures forall i :: 0 <= i < |queue| ==> (Called(os[i]) <==> route(queue[i]).Some?)
    ensures forall i :: 0 <= i < |queue| && Called(os[i]) ==>
      os[i].target == route(queue[i]).value && (os[i].Raised? <==> fails(os[i].target, queue[i]))
  {
    seq(|queue|, i requires 0 <= i < |queue| => Deliver(route(queue[i]), queue[i], fails))
  }

  /** The calls a drain of `queue` should make: each payload that has a receiver, with it, in queue order. */
  function Routed<T, P>(queue: seq<P>, route: P -> Option<T>): seq<(T, P)> {
    if |queue| == 0 then []
    else (if route(queue[0]).Some? then [(route(queue[0]).value, queue[0])] else []) + Routed(queue[1..], route)
  }

  /** A drain calls exactly the routable payloads' receivers, in queue order, whichever calls raise. */
  lemma {:induction false} DrainCalls<T, P>(queue: seq<P>, route: P -> Option<T>, fails: (T, P) -> bool)
    ensures Calls(Drain(queue, route, fails)) == Routed(queue, route)
  {
    if |queue| > 0 {
      var os := Drain(queue, route, fails);
      assert os[1..] == Drain(queue[1..], route, fails);
      DrainCalls(queue[1..], route, fails);
    }
  }

  /** Which receivers raise changes no call a drain makes, nor their order. */
  lemma DrainIsolatesFailures<T, P>(queue: seq<P>, route: P -> Option<T>, f: (T, P) -> bool, g: (T, P) -> bool)
    ensures Calls(Drain(queue, route, f)) == Calls(Drain(queue, route, g))
  {
    DrainCalls(queue, route, f);
    DrainCalls(queue, route, g);
  }
}

=== FILE: e2.dfy ===
/**
 * The E2 interface between E2 nodes and the Near-RT RIC: a publish/subscribe
 * hub. Subscribers are callbacks kept in an insertion-ordered dict by
 * subscriber id; node messages are queued and, on the requested drain, each
 * is handed to every subscriber in dict order, a raising subscriber being
 * logged without disturbing the others.
 */
module E2 {
  import opened Base
  import opened Channel
  import D = PyDict

  /** A node message waiting for the drain, with the sending node's id. */
  datatype Queued = Queued(message: Content, nodeId: string)

  datatype E2Interface<Cb> = E2Interface(subscribers: D.Dict<string, Cb>, queue: seq<Queued>)

  /** The callback argument of `subscribe`: a callable, or any other object. */
  datatype CallbackArg<Cb> = Callable(cb: Cb) | NotCallable

  /** The callback a send schedules. */
  datatype Drain = ProcessMessageQueue

  /** A subscriber called with a payload: its id and its callback. */
  type Target<Cb> = (string, Cb)

  predicate Valid<Cb>(e: E2Interface<Cb>) {
    D.Valid(e.subscribers)
  }

  function New<Cb>(): (e: E2Interface<Cb>)
  {
    E2Interface(D.Empty(), [])
  }

  /** A new E2 interface has no subscribers and nothing queued. */
  lemma NewIsEmpty<Cb>()
    ensures var e := New<Cb>();
      Valid(e) && e.subscribers.items == [] && e.queue == []
  {
  }

  /**
   * `subscribe(subscriber_id, callback)`: TypeError unless the id is a string
   * and the callback is callable; otherwise the callback is stored under the
   * id, replacing an earlier one in place or joining the end of the order.
   */
  function Subscribe<Cb(!new)>(e: E2Interface<Cb>, id: Value, callback: CallbackArg<Cb>): (r: Result<E2Interface<Cb>>)
    requires Valid(e)
    ensures r.Err? <==> !id.VStr? || callback.NotCallable?
    ensures r.Err? ==> r.error == TypeError
    ensures r.Ok? ==> Valid(r.value) && r.value.queue == e.queue
    ensures r.Ok? ==> D.Get(r.value.subscribers, id.s) == Some(callback.cb)
    ensures r.Ok? ==> forall k :: k != id.s ==> D.Get(r.value.subscribers, k) == D.Get(e.subscribers, k)
    ensures r.Ok? ==> D.Keys(r.value.subscribers) == if D.Has(e.subscribers, id.s) then D.Keys(e.subscribers) else D.Keys(e.subscribers) + [id.s]
  {
    if !id.VStr? then Err(TypeError)
    else if callback.NotCallable? then Err(TypeError)
    else Ok(e.(subscribers := D.Put(e.subscribers, id.s, callback.cb)))
  }

  /** `unsubscribe(subscriber_id)`: the id no longer receives; an unknown id only warns. */
  function Unsubscribe<Cb(!new)>(e: E2Interface<Cb>, id: string): (r: E2Interface<Cb>)
    requires Valid(e)
    ensures Valid(r) && r.queue == e.queue
    ensures !D.Has(r.subscribers, id)
    ensures !D.Has(e.subscribers, id) ==> r == e
    ensures forall k :: k != id ==> D.Get(r.subscribers, k) == D.Get(e.subscribers, k)
    ensures D.Has(e.subscribers, id) ==> var i := D.IndexOf(e.subscribers.items, id);
      D.Keys(r.subscribers) == D.Keys(e.subscribers)[..i] + D.Keys(e.subscribers)[i + 1..]
  {
    e.(subscribers := D.Remove(e.subscribers, id))
  }

  /** Subscribing a new id and unsubscribing it again restores the interface. */
  lemma SubscribeUnsubscribe<Cb(!new)>(e: E2Interface<Cb>, id: string, cb: Cb)
    requires Valid(e) && !D.Has(e.subscribers, id)
    ensures Unsubscribe(Subscribe(e, VStr(id), Callable(cb)).value, id) == e
  {
    D.PutThenRemove(e.subscribers, id, cb);
  }

  /** `send_message(message, node_id)`: queue the message and request a zero-delay drain. */
  function SendMessage<Cb>(e: E2Interface<Cb>, message: Content, nodeId: string): (r: (E2Interface<Cb>, Request<Drain>))
    ensures r.0.subscribers == e.subscribers
    ensures |r.0.queue| == |e.queue| + 1 && r.0.queue[..|e.queue|] == e.queue
    ensures r.0.queue[|e.queue|] == Queued(message, nodeId)
    ensures r.1 == Request(0.0, ProcessMessageQueue)
  {
    var q := e.queue + [Queued(message, nodeId)];
    assert q[..|e.queue|] == e.queue;
    (e.(queue := q), Request(0.0, ProcessMessageQueue))
  }

  /** Call every subscriber in dict order with one payload, catching each subscriber's exception. */
  function FanOut<Cb, P>(subs: D.Dict<string, Cb>, payload: P, fails: (Target<Cb>, P) -> bool): (os: seq<Outcome<Target<Cb>, P>>)
    ensures |os| == |subs.items|
    ensures forall j :: 0 <= j < |os| ==>
      Called(os[j]) && os[j].target == subs.items[j] && os[j].payload == payload
      && (os[j].Raised? <==> fails(subs.items[j], payload))
  {
    seq(|subs.items|, j requires 0 <= j < |subs.items| => Attempt(subs.items[j], payload, fails))
  }

  /** In a fan-out every current subscriber is called exactly once, and nobody else is. */
  lemma FanOutOnce<Cb, P>(subs: D.Dict<string, Cb>, payload: P, fails: (Target<Cb>, P) -> bool, id: string)
    requires D.Valid(subs)
    ensures var os := FanOut(subs, payload, fails);
      && (D.Has(subs, id) <==> exists j :: 0 <= j < |os| && os[j].target.0 == id)
      && forall j1, j2 :: 0 <= j1 < |os| && 0 <= j2 < |os| && os[j1].target.0 == id && os[j2].target.0 == id ==> j1 == j2
  {
    var os := FanOut(subs, payload, fails);
    if D.Has(subs, id) {
      var j :| 0 <= j < |subs.items| && subs.items[j].0 == id;
      assert os[j].target.0 == id;
    }
  }

  /**
   * `_process_message_queue`: empty the queue in order, handing each message
   * and its node id to every subscriber registered when the drain runs.
   */
  function ProcessQueue<Cb>(e: E2Interface<Cb>, fails: (Target<Cb>, Queued) -> bool): (r: (E2Interface<Cb>, seq<seq<Outcome<Target<Cb>, Queued>>>))
    ensures r.0 == e.(queue := [])
    ensures |r.1| == |e.queue|
    ensures forall i :: 0 <= i < |e.queue| ==> r.1[i] == FanOut(e.subscribers, e.queue[i], fails)
  {
    (e.(queue := []), seq(|e.queue|, i requires 0 <= i < |e.queue| => FanOut(e.subscribers, e.queue[i], fails)))
  }

  /**
   * A raising subscriber does not stop the others: whichever subscribers
   * raise, every message reaches every subscriber, in the same order.
   */
  lemma DrainIsolatesFailures<Cb>(e: E2Interface<Cb>, f: (Target<Cb>, Queued) -> bool, g: (Target<Cb>, Queued) -> bool)
    ensures forall i :: 0 <= i < |e.queue| ==>
      Calls(ProcessQueue(e, f).1[i]) == Calls(ProcessQueue(e, g).1[i])
    ensures forall i :: 0 <= i < |e.queue| ==> |Calls(ProcessQueue(e, f).1[i])| == |e.subscribers.items|
  {
    forall i | 0 <= i < |e.queue|
      ensures Calls(ProcessQueue(e, f).1[i]) == Calls(ProcessQueue(e, g).1[i])
    {
      CallsIgnoreFailures(ProcessQueue(e, f).1[i], ProcessQueue(e, g).1[i]);
    }
  }

  /**
   * `send_indication(message, du_id)`: call every subscriber now with the
   * message and the DU id, catching each subscriber's exception; nothing is queued.
   */
  function SendIndication<Cb>(e: E2Interface<Cb>, message: Content, duId: string, fails: (Target<Cb>, Queued) -> bool): (os: seq<Outcome<Target<Cb>, Queued>>)
    ensures |os| == |Calls(os)| == |e.subscribers.items|
    ensures forall j :: 0 <= j < |os| ==> Called(os[j]) && os[j].target == e.subscribers.items[j] && os[j].payload == Queued(message, duId)
    ensures forall j :: 0 <= j < |os| ==> (os[j].Raised? <==> fails(e.subscribers.items[j], Queued(message, duId)))
  {
    FanOut(e.subscribers, Queued(message, duId), fails)
  }

  /** A queued message reaches the subscribers exactly as an immediate indication would. */
  lemma DrainMatchesIndication<Cb>(e: E2Interface<Cb>, message: Content, nodeId: string, fails: (Target<Cb>, Queued) -> bool)
    requires e.queue == []
    ensures ProcessQueue(SendMessage(e, message, nodeId).0, fails).1 == [SendIndication(e, message, nodeId, fails)]
  {
  }
}

=== FILE: e2_termination.dfy ===
/**
 * `E2Termination`, the older E2 hub of the core package: subscribers are
 * callbacks by xApp id in an insertion-ordered dict, and a publish calls
 * them in order with no error handling, so the first callback that raises
 * ends the publish and the exception reaches the publisher.
 */
module E2Termination {
  import opened Base
  import opened Channel
  import D = PyDict
  import E2

  datatype Termination<Cb> = Termination(subscribers: D.Dict<string, Cb>)

  predicate Valid<Cb>(t: Termination<Cb>) {
    D.Valid(t.subscribers)
  }

  function New<Cb>(): (t: Termination<Cb>)
  {
    Termination(D.Empty())
  }

  /** A new termination has no subscribers. */
  lemma NewIsEmpty<Cb>()
    ensures var t := New<Cb>();
      Valid(t) && t.subscribers.items == []
  {
  }

  /**
   * `subscribe(xapp_id, callback)`: store the callback, replacing any earlier
   * one for the id in place, or appending the id to the call order.
   */
  function Subscribe<Cb(!new)>(t: Termination<Cb>, xappId: string, cb: Cb): (r: Termination<Cb>)
    requires Valid(t)
    ensures Valid(r)
    ensures D.Get(r.subscribers, xappId) == Some(cb)
    ensures forall k :: k != xappId ==> D.Get(r.subscribers, k) == D.Get(t.subscribers, k)
    ensures D.Keys(r.subscribers) == if D.Has(t.subscribers, xappId) then D.Keys(t.subscribers) else D.Keys(t.subscribers) + [xappId]
  {
    Termination(D.Put(t.subscribers, xappId, cb))
  }

  /** Call the subscribers from the front until one raises; that one is the last called. */
  function CallUntilRaise<Cb>(items: seq<E2.Target<Cb>>, message: Content, fails: (E2.Target<Cb>, Content) -> bool): (os: seq<Outcome<E2.Target<Cb>, Content>>)
    ensures |os| <= |items|
    ensures forall j :: 0 <= j < |os| ==> Called(os[j]) && os[j].target == items[j] && os[j].payload == message
    ensures forall j :: 0 <= j < |os| ==> (os[j].Raised? <==> fails(items[j], message))
    ensures forall j :: 0 <= j < |os| - 1 ==> os[j].Delivered?
    ensures |os| < |items| ==> |os| > 0 && os[|os| - 1].Raised?
  {
    if |items| == 0 then []
    else
      var o := Attempt(items[0], message, fails);
      if o.Raised? then [o] else [o] + CallUntilRaise(items[1..], message, fails)
  }

  /**
   * `publish(message)`: the calls made, and whether an exception escaped.
   * Every subscriber before the raising one received the message; none after it did.
   */
  function Publish<Cb>(t: Termination<Cb>, message: Content, fails: (E2.Target<Cb>, Content) -> bool): (r: (seq<Outcome<E2.Target<Cb>, Content>>, bool))
    ensures r.1 <==> exists j :: 0 <= j < |t.subscribers.items| && fails(t.subscribers.items[j], message)
    ensures !r.1 ==> |r.0| == |t.subscribers.items| && forall j :: 0 <= j < |r.0| ==> r.0[j].Delivered?
    ensures r.1 ==> |r.0| > 0 && r.0[|r.0| - 1].Raised? && forall j :: 0 <= j < |r.0| - 1 ==> r.0[j].Delivered?
  {
    var os := CallUntilRaise(t.subscribers.items, message, fails);
    (os, |os| > 0 && os[|os| - 1].Raised?)
  }

  /**
   * A publish makes the calls of the fault-isolating E2 fan-out up to and
   * including the first raise, and all of them when nothing raises.
   */
  lemma PublishIsFanOutPrefix<Cb>(items: seq<E2.Target<Cb>>, message: Content, fails: (E2.Target<Cb>, Content) -> bool)
    ensures var os := CallUntilRaise(items, message, fails);
      os == E2.FanOut(D.Dict(items), message, fails)[..|os|]
  {
    var os := CallUntilRaise(items, message, fails);
    var full := E2.FanOut(D.Dict(items), message, fails);
    forall j | 0 <= j < |os| ensures os[j] == full[j] {
      OutcomeOfCall(os[j], full[j]);
    }
  }

  /** Two calls of one target with one payload that agree on raising are the same outcome. */
  lemma OutcomeOfCall<T, P>(a: Outcome<T, P>, b: Outcome<T, P>)
    requires Called(a) && Called(b) && a.target == b.target && a.payload == b.payload
    requires a.Raised? <==> b.Raised?
    ensures a == b
  {
  }

  /** With no subscribers a publish calls nobody and raises nothing. */
  lemma PublishNoSubscribers<Cb>(message: Content, fails: (E2.Target<Cb>, Content) -> bool)
    ensures Publish(New<Cb>(), message, fails) == ([], false)
  {
  }
}

=== FILE: e2sm_kpm.dfy ===
/**
 * The E2SM-KPM indication message: a header naming the reporting O-DU and a
 * timestamp, and a non-empty list of per-UE measurement records, each of
 * type RSRP, RSRQ or SNR. Validation reports the offending top-level fields.
 */
module E2smKpm {
  import opened Base
  import F = Fields

  /** `MeasurementType`, by its string values. */
  datatype MeasurementType = Rsrp | Rsrq | Snr

  function MeasValue(t: MeasurementType): (s: string)
    ensures s == "RSRP" <==> t.Rsrp?
    ensures s == "RSRQ" <==> t.Rsrq?
    ensures s == "SNR" <==> t.Snr?
  {
    match t
    case Rsrp => "RSRP"
    case Rsrq => "RSRQ"
    case Snr => "SNR"
  }

  /** An enum field accepts a member of the enum or one of its values, and nothing else. */
  function ParseMeasType(v: Value): (t: Option<MeasurementType>)
    ensures t.Some? <==> (v.VStr? && v.s in {"RSRP", "RSRQ", "SNR"}) || (v.VEnum? && v.value in {"RSRP", "RSRQ", "SNR"})
    ensures t.Some? ==> v == VStr(MeasValue(t.value)) || v == VEnum(MeasValue(t.value))
  {
    var s := if v.VStr? then v.s else if v.VEnum? then v.value else "";
    if !(v.VStr? || v.VEnum?) then None
    else if s == "RSRP" then Some(Rsrp)
    else if s == "RSRQ" then Some(Rsrq)
    else if s == "SNR" then Some(Snr)
    else None
  }

  datatype MeasurementRecord = MeasurementRecord(ueId: string, measType: MeasurementType, value: real)

  /** The record fields that are missing or of the wrong type. */
  function RecordErrors(d: Content): (errs: set<string>)
    ensures "ue_id" in errs <==> !("ue_id" in d && d["ue_id"].VStr?)
    ensures "meas_type" in errs <==> !("meas_type" in d && ParseMeasType(d["meas_type"]).Some?)
    ensures "value" in errs <==> !("value" in d && F.AsFloat(d["value"]).Some?)
    ensures errs <= {"ue_id", "meas_type", "value"}
  {
    (if "ue_id" in d && d["ue_id"].VStr? then {} else {"ue_id"})
    + (if "meas_type" in d && ParseMeasType(d["meas_type"]).Some? then {} else {"meas_type"})
    + (if "value" in d && F.AsFloat(d["value"]).Some? then {} else {"value"})
  }

  /** `MeasurementRecord(**d)`: all three fields are required. */
  function ValidateRecord(d: Content): (r: Result<MeasurementRecord>)
    ensures r.Ok? <==> RecordErrors(d) == {}
    ensures r.Err? ==> r.error == ValidationError(RecordErrors(d))
    ensures r.Ok? ==> VStr(r.value.ueId) == d["ue_id"]
    ensures r.Ok? ==> ParseMeasType(d["meas_type"]) == Some(r.value.measType)
    ensures r.Ok? ==> F.AsFloat(d["value"]) == Some(r.value.value)
  {
    if RecordErrors(d) != {} then Err(ValidationError(RecordErrors(d)))
    else Ok(MeasurementRecord(d["ue_id"].s, ParseMeasType(d["meas_type"]).value, F.AsFloat(d["value"]).value))
  }

  /** `model_dump()` of a record; the measurement type stays an enum member. */
  function DumpRecord(m: MeasurementRecord): (d: Content)
    ensures d.Keys == {"ue_id", "meas_type", "value"}
  {
    map["ue_id" := VStr(m.ueId), "meas_type" := VEnum(MeasValue(m.measType)), "value" := VReal(m.value)]
  }

  function RecordDict(m: MeasurementRecord): Value {
    VDict(DumpRecord(m))
  }

  /** Every record survives dumping and validating again. */
  lemma RecordRoundTrip(m: MeasurementRecord)
    ensures ValidateRecord(DumpRecord(m)) == Ok(m)
  {
    var d := DumpRecord(m);
    assert RecordErrors(d) == {};
  }

  /** A list item of the `measurements` field: a nested record. */
  function RecordItem(v: Value): (r: Result<MeasurementRecord>)
    ensures v.VDict? ==> r == ValidateRecord(v.entries)
    ensures !v.VDict? ==> r.Err?
  {
    F.Nested(v, ValidateRecord)
  }

  datatype IndicationHeader = IndicationHeader(duId: string, timestamp: real)

  function HeaderErrors(d: Content): (errs: set<string>)
    ensures "du_id" in errs <==> !("du_id" in d && d["du_id"].VStr?)
    ensures "timestamp" in errs <==> !("timestamp" in d && F.AsFloat(d["timestamp"]).Some?)
    ensures errs <= {"du_id", "timestamp"}
  {
    (if "du_id" in d && d["du_id"].VStr? then {} else {"du_id"})
    + (if "timestamp" in d && F.AsFloat(d["timestamp"]).Some? then {} else {"timestamp"})
  }

  /** `E2SM_KPM_IndicationHeader(**d)`: both fields are required. */
  function ValidateHeader(d: Content): (r: Result<IndicationHeader>)
    ensures r.Ok? <==> HeaderErrors(d) == {}
    ensures r.Err? ==> r.error == ValidationError(HeaderErrors(d))
    ensures r.Ok? ==> VStr(r.value.duId) == d["du_id"] && F.AsFloat(d["timestamp"]) == Some(r.value.timestamp)
  {
    if HeaderErrors(d) != {} then Err(ValidationError(HeaderErrors(d)))
    else Ok(IndicationHeader(d["du_id"].s, F.AsFloat(d["timestamp"]).value))
  }

  function DumpHeader(h: IndicationHeader): (d: Content)
    ensures d.Keys == {"du_id", "timestamp"}
  {
    map["du_id" := VStr(h.duId), "timestamp" := VReal(h.timestamp)]
  }

  lemma HeaderRoundTrip(h: IndicationHeader)
    ensures ValidateHeader(DumpHeader(h)) == Ok(h)
  {
    assert HeaderErrors(DumpHeader(h)) == {};
  }

  datatype IndicationMessage = IndicationMessage(header: IndicationHeader, measurements: seq<MeasurementRecord>)

  /** What every validated message satisfies. */
  predicate WellFormed(m: IndicationMessage) {
    |m.measurements| > 0
  }

  predicate HeaderOk(d: Content) {
    "header" in d && F.Nested(d["header"], ValidateHeader).Ok?
  }

  /** The `measurements` field is a list of valid records. */
  predicate MeasurementsTyped(d: Content) {
    "measurements" in d && d["measurements"].VList? && F.EachOk(d["measurements"].items, RecordItem).Some?
  }

  /** ... and the validator finds it non-empty. */
  predicate MeasurementsOk(d: Content) {
    MeasurementsTyped(d) && |d["measurements"].items| > 0
  }

  function MessageErrors(d: Content): (errs: set<string>)
    ensures "header" in errs <==> !HeaderOk(d)
    ensures "measurements" in errs <==> !MeasurementsOk(d)
    ensures errs <= {"header", "measurements"}
  {
    (if HeaderOk(d) then {} else {"header"}) + (if MeasurementsOk(d) then {} else {"measurements"})
  }

  /**
   * `E2SM_KPM_IndicationMessage(**d)`: a ValidationError naming the bad
   * fields (an empty list among them), or the message, whose records are the
   * given items, validated, in order.
   */
  function Validate(d: Content): (r: Result<IndicationMessage>)
    ensures r.Ok? <==> HeaderOk(d) && MeasurementsOk(d)
    ensures r.Err? ==> r.error == ValidationError(MessageErrors(d)) && MessageErrors(d) != {}
    ensures r.Ok? ==> WellFormed(r.value)
    ensures r.Ok? ==> Ok(r.value.header) == F.Nested(d["header"], ValidateHeader)
    ensures r.Ok? ==> |r.value.measurements| == |d["measurements"].items|
    ensures r.Ok? ==> forall i :: 0 <= i < |r.value.measurements| ==>
      RecordItem(d["measurements"].items[i]) == Ok(r.value.measurements[i])
  {
    if MessageErrors(d) != {} then Err(ValidationError(MessageErrors(d)))
    else
      Ok(IndicationMessage(F.Nested(d["header"], ValidateHeader).value, F.EachOk(d["measurements"].items, RecordItem).value))
  }

  function Dump(m: IndicationMessage): (d: Content)
    ensures d.Keys == {"header", "measurements"}
  {
    map["header" := VDict(DumpHeader(m.header)),
        "measurements" := VList(seq(|m.measurements|, i requires 0 <= i < |m.measurements| => RecordDict(m.measurements[i])))]
  }

  /** A well-formed message passes validation unchanged: validating its dump gives it back. */
  lemma DumpValidates(m: IndicationMessage)
    requires WellFormed(m)
    ensures Validate(Dump(m)) == Ok(m)
  {
    HeaderRoundTrip(m.header);
    forall i | 0 <= i < |m.measurements|
      ensures RecordItem(RecordDict(m.measurements[i])) == Ok(m.measurements[i])
    {
      RecordRoundTrip(m.measurements[i]);
    }
    var d := Dump(m);
    F.EachOkOfDumps(m.measurements, d["measurements"].items, RecordItem);
    assert F.Nested(d["header"], ValidateHeader) == Ok(m.header);
    assert F.EachOk(d["measurements"].items, RecordItem) == Some(m.measurements);
    assert MessageErrors(d) == {};
  }

  /** Validation normalises: validating the dump of a validated message gives the same message. */
  lemma ValidateIdempotent(d: Content)
    requires Validate(d).Ok?
    ensures Validate(Dump(Validate(d).value)) == Validate(d)
  {
    DumpValidates(Validate(d).value);
  }

  /** An empty measurement list is refused, even under a valid header, and only that field is reported. */
  lemma EmptyMeasurementsRejected(h: IndicationHeader)
    ensures Validate(map["header" := VDict(DumpHeader(h)), "measurements" := VList([])])
      == Err(ValidationError({"measurements"}))
  {
    HeaderRoundTrip(h);
    var d := map["header" := VDict(DumpHeader(h)), "measurements" := VList([])];
    assert MessageErrors(d) == {"measurements"};
  }

  /** A measurement type outside the enum makes its record, and so the whole message, invalid. */
  lemma UnknownMeasTypeRejected(h: IndicationHeader, ueId: string, name: string, value: real)
    requires name !in {"RSRP", "RSRQ", "SNR"}
    ensures var record := map["ue_id" := VStr(ueId), "meas_type" := VStr(name), "value" := VReal(value)];
      Validate(map["header" := VDict(DumpHeader(h)), "measurements" := VList([VDict(record)])]) == Err(ValidationError({"measurements"}))
  {
    HeaderRoundTrip(h);
    var record := map["ue_id" := VStr(ueId), "meas_type" := VStr(name), "value" := VReal(value)];
    var d := map["header" := VDict(DumpHeader(h)), "measurements" := VList([VDict(record)])];
    assert RecordItem(d["measurements"].items[0]).Err?;
    assert MessageErrors(d) == {"measurements"};
  }
}

=== FILE: e2sm_rc.dfy ===
/**
 * The E2SM-RC control message: a header naming the sending Near-RT RIC, the
 * targeted O-DU and a timestamp, and a non-empty list of control actions,
 * each a handover request or a beamforming update with a parameter dict.
 * Validation reports the offending top-level fields.
 */
module E2smRc {
  import opened Base
  import F = Fields

  /** `ControlType`, by its string values. */
  datatype ControlType = HoRequest | BeamformingUpdate

  function ControlValue(t: ControlType): (s: string)
    ensures s == "HO_REQUEST" <==> t.HoRequest?
    ensures s == "BEAMFORMING_UPDATE" <==> t.BeamformingUpdate?
  {
    match t
    case HoRequest => "HO_REQUEST"
    case BeamformingUpdate => "BEAMFORMING_UPDATE"
  }

  /** An enum field accepts a member of the enum or one of its values, and nothing else. */
  function ParseControlType(v: Value): (t: Option<ControlType>)
    ensures t.Some? <==> ((v.VStr? && v.s in {"HO_REQUEST", "BEAMFORMING_UPDATE"})
                          || (v.VEnum? && v.value in {"HO_REQUEST", "BEAMFORMING_UPDATE"}))
    ensures t.Some? ==> v == VStr(ControlValue(t.value)) || v == VEnum(ControlValue(t.value))
  {
    var s := if v.VStr? then v.s else if v.VEnum? then v.value else "";
    if !(v.VStr? || v.VEnum?) then None
    else if s == "HO_REQUEST" then Some(HoRequest)
    else if s == "BEAMFORMING_UPDATE" then Some(BeamformingUpdate)
    else None
  }

  datatype ControlAction = ControlAction(controlType: ControlType, parameters: Content)

  function ActionErrors(d: Content): (errs: set<string>)
    ensures "control_type" in errs <==> !("control_type" in d && ParseControlType(d["control_type"]).Some?)
    ensures "parameters" in errs <==> !("parameters" in d && d["parameters"].VDict?)
    ensures errs <= {"control_type", "parameters"}
  {
    (if "control_type" in d && ParseControlType(d["control_type"]).Some? then {} else {"control_type"})
    + (if "parameters" in d && d["parameters"].VDict? then {} else {"parameters"})
  }

  /** `ControlAction(**d)`: the control type and the parameter dict are both required. */
  function ValidateAction(d: Content): (r: Result<ControlAction>)
    ensures r.Ok? <==> ActionErrors(d) == {}
    ensures r.Err? ==> r.error == ValidationError(ActionErrors(d))
    ensures r.Ok? ==> ParseControlType(d["control_type"]) == Some(r.value.controlType)
    ensures r.Ok? ==> d["parameters"] == VDict(r.value.parameters)
  {
    if ActionErrors(d) != {} then Err(ValidationError(ActionErrors(d)))
    else Ok(ControlAction(ParseControlType(d["control_type"]).value, d["parameters"].entries))
  }

  /** `model_dump()` of an action; the control type stays an enum member. */
  function DumpAction(a: ControlAction): (d: Content)
    ensures d.Keys == {"control_type", "parameters"}
  {
    map["control_type" := VEnum(ControlValue(a.controlType)), "parameters" := VDict(a.parameters)]
  }

  function ActionDict(a: ControlAction): Value {
    VDict(DumpAction(a))
  }

  /** Every action survives dumping and validating again. */
  lemma ActionRoundTrip(a: ControlAction)
    ensures ValidateAction(DumpAction(a)) == Ok(a)
  {
    assert ActionErrors(DumpAction(a)) == {};
  }

  /** A list item of the `actions` field: a nested action. */
  function ActionItem(v: Value): (r: Result<ControlAction>)
    ensures v.VDict? ==> r == ValidateAction(v.entries)
    ensures !v.VDict? ==> r.Err?
  {
    F.Nested(v, ValidateAction)
  }

  datatype ControlHeader = ControlHeader(ricId: string, duId: string, timestamp: real)

  function HeaderErrors(d: Content): (errs: set<string>)
    ensures "ric_id" in errs <==> !("ric_id" in d && d["ric_id"].VStr?)
    ensures "du_id" in errs <==> !("du_id" in d && d["du_id"].VStr?)
    ensures "timestamp" in errs <==> !("timestamp" in d && F.AsFloat(d["timestamp"]).Some?)
    ensures errs <= {"ric_id", "du_id", "timestamp"}
  {
    (if "ric_id" in d && d["ric_id"].VStr? then {} else {"ric_id"})
    + (if "du_id" in d && d["du_id"].VStr? then {} else {"du_id"})
    + (if "timestamp" in d && F.AsFloat(d["timestamp"]).Some? then {} else {"timestamp"})
  }

  /** `E2SM_RC_ControlHeader(**d)`: all three fields are required. */
  function ValidateHeader(d: Content): (r: Result<ControlHeader>)
    ensures r.Ok? <==> HeaderErrors(d) == {}
    ensures r.Err? ==> r.error == ValidationError(HeaderErrors(d))
    ensures r.Ok? ==> VStr(r.value.ricId) == d["ric_id"] && VStr(r.value.duId) == d["du_id"]
    ensures r.Ok? ==> F.AsFloat(d["timestamp"]) == Some(r.value.timestamp)
  {
    if HeaderErrors(d) != {} then Err(ValidationError(HeaderErrors(d)))
    else Ok(ControlHeader(d["ric_id"].s, d["du_id"].s, F.AsFloat(d["timestamp"]).value))
  }

  function DumpHeader(h: ControlHeader): (d: Content)
    ensures d.Keys == {"ric_id", "du_id", "timestamp"}
  {
    map["ric_id" := VStr(h.ricId), "du_id" := VStr(h.duId), "timestamp" := VReal(h.timestamp)]
  }

  lemma HeaderRoundTrip(h: ControlHeader)
    ensures ValidateHeader(DumpHeader(h)) == Ok(h)
  {
    assert HeaderErrors(DumpHeader(h)) == {};
  }

  datatype ControlMessage = ControlMessage(header: ControlHeader, actions: seq<ControlAction>)

  /** What every validated message satisfies. */
  predicate WellFormed(m: ControlMessage) {
    |m.actions| > 0
  }

  predicate HeaderOk(d: Content) {
    "header" in d && F.Nested(d["header"], ValidateHeader).Ok?
  }

  /** The `actions` field is a list of valid actions, and the validator finds it non-empty. */
  predicate ActionsOk(d: Content) {
    && "actions" in d && d["actions"].VList? && F.EachOk(d["actions"].items, ActionItem).Some?
    && |d["actions"].items| > 0
  }

  function MessageErrors(d: Content): (errs: set<string>)
    ensures "header" in errs <==> !HeaderOk(d)
    ensures "actions" in errs <==> !ActionsOk(d)
    ensures errs <= {"header", "actions"}
  {
    (if HeaderOk(d) then {} else {"header"}) + (if ActionsOk(d) then {} else {"actions"})
  }

  /**
   * `E2SM_RC_ControlMessage(**d)`: a ValidationError naming the bad fields
   * (an empty action list among them), or the message, whose actions are the
   * given items, validated, in order.
   */
  function Validate(d: Content): (r: Result<ControlMessage>)
    ensures r.Ok? <==> HeaderOk(d) && ActionsOk(d)
    ensures r.Err? ==> r.error == ValidationError(MessageErrors(d)) && MessageErrors(d) != {}
    ensures r.Ok? ==> WellFormed(r.value)
    ensures r.Ok? ==> Ok(r.value.header) == F.Nested(d["header"], ValidateHeader)
    ensures r.Ok? ==> |r.value.actions| == |d["actions"].items|
    ensures r.Ok? ==> forall i :: 0 <= i < |r.value.actions| ==> ActionItem(d["actions"].items[i]) == Ok(r.value.actions[i])
  {
    if MessageErrors(d) != {} then Err(ValidationError(MessageErrors(d)))
    else Ok(ControlMessage(F.Nested(d["header"], ValidateHeader).value, F.EachOk(d["actions"].items, ActionItem).value))
  }

  function Dump(m: ControlMessage): (d: Content)
    ensures d.Keys == {"header", "actions"}
  {
    map["header" := VDict(DumpHeader(m.header)),
        "actions" := VList(seq(|m.actions|, i requires 0 <= i < |m.actions| => ActionDict(m.actions[i])))]
  }

  /** A well-formed message passes validation unchanged: validating its dump gives it back. */
  lemma DumpValidates(m: ControlMessage)
    requires WellFormed(m)
    ensures Validate(Dump(m)) == Ok(m)
  {
    HeaderRoundTrip(m.header);
    forall i | 0 <= i < |m.actions|
      ensures ActionItem(ActionDict(m.actions[i])) == Ok(m.actions[i])
    {
      ActionRoundTrip(m.actions[i]);
    }
    var d := Dump(m);
    F.EachOkOfDumps(m.actions, d["actions"].items, ActionItem);
    assert F.Nested(d["header"], ValidateHeader) == Ok(m.header);
    assert MessageErrors(d) == {};
  }

  /** Validation normalises: validating the dump of a validated message gives the same message. */
  lemma ValidateIdempotent(d: Content)
    requires Validate(d).Ok?
    ensures Validate(Dump(Validate(d).value)) == Validate(d)
  {
    DumpValidates(Validate(d).value);
  }

  /** An empty action list is refused, even under a valid header, and only that field is reported. */
  lemma EmptyActionsRejected(h: ControlHeader)
    ensures Validate(map["header" := VDict(DumpHeader(h)), "actions" := VList([])]) == Err(ValidationError({"actions"}))
  {
    HeaderRoundTrip(h);
    var d := map["header" := VDict(DumpHeader(h)), "actions" := VList([])];
    assert MessageErrors(d) == {"actions"};
  }

  /** A control type outside the enum makes its action, and so the whole message, invalid. */
  lemma UnknownControlTypeRejected(h: ControlHeader, name: string, params: Content)
    requires name !in {"HO_REQUEST", "BEAMFORMING_UPDATE"}
    ensures var action := map["control_type" := VStr(name), "parameters" := VDict(params)];
      Validate(map["header" := VDict(DumpHeader(h)), "actions" := VList([VDict(action)])]) == Err(ValidationError({"actions"}))
  {
    HeaderRoundTrip(h);
    var action := map["control_type" := VStr(name), "parameters" := VDict(params)];
    var d := map["header" := VDict(DumpHeader(h)), "actions" := VList([VDict(action)])];
    assert ActionItem(d["actions"].items[0]).Err?;
    assert MessageErrors(d) == {"actions"};
  }
}

=== FILE: event_queue.dfy ===
/**
 * The discrete-event engine under the simulator's scheduler: a virtual clock
 * and a queue of pending entries ordered by (fire time, sequence number).
 * A one-shot job fires once; a periodic job (a self-rescheduling process)
 * puts itself back `period` later every time it fires.
 *
 * `Fire` pops entries strictly before the end time, in order, and records
 * them in a trace; entries at exactly the end time stay pending, because the
 * stop event of the underlying engine is processed ahead of ordinary events
 * at the same instant.
 */
module EventQueue {
  import opened Base

  datatype Job<E> = Once(event: E) | Every(period: real, event: E)

  datatype Entry<E> = Entry(time: real, seqNo: nat, job: Job<E>)

  /** Strict order of delivery: earlier time first, ties by insertion order. */
  predicate Before<E>(a: Entry<E>, b: Entry<E>) {
    a.time < b.time || (a.time == b.time && a.seqNo < b.seqNo)
  }

  predicate Sorted<E>(q: seq<Entry<E>>) {
    forall i, j :: 0 <= i < j < |q| ==> Before(q[i], q[j])
  }

  datatype Queue<E> = Queue(now: real, nextSeq: nat, pending: seq<Entry<E>>)

  /** Pending entries are ordered, not in the past, carry issued sequence numbers, and periods are positive. */
  predicate Valid<E>(q: Queue<E>) {
    && Sorted(q.pending)
    && (forall i :: 0 <= i < |q.pending| ==> q.now <= q.pending[i].time)
    && (forall i :: 0 <= i < |q.pending| ==> q.pending[i].seqNo < q.nextSeq)
    && (forall i :: 0 <= i < |q.pending| ==> q.pending[i].job.Every? ==> q.pending[i].job.period > 0.0)
  }

  function Empty<E>(): (q: Queue<E>)
  {
    Queue(0.0, 0, [])
  }

  /** The empty queue starts at time zero with nothing pending. */
  lemma EmptyStartsAtZero<E>()
    ensures var q := Empty<E>();
      Valid(q) && q.now == 0.0 && q.pending == []
  {
  }

  /** Ordered insertion of an entry whose sequence number is newer than all others. */
  function Insert<E>(q: seq<Entry<E>>, e: Entry<E>): (r: seq<Entry<E>>)
    requires Sorted(q)
    requires forall i :: 0 <= i < |q| ==> q[i].seqNo < e.seqNo
    ensures Sorted(r)
    ensures multiset(r) == multiset(q) + multiset{e}
  {
    if |q| == 0 then [e]
    else if Before(e, q[0]) then [e] + q
    else
      var t := Insert(q[1..], e);
      InsertBehindHead(q, e, t);
      [q[0]] + t
  }

  /** The head of a sorted queue stays in front of the rest with a later entry inserted among them. */
  lemma InsertBehindHead<E>(q: seq<Entry<E>>, e: Entry<E>, t: seq<Entry<E>>)
    requires Sorted(q) && |q| > 0 && !Before(e, q[0]) && q[0].seqNo < e.seqNo
    requires Sorted(t) && multiset(t) == multiset(q[1..]) + multiset{e}
    ensures Sorted([q[0]] + t)
    ensures multiset([q[0]] + t) == multiset(q) + multiset{e}
  {
    assert q == [q[0]] + q[1..];
    forall j | 0 <= j < |t| ensures Before(q[0], t[j]) {
      assert t[j] in multiset(t);
      if t[j] != e {
        assert t[j] in multiset(q[1..]);
        var k :| 1 <= k < |q| && q[k] == t[j];
      }
    }
  }

  /**
   * Schedule `job` after `delay`; a negative delay is refused with ValueError.
   * The entry gets the next sequence number, so ties fire in insertion order.
   */
  function Schedule<E>(q: Queue<E>, delay: real, job: Job<E>): (r: Result<Queue<E>>)
    requires Valid(q)
    requires job.Every? ==> job.period > 0.0
    ensures r.Err? <==> delay < 0.0
    ensures r.Err? ==> r.error == ValueError
    ensures r.Ok? ==> Valid(r.value)
    ensures r.Ok? ==> r.value.now == q.now && r.value.nextSeq == q.nextSeq + 1
    ensures r.Ok? ==> multiset(r.value.pending) == multiset(q.pending) + multiset{Entry(q.now + delay, q.nextSeq, job)}
  {
    if delay < 0.0 then Err(ValueError)
    else
      var e := Entry(q.now + delay, q.nextSeq, job);
      var p := Insert(q.pending, e);
      forall i | 0 <= i < |p| ensures p[i] in q.pending || p[i] == e {
        assert p[i] in multiset(p);
      }
      Ok(Queue(q.now, q.nextSeq + 1, p))
  }

  /** How many more times an entry can fire before `until` (an upper bound for periodic ones). */
  function Weight<E>(e: Entry<E>, until: real): nat {
    if e.time >= until then 0
    else match e.job
      case Once(_) => 1
      case Every(p, _) =>
        if p <= 0.0 then 1
        else
          assert (until - e.time) / p > 0.0;
          1 + ((until - e.time) / p).Floor
  }

  function TotalWeight<E>(q: seq<Entry<E>>, until: real): nat {
    if |q| == 0 then 0 else Weight(q[0], until) + TotalWeight(q[1..], until)
  }

  lemma TotalWeightInsert<E>(q: seq<Entry<E>>, e: Entry<E>, until: real)
    requires Sorted(q)
    requires forall i :: 0 <= i < |q| ==> q[i].seqNo < e.seqNo
    ensures TotalWeight(Insert(q, e), until) == TotalWeight(q, until) + Weight(e, until)
  {
    if |q| > 0 && !Before(e, q[0]) {
      TotalWeightInsert(q[1..], e, until);
    }
  }

  /** Dividing by a positive period: one period less is one unit less. */
  lemma DivShift(a: real, p: real)
    requires p > 0.0
    ensures (a - p) / p == a / p - 1.0
  {
    var x, y := a / p, (a - p) / p;
    var d := y - (x - 1.0);
    assert x * p == a && y * p == a - p;
    assert d * p == y * p - x * p + p;
    assert d * p == 0.0;
    if d > 0.0 {
      ProductPositive(d, p);
    } else if d < 0.0 {
      ProductPositive(-d, p);
    }
  }

  /** A periodic entry put back one period later can fire one time fewer. */
  lemma RescheduleWeighsLess<E>(e: Entry<E>, s: nat, until: real)
    requires e.job.Every? && e.job.period > 0.0
    requires e.time < until
    ensures Weight(Entry(e.time + e.job.period, s, e.job), until) < Weight(e, until)
  {
    var p := e.job.period;
    var x := (until - e.time) / p;
    assert Weight(e, until) == 1 + x.Floor;
    if e.time + p < until {
      var e' := Entry(e.time + p, s, e.job);
      DivShift(until - e.time, p);
      assert until - e'.time == (until - e.time) - p;
      assert (until - e'.time) / p == x - 1.0;
      assert Weight(e', until) == 1 + (x - 1.0).Floor;
      assert (x - 1.0).Floor == x.Floor - 1;
    }
  }

  /** The entry a periodic head puts back: one period later, with the next sequence number. */
  function Reborn<E>(q: Queue<E>): Entry<E>
    requires |q.pending| > 0 && q.pending[0].job.Every?
  {
    Entry(q.pending[0].time + q.pending[0].job.period, q.nextSeq, q.pending[0].job)
  }

  /** The entries behind the head all come after it. */
  lemma HeadFirst<E>(q: Queue<E>)
    requires Valid(q) && |q.pending| > 0
    ensures forall x :: x in q.pending[1..] ==> Before(q.pending[0], x)
  {
    forall x | x in q.pending[1..] ensures Before(q.pending[0], x) {
      var k :| 0 <= k < |q.pending[1..]| && q.pending[1..][k] == x;
      assert q.pending[k + 1] == x;
    }
  }

  /** Putting a periodic head back keeps the queue valid and adds exactly the reborn entry. */
  lemma RebornInsert<E(!new)>(q: Queue<E>)
    requires Valid(q) && |q.pending| > 0 && q.pending[0].job.Every?
    ensures var r := Queue(q.pending[0].time, q.nextSeq + 1, Insert(q.pending[1..], Reborn(q)));
      && Valid(r)
      && forall x :: x in r.pending <==> x in q.pending[1..] || x == Reborn(q)
  {
    var rest := q.pending[1..];
    var p := Insert(rest, Reborn(q));
    HeadFirst(q);
    forall x ensures x in p <==> x in rest || x == Reborn(q) {
      assert x in p <==> x in multiset(p);
    }
    forall i | 0 <= i < |p| ensures q.pending[0].time <= p[i].time && p[i].seqNo < q.nextSeq + 1 && (p[i].job.Every? ==> p[i].job.period > 0.0) {
      assert p[i] in p;
      if p[i] in rest {
        var k :| 0 <= k < |rest| && rest[k] == p[i];
        assert q.pending[k + 1] == p[i];
      }
    }
  }

  /** Pop the head entry, move the clock to its time, and put it back if it is periodic. */
  function Step<E(!new)>(q: Queue<E>): (r: Queue<E>)
    requires Valid(q) && |q.pending| > 0
    ensures Valid(r)
    ensures r.now == q.pending[0].time && q.now <= r.now
    ensures r.nextSeq == if q.pending[0].job.Every? then q.nextSeq + 1 else q.nextSeq
  {
    var head := q.pending[0];
    HeadFirst(q);
    if head.job.Once? then
      Queue(head.time, q.nextSeq, q.pending[1..])
    else
      RebornInsert(q);
      Queue(head.time, q.nextSeq + 1, Insert(q.pending[1..], Reborn(q)))
  }

  /** After a step the pending entries are the old ones behind the head, plus the head put back if periodic. */
  lemma StepMembers<E(!new)>(q: Queue<E>)
    requires Valid(q) && |q.pending| > 0
    ensures forall x :: x in Step(q).pending <==> x in q.pending[1..] || (q.pending[0].job.Every? && x == Reborn(q))
  {
    if q.pending[0].job.Every? {
      RebornInsert(q);
    }
  }

  lemma StepWeighsLess<E(!new)>(q: Queue<E>, until: real)
    requires Valid(q) && |q.pending| > 0 && q.pending[0].time < until
    ensures TotalWeight(Step(q).pending, until) < TotalWeight(q.pending, until)
  {
    if q.pending[0].job.Every? {
      TotalWeightInsert(q.pending[1..], Reborn(q), until);
      RescheduleWeighsLess(q.pending[0], q.nextSeq, until);
    }
  }

  /** The first pending entry is not due, so none is. */
  lemma HeadNotDue<E>(q: Queue<E>, until: real)
    requires Valid(q)
    requires |q.pending| == 0 || q.pending[0].time >= until
    ensures forall i :: 0 <= i < |q.pending| ==> q.pending[i].time >= until
  {
    forall i | 0 < i < |q.pending| ensures q.pending[i].time >= until {
      assert Before(q.pending[0], q.pending[i]);
    }
  }

  /**
   * Pop and record every entry strictly before `until`, in (time, seqNo) order,
   * advancing the clock to each entry's time and putting periodic entries back.
   */
  function Fire<E(!new)>(q: Queue<E>, until: real): (r: (Queue<E>, seq<Entry<E>>))
    requires Valid(q)
    decreases TotalWeight(q.pending, until)
    ensures Valid(r.0)
    ensures q.now <= r.0.now && q.nextSeq <= r.0.nextSeq
    ensures r.0.now < until || r.0.now == q.now
    ensures forall i :: 0 <= i < |r.0.pending| ==> r.0.pending[i].time >= until
  {
    if |q.pending| == 0 || q.pending[0].time >= until then
      HeadNotDue(q, until);
      (q, [])
    else
      StepWeighsLess(q, until);
      var (q2, trace) := Fire(Step(q), until);
      (q2, [q.pending[0]] + trace)
  }

  /** `trace` is in strict delivery order within [now, until), and each entry was pending in `q` or created after it. */
  ghost predicate OrderedFrom<E>(q: Queue<E>, until: real, trace: seq<Entry<E>>) {
    && Sorted(trace)
    && (forall i :: 0 <= i < |trace| ==> q.now <= trace[i].time < until)
    && (forall i :: 0 <= i < |trace| ==> trace[i] in q.pending || (trace[i].seqNo >= q.nextSeq && trace[i].time > q.now))
  }

  /** An entry a stepped queue holds or creates comes after the head, and was pending or is newer than the queue. */
  lemma AfterHead<E(!new)>(q: Queue<E>, x: Entry<E>)
    requires Valid(q) && |q.pending| > 0
    requires x in Step(q).pending || (x.seqNo >= Step(q).nextSeq && x.time > Step(q).now)
    ensures Before(q.pending[0], x)
    ensures x in q.pending || (x.seqNo >= q.nextSeq && x.time > q.now)
  {
    StepMembers(q);
    HeadFirst(q);
    if x in Step(q).pending && x in q.pending[1..] {
      var k :| 0 <= k < |q.pending[1..]| && q.pending[1..][k] == x;
      assert q.pending[k + 1] == x;
    }
  }

  /** A head before every entry of a sorted trace keeps it sorted. */
  lemma SortedCons<E>(head: Entry<E>, trace: seq<Entry<E>>)
    requires Sorted(trace) && forall j :: 0 <= j < |trace| ==> Before(head, trace[j])
    ensures Sorted([head] + trace)
  {
    var full := [head] + trace;
    forall i, j | 0 <= i < j < |full| ensures Before(full[i], full[j]) {
      assert full[j] == trace[j - 1];
      if i > 0 {
        assert full[i] == trace[i - 1];
      }
    }
  }

  /** Firing the due head in front of an ordered trace of the stepped queue keeps the trace ordered. */
  lemma OrderedCons<E(!new)>(q: Queue<E>, until: real, trace: seq<Entry<E>>)
    requires Valid(q) && |q.pending| > 0 && q.pending[0].time < until
    requires OrderedFrom(Step(q), until, trace)
    ensures OrderedFrom(q, until, [q.pending[0]] + trace)
  {
    var full := [q.pending[0]] + trace;
    forall j | 0 <= j < |trace|
      ensures Before(q.pending[0], trace[j]) && (trace[j] in q.pending || (trace[j].seqNo >= q.nextSeq && trace[j].time > q.now))
    {
      AfterHead(q, trace[j]);
    }
    SortedCons(q.pending[0], trace);
    forall i | 0 < i < |full| ensures full[i] == trace[i - 1] {
    }
  }

  /** The trace is in strict delivery order within [now, until); what fires was pending or was created later. */
  lemma {:induction false} FireOrdered<E(!new)>(q: Queue<E>, until: real)
    requires Valid(q)
    decreases TotalWeight(q.pending, until)
    ensures var trace := Fire(q, until).1;
      && Sorted(trace)
      && (forall i :: 0 <= i < |trace| ==> q.now <= trace[i].time < until)
      && (forall i :: 0 <= i < |trace| ==> trace[i] in q.pending || (trace[i].seqNo >= q.nextSeq && trace[i].time > q.now))
  {
    if |q.pending| > 0 && q.pending[0].time < until {
      FireUnfold(q, until);
      FireOrdered(Step(q), until);
      OrderedCons(q, until, Fire(Step(q), until).1);
    }
  }

  /** Every due entry fires; entries not yet due stay pending. */
  lemma {:induction false} FireDue<E(!new)>(q: Queue<E>, until: real)
    requires Valid(q)
    decreases TotalWeight(q.pending, until)
    ensures forall e :: e in q.pending && e.time < until ==> e in Fire(q, until).1
    ensures forall e :: e in q.pending && e.time >= until ==> e in Fire(q, until).0.pending
  {
    if |q.pending| == 0 || q.pending[0].time >= until {
      HeadNotDue(q, until);
    } else {
      StepWeighsLess(q, until);
      var q1 := Step(q);
      StepMembers(q);
      FireDue(q1, until);
      assert q.pending == [q.pending[0]] + q.pending[1..];
    }
  }

  /** One-shot entries are never invented: what fires or stays pending as a one-shot was pending before. */
  lemma {:induction false} FireOnceKept<E(!new)>(q: Queue<E>, until: real)
    requires Valid(q)
    decreases TotalWeight(q.pending, until)
    ensures forall e :: e in Fire(q, until).1 && e.job.Once? ==> e in q.pending
    ensures forall e :: e in Fire(q, until).0.pending && e.job.Once? ==> e in q.pending
  {
    if |q.pending| > 0 && q.pending[0].time < until {
      StepWeighsLess(q, until);
      var q1 := Step(q);
      StepMembers(q);
      FireOnceKept(q1, until);
      assert Fire(q, until).1 == [q.pending[0]] + Fire(q1, until).1;
    }
  }

  /** Some entry of `s` carries `job`. */
  ghost predicate HasJob<E>(s: seq<Entry<E>>, job: Job<E>) {
    exists f :: f in s && f.job == job
  }

  /** One unfolding of `Fire` when the head is due. */
  lemma FireUnfold<E(!new)>(q: Queue<E>, until: real)
    requires Valid(q) && |q.pending| > 0 && q.pending[0].time < until
    ensures TotalWeight(Step(q).pending, until) < TotalWeight(q.pending, until)
    ensures Fire(q, until).0 == Fire(Step(q), until).0
    ensures Fire(q, until).1 == [q.pending[0]] + Fire(Step(q), until).1
  {
    StepWeighsLess(q, until);
  }

  /** A periodic job that was pending is still pending after firing. */
  lemma {:induction false} FireKeepsProcesses<E(!new)>(q: Queue<E>, until: real)
    requires Valid(q)
    decreases TotalWeight(q.pending, until)
    ensures forall e :: e in q.pending && e.job.Every? ==> HasJob(Fire(q, until).0.pending, e.job)
  {
    if |q.pending| > 0 && q.pending[0].time < until {
      FireUnfold(q, until);
      var q1 := Step(q);
      StepMembers(q);
      FireKeepsProcesses(q1, until);
      var q2 := Fire(q1, until).0;
      forall e | e in q.pending && e.job.Every?
        ensures HasJob(q2.pending, e.job)
      {
        var e1 := if e == q.pending[0] then Reborn(q) else e;
        if e != q.pending[0] {
          var k :| 0 <= k < |q.pending| && q.pending[k] == e;
          assert q.pending[1..][k - 1] == e;
        }
        assert e1 in q1.pending && e1.job == e.job;
      }
    }
  }

  /** Some entry of `trace` fired `job` at time `t`. */
  ghost predicate FiresAt<E>(trace: seq<Entry<E>>, job: Job<E>, t: real) {
    exists j :: 0 <= j < |trace| && trace[j].job == job && trace[j].time == t
  }

  /** `job` fires at time `t` within the trace when `t` is due, and is otherwise pending at `t`. */
  ghost predicate RefiresAt<E>(trace: seq<Entry<E>>, pending: seq<Entry<E>>, job: Job<E>, t: real, until: real) {
    if t < until then FiresAt(trace, job, t)
    else exists f :: f in pending && f.job == job && f.time == t
  }

  lemma RefiresPrepend<E>(head: Entry<E>, trace: seq<Entry<E>>, pending: seq<Entry<E>>, job: Job<E>, t: real, until: real)
    requires RefiresAt(trace, pending, job, t, until)
    ensures RefiresAt([head] + trace, pending, job, t, until)
  {
    if t < until {
      var j :| 0 <= j < |trace| && trace[j].job == job && trace[j].time == t;
      assert ([head] + trace)[j + 1] == trace[j];
    }
  }

  /** Every periodic firing in `trace` is followed by the next one, or leaves it pending. */
  ghost predicate PeriodicClosed<E>(trace: seq<Entry<E>>, pending: seq<Entry<E>>, until: real) {
    forall i :: 0 <= i < |trace| && trace[i].job.Every? ==>
      RefiresAt(trace, pending, trace[i].job, trace[i].time + trace[i].job.period, until)
  }

  /** The head of a due periodic queue comes round again one period later. */
  lemma HeadRefires<E(!new)>(q: Queue<E>, until: real)
    requires Valid(q) && |q.pending| > 0 && q.pending[0].time < until && q.pending[0].job.Every?
    ensures TotalWeight(Step(q).pending, until) < TotalWeight(q.pending, until)
    ensures RefiresAt(Fire(q, until).1, Fire(q, until).0.pending, q.pending[0].job,
                      q.pending[0].time + q.pending[0].job.period, until)
  {
    FireUnfold(q, until);
    var q1 := Step(q);
    StepMembers(q);
    var b := Reborn(q);
    assert b in q1.pending;
    FireDue(q1, until);
    var full := Fire(q, until).1;
    if b.time < until {
      var j :| 0 <= j < |Fire(q1, until).1| && Fire(q1, until).1[j] == b;
      assert full[j + 1] == b;
    } else {
      assert b in Fire(q, until).0.pending;
    }
  }

  /** A head that comes round again, in front of a periodically closed trace, keeps it closed. */
  lemma PeriodicCons<E>(head: Entry<E>, trace: seq<Entry<E>>, pending: seq<Entry<E>>, until: real)
    requires PeriodicClosed(trace, pending, until)
    requires head.job.Every? ==> RefiresAt([head] + trace, pending, head.job, head.time + head.job.period, until)
    ensures PeriodicClosed([head] + trace, pending, until)
  {
    var full := [head] + trace;
    forall i | 0 <= i < |full| && full[i].job.Every?
      ensures RefiresAt(full, pending, full[i].job, full[i].time + full[i].job.period, until)
    {
      if i > 0 {
        assert full[i] == trace[i - 1];
        RefiresPrepend(head, trace, pending, full[i].job, full[i].time + full[i].job.period, until);
      }
    }
  }

  /**
   * A periodic job keeps itself alive: each of its firings is followed by
   * another one period later, or leaves an entry one period later pending.
   */
  lemma {:induction false} FirePeriodic<E(!new)>(q: Queue<E>, until: real)
    requires Valid(q)
    decreases TotalWeight(q.pending, until)
    ensures PeriodicClosed(Fire(q, until).1, Fire(q, until).0.pending, until)
  {
    if |q.pending| > 0 && q.pending[0].time < until {
      FireUnfold(q, until);
      FirePeriodic(Step(q), until);
      if q.pending[0].job.Every? {
        HeadRefires(q, until);
      }
      PeriodicCons(q.pending[0], Fire(Step(q), until).1, Fire(Step(q), until).0.pending, until);
    }
  }

  lemma PeriodicNext<E>(trace: seq<Entry<E>>, pending: seq<Entry<E>>, until: real, job: Job<E>, t: real)
    requires PeriodicClosed(trace, pending, until) && job.Every?
    requires FiresAt(trace, job, t) && t + job.period < until
    ensures FiresAt(trace, job, t + job.period)
  {
    var j :| 0 <= j < |trace| && trace[j].job == job && trace[j].time == t;
    assert RefiresAt(trace, pending, trace[j].job, trace[j].time + trace[j].job.period, until);
  }

  /** `a` moved on by `k` periods `p`. */
  function Later(a: real, p: real, k: nat): (t: real)
    ensures p > 0.0 ==> a <= t
    ensures t == a + (k as real) * p
  {
    if k == 0 then a else Later(a, p, k - 1) + p
  }

  /** In a periodically closed trace, a fired periodic entry recurs at every due multiple of its period. */
  lemma {:induction false} ClosedRecurs<E>(trace: seq<Entry<E>>, pending: seq<Entry<E>>, until: real, e: Entry<E>, k: nat)
    requires PeriodicClosed(trace, pending, until) && e.job.Every? && e.job.period > 0.0
    requires e in trace
    requires Later(e.time, e.job.period, k) < until
    ensures FiresAt(trace, e.job, Later(e.time, e.job.period, k))
  {
    if k == 0 {
      var j :| 0 <= j < |trace| && trace[j] == e;
    } else {
      ClosedRecurs(trace, pending, until, e, k - 1);
      PeriodicNext(trace, pending, until, e.job, Later(e.time, e.job.period, k - 1));
    }
  }

  /**
   * A pending periodic job fires at its first time and at every later
   * multiple of its period that is due.
   */
  lemma FireEveryPeriod<E(!new)>(q: Queue<E>, until: real, e: Entry<E>, k: nat)
    requires Valid(q) && e in q.pending && e.job.Every?
    requires Later(e.time, e.job.period, k) < until
    ensures FiresAt(Fire(q, until).1, e.job, Later(e.time, e.job.period, k))
  {
    var idx :| 0 <= idx < |q.pending| && q.pending[idx] == e;
    assert e.job.period > 0.0;
    assert e.time < until;
    FireDue(q, until);
    FirePeriodic(q, until);
    ClosedRecurs(Fire(q, until).1, Fire(q, until).0.pending, until, e, k);
  }

  /** A one-shot head leaves the queue without putting anything back, and one-shot entries stay one-shot. */
  lemma StepOnce<E(!new)>(q: Queue<E>)
    requires Valid(q) && |q.pending| > 0
    requires forall i :: 0 <= i < |q.pending| ==> q.pending[i].job.Once?
    ensures Step(q).pending == q.pending[1..]
    ensures forall i :: 0 <= i < |Step(q).pending| ==> Step(q).pending[i].job.Once?
  {
  }

  lemma ConsAppend<T>(h: T, a: seq<T>, b: seq<T>, whole: seq<T>)
    requires |whole| > 0 && whole[0] == h && a + b == whole[1..]
    ensures ([h] + a) + b == whole
  {
    assert whole == [h] + whole[1..];
  }

  /** With only one-shot jobs pending, firing splits the queue: the due prefix fires, the rest stays. */
  lemma {:induction false} FireAllOnce<E(!new)>(q: Queue<E>, until: real)
    requires Valid(q)
    requires forall i :: 0 <= i < |q.pending| ==> q.pending[i].job.Once?
    decreases TotalWeight(q.pending, until)
    ensures Fire(q, until).1 + Fire(q, until).0.pending == q.pending
  {
    if |q.pending| > 0 && q.pending[0].time < until {
      FireUnfold(q, until);
      StepOnce(q);
      FireAllOnce(Step(q), until);
      ConsAppend(q.pending[0], Fire(Step(q), until).1, Fire(Step(q), until).0.pending, q.pending);
    }
  }

  /**
   * A step in which the head's job may raise: a raising job is popped and not
   * put back, since the process that ran it has ended; otherwise as `Step`.
   */
  function StepChecked<E(!new)>(q: Queue<E>, raises: Entry<E> -> bool): (r: Queue<E>)
    requires Valid(q) && |q.pending| > 0
    ensures Valid(r) && r.now == q.pending[0].time
    ensures raises(q.pending[0]) ==> r.pending == q.pending[1..] && r.nextSeq == q.nextSeq
    ensures !raises(q.pending[0]) ==> r == Step(q)
  {
    if raises(q.pending[0]) then
      HeadFirst(q);
      Queue(q.pending[0].time, q.nextSeq, q.pending[1..])
    else
      Step(q)
  }

  lemma StepCheckedWeighsLess<E(!new)>(q: Queue<E>, until: real, raises: Entry<E> -> bool)
    requires Valid(q) && |q.pending| > 0 && q.pending[0].time < until
    ensures TotalWeight(StepChecked(q, raises).pending, until) < TotalWeight(q.pending, until)
  {
    if !raises(q.pending[0]) {
      StepWeighsLess(q, until);
    }
  }

  /** The first pending entry is later than the clock, so all are. */
  lemma HeadLater<E>(q: Queue<E>)
    requires Valid(q)
    requires |q.pending| == 0 || q.pending[0].time != q.now
    ensures forall i :: 0 <= i < |q.pending| ==> q.pending[i].time > q.now
  {
    forall i | 0 < i < |q.pending| ensures q.pending[i].time > q.now {
      assert Before(q.pending[0], q.pending[i]);
    }
  }

  /**
   * The rest of the instant at which a job raised. The engine re-raises only
   * when the failed process's own event comes up, and that event is queued
   * behind every entry already pending at this time: those still fire.
   */
  function FireInstant<E(!new)>(q: Queue<E>, until: real, raises: Entry<E> -> bool): (r: (Queue<E>, seq<Entry<E>>))
    requires Valid(q) && q.now < until
    decreases TotalWeight(q.pending, until)
    ensures Valid(r.0) && r.0.now == q.now
    ensures forall i :: 0 <= i < |r.1| ==> r.1[i].time == q.now
    ensures forall i :: 0 <= i < |r.0.pending| ==> r.0.pending[i].time > q.now
  {
    if |q.pending| == 0 || q.pending[0].time != q.now then
      HeadLater(q);
      (q, [])
    else
      StepCheckedWeighsLess(q, until, raises);
      var (q2, trace) := FireInstant(StepChecked(q, raises), until, raises);
      (q2, [q.pending[0]] + trace)
  }

  /**
   * `Fire` when the jobs of the entries `raises` picks raise. Up to the first
   * raising entry the run is the same; that entry's process ends, the entries
   * already pending at its time still fire, and the run stops there with the
   * raising entry as the third component. With no raising entry the third
   * component is `None`.
   */
  function FireChecked<E(!new)>(q: Queue<E>, until: real, raises: Entry<E> -> bool): (r: (Queue<E>, seq<Entry<E>>, Option<Entry<E>>))
    requires Valid(q)
    decreases TotalWeight(q.pending, until)
    ensures Valid(r.0) && q.now <= r.0.now
    ensures r.2.None? ==> forall i :: 0 <= i < |r.0.pending| ==> r.0.pending[i].time >= until
    ensures r.2.Some? ==> raises(r.2.value) && r.2.value in r.1 && r.0.now == r.2.value.time < until
    ensures r.2.Some? ==> forall i :: 0 <= i < |r.1| ==> r.1[i].time <= r.0.now
    ensures r.2.Some? ==> forall i :: 0 <= i < |r.0.pending| ==> r.0.pending[i].time > r.0.now
  {
    if |q.pending| == 0 || q.pending[0].time >= until then
      HeadNotDue(q, until);
      (q, [], None)
    else if raises(q.pending[0]) then
      var (q2, trace) := FireInstant(StepChecked(q, raises), until, raises);
      (q2, [q.pending[0]] + trace, Some(q.pending[0]))
    else
      StepWeighsLess(q, until);
      var (q2, trace, culprit) := FireChecked(Step(q), until, raises);
      (q2, [q.pending[0]] + trace, culprit)
  }

  /** One unfolding of `FireChecked` when the head is due and does not raise. */
  lemma FireCheckedUnfold<E(!new)>(q: Queue<E>, until: real, raises: Entry<E> -> bool)
    requires Valid(q) && |q.pending| > 0 && q.pending[0].time < until && !raises(q.pending[0])
    ensures TotalWeight(Step(q).pending, until) < TotalWeight(q.pending, until)
    ensures FireChecked(q, until, raises).1 == [q.pending[0]] + FireChecked(Step(q), until, raises).1
    ensures FireChecked(q, until, raises).2 == FireChecked(Step(q), until, raises).2
  {
    StepWeighsLess(q, until);
  }

  /** No entry of `trace` raises. */
  ghost predicate NoneRaise<E>(trace: seq<Entry<E>>, raises: Entry<E> -> bool) {
    forall i :: 0 <= i < |trace| ==> !raises(trace[i])
  }

  lemma NoneRaiseCons<E>(h: Entry<E>, trace: seq<Entry<E>>, raises: Entry<E> -> bool)
    ensures NoneRaise([h] + trace, raises) <==> !raises(h) && NoneRaise(trace, raises)
  {
    var full := [h] + trace;
    assert full[0] == h;
    assert forall i :: 0 < i < |full| ==> full[i] == trace[i - 1];
    if NoneRaise(full, raises) {
      forall i | 0 <= i < |trace| ensures !raises(trace[i]) {
        assert trace[i] == full[i + 1];
      }
    }
  }

  /**
   * A run with raising jobs ends normally exactly when no entry the plain run
   * fires raises, and then it is the plain run.
   */
  lemma {:induction false} FireCheckedNoRaise<E(!new)>(q: Queue<E>, until: real, raises: Entry<E> -> bool)
    requires Valid(q)
    decreases TotalWeight(q.pending, until)
    ensures FireChecked(q, until, raises).2.None? <==> NoneRaise(Fire(q, until).1, raises)
    ensures var r := FireChecked(q, until, raises);
      r.2.None? ==> r.0 == Fire(q, until).0 && r.1 == Fire(q, until).1
  {
    if |q.pending| > 0 && q.pending[0].time < until {
      FireUnfold(q, until);
      NoneRaiseCons(q.pending[0], Fire(Step(q), until).1, raises);
      if !raises(q.pending[0]) {
        FireCheckedNoRaise(Step(q), until, raises);
      }
    }
  }

  /**
   * The run with raising jobs, `checked`, stops at entry `n` of the plain
   * run: it agrees with the plain run up to and including that entry, and
   * no entry before it raises.
   */
  ghost predicate StopsAt<E>(checked: seq<Entry<E>>, plain: seq<Entry<E>>, n: nat, raises: Entry<E> -> bool) {
    && n < |plain| && n < |checked|
    && checked[..n + 1] == plain[..n + 1]
    && NoneRaise(plain[..n], raises)
  }

  lemma StopsAtCons<E>(h: Entry<E>, checked: seq<Entry<E>>, plain: seq<Entry<E>>, n: nat, raises: Entry<E> -> bool)
    requires StopsAt(checked, plain, n, raises) && !raises(h)
    ensures StopsAt([h] + checked, [h] + plain, n + 1, raises)
    ensures ([h] + plain)[n + 1] == plain[n]
  {
    assert ([h] + checked)[..n + 2] == [h] + checked[..n + 1];
    assert ([h] + plain)[..n + 2] == [h] + plain[..n + 1];
    assert ([h] + plain)[..n + 1] == [h] + plain[..n];
    NoneRaiseCons(h, plain[..n], raises);
  }

  /**
   * The entry that stops a run is the first raising entry of the plain run,
   * and the run is the plain run up to and including it.
   */
  lemma {:induction false} FireCheckedFirstRaise<E(!new)>(q: Queue<E>, until: real, raises: Entry<E> -> bool)
    requires Valid(q)
    decreases TotalWeight(q.pending, until)
    ensures var r := FireChecked(q, until, raises);
      r.2.Some? ==> exists n: nat :: StopsAt(r.1, Fire(q, until).1, n, raises) && Fire(q, until).1[n] == r.2.value
  {
    var r := FireChecked(q, until, raises);
    var trace := Fire(q, until).1;
    if |q.pending| > 0 && q.pending[0].time < until {
      FireUnfold(q, until);
      if raises(q.pending[0]) {
        assert r.1[..1] == trace[..1];
        assert StopsAt(r.1, trace, 0, raises);
      } else {
        FireCheckedUnfold(q, until, raises);
        FireCheckedFirstRaise(Step(q), until, raises);
        var r1 := FireChecked(Step(q), until, raises);
        var rest := Fire(Step(q), until).1;
        if r1.2.Some? {
          var n: nat :| StopsAt(r1.1, rest, n, raises) && rest[n] == r1.2.value;
          StopsAtCons(q.pending[0], r1.1, rest, n, raises);
        }
      }
    }
  }

  /**
   * `run(until)`: refused with ValueError unless `until` is after the clock;
   * otherwise fire everything due and leave the clock at `until`.
   */
  function Run<E(!new)>(q: Queue<E>, until: real): (r: Result<(Queue<E>, seq<Entry<E>>)>)
    requires Valid(q)
    ensures r.Err? <==> until <= q.now
    ensures r.Err? ==> r.error == ValueError
    ensures r.Ok? ==> Valid(r.value.0) && r.value.0.now == until
    ensures r.Ok? ==> forall i :: 0 <= i < |r.value.0.pending| ==> r.value.0.pending[i].time >= until
  {
    if until <= q.now then Err(ValueError)
    else
      var (q2, trace) := Fire(q, until);
      Ok((q2.(now := until), trace))
  }

  /**
   * `run(until)` when the jobs of the entries `raises` picks raise: refused
   * with ValueError unless `until` is after the clock. A run that meets a
   * raising entry re-raises its exception, named in the third component,
   * with the clock left at that entry's time; otherwise the clock ends at
   * `until`.
   */
  function RunChecked<E(!new)>(q: Queue<E>, until: real, raises: Entry<E> -> bool): (r: Result<(Queue<E>, seq<Entry<E>>, Option<Entry<E>>)>)
    requires Valid(q)
    ensures r.Err? <==> until <= q.now
    ensures r.Err? ==> r.error == ValueError
    ensures r.Ok? ==> Valid(r.value.0)
    ensures r.Ok? && r.value.2.None? ==> r.value.0.now == until
    ensures r.Ok? && r.value.2.Some? ==>
      raises(r.value.2.value) && r.value.2.value in r.value.1 && q.now <= r.value.0.now == r.value.2.value.time < until
  {
    if until <= q.now then Err(ValueError)
    else
      var (q2, trace, culprit) := FireChecked(q, until, raises);
      if culprit.None? then Ok((q2.(now := until), trace, None))
      else Ok((q2, trace, culprit))
  }

  /** With raising jobs, `run` ends normally exactly when no entry of the plain run raises, and then is the plain run. */
  lemma RunCheckedNoRaise<E(!new)>(q: Queue<E>, until: real, raises: Entry<E> -> bool)
    requires Valid(q) && q.now < until
    ensures RunChecked(q, until, raises).value.2.None? <==> NoneRaise(Run(q, until).value.1, raises)
    ensures var r := RunChecked(q, until, raises).value;
      r.2.None? ==> r.0 == Run(q, until).value.0 && r.1 == Run(q, until).value.1
  {
    FireCheckedNoRaise(q, until, raises);
    var f := Fire(q, until);
    var c := FireChecked(q, until, raises);
    assert Run(q, until).value == (f.0.(now := until), f.1);
    if c.2.None? {
      assert RunChecked(q, until, raises).value == (c.0.(now := until), c.1, None);
    } else {
      assert RunChecked(q, until, raises).value == c;
    }
  }
}

=== FILE: f1.dfy ===
/**
 * The F1 interface between the O-CU control plane, the O-CU user plane and
 * the O-DU. It has exactly three endpoints, addressed by the names
 * `o_cu_cp`, `o_cu_up` and `o_du`, each a slot that is empty until set.
 */
module F1 {
  import opened Base
  import opened Channel

  const CuCpName: string := "o_cu_cp"
  const CuUpName: string := "o_cu_up"
  const DuName: string := "o_du"

  /** The only names `send_message` accepts, for either end. */
  predicate ValidName(n: string) {
    n == CuCpName || n == CuUpName || n == DuName
  }

  datatype Queued = Queued(message: Content, src: string, dst: string)

  datatype F1Interface<N> = F1Interface(cuUp: Option<N>, cuCp: Option<N>, du: Option<N>, queue: seq<Queued>)

  /** The callback a send schedules. */
  datatype Drain = ProcessMessageQueue

  /** A new interface: all three slots empty, nothing queued. */
  function New<N>(): (f: F1Interface<N>)
  {
    F1Interface(None, None, None, [])
  }

  /** A new interface has all three slots empty and nothing queued. */
  lemma NewIsEmpty<N>()
    ensures var f := New<N>();
      f.cuUp.None? && f.cuCp.None? && f.du.None? && f.queue == []
  {
  }

  function SetCuUp<N>(f: F1Interface<N>, n: N): (r: F1Interface<N>)
    ensures r.cuUp == Some(n)
    ensures r.cuCp == f.cuCp && r.du == f.du && r.queue == f.queue
  {
    f.(cuUp := Some(n))
  }

  function SetCuCp<N>(f: F1Interface<N>, n: N): (r: F1Interface<N>)
    ensures r.cuCp == Some(n)
    ensures r.cuUp == f.cuUp && r.du == f.du && r.queue == f.queue
  {
    f.(cuCp := Some(n))
  }

  function SetDu<N>(f: F1Interface<N>, n: N): (r: F1Interface<N>)
    ensures r.du == Some(n)
    ensures r.cuUp == f.cuUp && r.cuCp == f.cuCp && r.queue == f.queue
  {
    f.(du := Some(n))
  }

  /** The slot a destination name addresses; `None` for any other name. */
  function SlotOf<N>(f: F1Interface<N>, name: string): (s: Option<N>)
    ensures name == CuCpName ==> s == f.cuCp
    ensures name == CuUpName ==> s == f.cuUp
    ensures name == DuName ==> s == f.du
    ensures !ValidName(name) ==> s.None?
  {
    if name == CuCpName then f.cuCp
    else if name == CuUpName then f.cuUp
    else if name == DuName then f.du
    else None
  }

  /**
   * `send_message`: ValueError unless both names are F1 endpoint names;
   * otherwise enqueue and request a zero-delay drain. Whether the slots are
   * set is not checked here.
   */
  function Send<N>(f: F1Interface<N>, message: Content, src: string, dst: string): (r: Result<(F1Interface<N>, Request<Drain>)>)
    ensures r.Err? <==> !ValidName(src) || !ValidName(dst)
    ensures r.Err? ==> r.error == ValueError
    ensures r.Ok? ==> r.value.0 == f.(queue := f.queue + [Queued(message, src, dst)])
    ensures r.Ok? ==> r.value.1 == Request(0.0, ProcessMessageQueue)
  {
    if !ValidName(src) then Err(ValueError)
    else if !ValidName(dst) then Err(ValueError)
    else Ok((f.(queue := f.queue + [Queued(message, src, dst)]), Request(0.0, ProcessMessageQueue)))
  }

  /**
   * `_process_message_queue`: empty the queue in order; each message goes to
   * the node in its destination slot together with its source name, and a
   * message to an empty slot is logged and dropped.
   */
  function ProcessQueue<N>(f: F1Interface<N>, fails: (N, Queued) -> bool): (r: (F1Interface<N>, seq<Outcome<N, Queued>>))
    ensures r.0 == f.(queue := [])
    ensures |r.1| == |f.queue|
    ensures forall i :: 0 <= i < |f.queue| ==> r.1[i].payload == f.queue[i]
    ensures forall i :: 0 <= i < |f.queue| ==>
      (Called(r.1[i]) <==> SlotOf(f, f.queue[i].dst).Some?)
    ensures forall i :: 0 <= i < |f.queue| && Called(r.1[i]) ==>
      r.1[i].target == SlotOf(f, f.queue[i].dst).value && (r.1[i].Raised? <==> fails(r.1[i].target, f.queue[i]))
  {
    (f.(queue := []), Channel.Drain(f.queue, (m: Queued) => SlotOf(f, m.dst), fails))
  }

  /**
   * End to end: on an idle interface, a message to `o_du` reaches the O-DU
   * with its source name once the O-DU slot is set, and nobody while it is empty.
   */
  lemma SendToDu<N>(f: F1Interface<N>, message: Content, src: string, fails: (N, Queued) -> bool)
    requires f.queue == [] && ValidName(src)
    ensures var s := Send(f, message, src, DuName).value.0;
      Calls(ProcessQueue(s, fails).1) == if f.du.Some? then [(f.du.value, Queued(message, src, DuName))] else []
  {
    var s := Send(f, message, src, DuName).value.0;
    var os := ProcessQueue(s, fails).1;
    assert |os| == 1;
    assert os[1..] == [];
  }
}

=== FILE: fields.dfy ===
/**
 * How the pydantic models of the E2 service models read their fields: a
 * `str` field takes a string, a `float` field takes an int or a float, a
 * nested model takes a dict, and a list of models takes a list whose every
 * item validates.
 */
module Fields {
  import opened Base

  /** A `str` field. */
  function AsStr(v: Value): (r: Option<string>)
    ensures r.Some? <==> v.VStr?
    ensures r.Some? ==> v == VStr(r.value)
  {
    if v.VStr? then Some(v.s) else None
  }

  /** A `float` field: a float is kept, an int is widened. */
  function AsFloat(v: Value): (r: Option<real>)
    ensures r.Some? <==> v.VReal? || v.VInt?
    ensures v.VReal? ==> r == Some(v.r)
    ensures v.VInt? ==> r == Some(v.i as real)
  {
    match v
    case VReal(x) => Some(x)
    case VInt(i) => Some(i as real)
    case _ => None
  }

  /** A nested model field: a dict is validated by the nested model, anything else is refused. */
  function Nested<T>(v: Value, validate: Content -> Result<T>): (r: Result<T>)
    ensures v.VDict? ==> r == validate(v.entries)
    ensures !v.VDict? ==> r.Err?
  {
    if v.VDict? then validate(v.entries) else Err(ValidationError({}))
  }

  /**
   * A `List[Model]` field: every item validated in order, the list refused
   * as a whole when any item is.
   */
  function EachOk<T>(items: seq<Value>, validate: Value -> Result<T>): (r: Option<seq<T>>)
    ensures r.Some? <==> forall i :: 0 <= i < |items| ==> validate(items[i]).Ok?
    ensures r.Some? ==> |r.value| == |items|
    ensures r.Some? ==> forall i :: 0 <= i < |items| ==> validate(items[i]) == Ok(r.value[i])
    decreases |items|
  {
    if items == [] then Some([])
    else
      match (validate(items[0]), EachOk(items[1..], validate))
      case (Ok(x), Some(xs)) =>
        assert forall i :: 1 <= i < |items| ==> items[i] == items[1..][i - 1];
        Some([x] + xs)
      case (Err(_), _) => None
      case (_, None) =>
        assert forall i :: 0 <= i < |items| - 1 ==> items[1..][i] == items[i + 1];
        None
  }

  /** Items that each validate to the matching value validate, as a list, to exactly those values. */
  lemma EachOkOfDumps<T>(xs: seq<T>, items: seq<Value>, validate: Value -> Result<T>)
    requires |items| == |xs|
    requires forall i :: 0 <= i < |xs| ==> validate(items[i]) == Ok(xs[i])
    ensures EachOk(items, validate) == Some(xs)
  {
    var r := EachOk(items, validate);
    assert r.Some? && |r.value| == |xs|;
    assert forall i :: 0 <= i < |xs| ==> Ok(r.value[i]) == Ok(xs[i]);
    assert forall i :: 0 <= i < |xs| ==> r.value[i] == xs[i];
    assert r.value == xs;
  }
}

=== FILE: load_balancing.dfy ===
/**
 * The load-balancing example rApp. Every five seconds it samples the load of
 * three O-DUs, and for each O-DU whose load is strictly above the threshold
 * (0.8 by default) it creates a TYPE_2 policy for the O-DUs. The policy
 * steers traffic from that O-DU to the least-loaded O-DU, which can be the
 * overloaded one itself. The policy goes to the first managed Near-RT RIC
 * that hosts the O-DU. The three load draws are parameters. A managed RIC's
 * id and its E2 node ids are read through `idOf` and `hosts`.
 */
module LoadBalancing {
  import opened Base
  import opened Channel
  import D = PyDict
  import A1
  import A1PolicyData
  import Ric
  import RApp

  const DefaultThreshold: real := 0.8

  /** The monitor period, in seconds. */
  const MonitorPeriod: real := 5.0

  datatype LoadBalancingRApp<R> = LoadBalancingRApp(base: RApp.RApp<R>, loadThreshold: real)

  /** The callback the rApp schedules: its `monitor_o_du_load`. */
  datatype Task = MonitorLoad

  /** The policy sent to one Near-RT RIC, as the dict it received. */
  datatype Sent<R> = Sent(ric: R, policy: Content)

  function New<R>(base: RApp.RApp<R>): (lb: LoadBalancingRApp<R>)
    ensures lb.base == base && lb.loadThreshold == 0.8
  {
    LoadBalancingRApp(base, DefaultThreshold)
  }

  /** `register()`: the rApp's own registration, then the first monitor run five seconds on. */
  function Register<Rp(!new), R>(n: Ric.NonRtRic<Rp, R>, rappId: string, lb: Rp): (res: (Ric.NonRtRic<Rp, R>, Request<Task>))
    requires Ric.NonRtValid(n)
    ensures res.0 == RApp.Register(n, rappId, lb)
    ensures res.1 == Request(5.0, MonitorLoad)
  {
    (RApp.Register(n, rappId, lb), Request(MonitorPeriod, MonitorLoad))
  }

  /** The positions, in order, of the loads strictly above `threshold`. */
  function OverloadedAt(items: seq<(string, real)>, threshold: real): (ix: seq<nat>)
    ensures forall j :: 0 <= j < |ix| ==> ix[j] < |items| && items[ix[j]].1 > threshold
    ensures forall j, k :: 0 <= j < k < |ix| ==> ix[j] < ix[k]
    ensures forall i :: 0 <= i < |items| && items[i].1 > threshold ==> i in ix
  {
    if |items| == 0 then []
    else
      var last := |items| - 1;
      var rest := OverloadedAt(items[..last], threshold);
      assert forall j :: 0 <= j < |rest| ==> items[rest[j]] == items[..last][rest[j]];
      if items[last].1 > threshold then rest + [last] else rest
  }

  /** The ids whose load is strictly above `threshold`, in the loads' order. */
  function Overloaded(loads: D.Dict<string, real>, threshold: real): (ov: seq<string>)
    ensures |ov| == |OverloadedAt(loads.items, threshold)|
    ensures forall j :: 0 <= j < |ov| ==> ov[j] == loads.items[OverloadedAt(loads.items, threshold)[j]].0
  {
    var ix := OverloadedAt(loads.items, threshold);
    seq(|ix|, j requires 0 <= j < |ix| => loads.items[ix[j]].0)
  }

  /** An id is reported exactly when its load is above the threshold, and the report keeps the loads' order. */
  lemma OverloadedExactly(loads: D.Dict<string, real>, threshold: real, id: string)
    requires D.Valid(loads)
    ensures id in Overloaded(loads, threshold) <==> D.Has(loads, id) && D.Get(loads, id).value > threshold
    ensures forall j, k :: 0 <= j < k < |Overloaded(loads, threshold)| ==>
      D.IndexOf(loads.items, Overloaded(loads, threshold)[j]) < D.IndexOf(loads.items, Overloaded(loads, threshold)[k])
  {
    OverloadedIff(loads, threshold, id);
    OverloadedInOrder(loads, threshold);
  }

  lemma OverloadedIff(loads: D.Dict<string, real>, threshold: real, id: string)
    requires D.Valid(loads)
    ensures id in Overloaded(loads, threshold) <==> D.Has(loads, id) && D.Get(loads, id).value > threshold
  {
    var ix := OverloadedAt(loads.items, threshold);
    var ov := Overloaded(loads, threshold);
    if id in ov {
      var j :| 0 <= j < |ov| && ov[j] == id;
      D.GetAt(loads, ix[j]);
    }
    if D.Has(loads, id) && D.Get(loads, id).value > threshold {
      var i :| 0 <= i < |loads.items| && loads.items[i] == (id, D.Get(loads, id).value);
      var j :| 0 <= j < |ix| && ix[j] == i;
      assert ov[j] == id;
    }
  }

  lemma OverloadedInOrder(loads: D.Dict<string, real>, threshold: real)
    requires D.Valid(loads)
    ensures forall j, k :: 0 <= j < k < |Overloaded(loads, threshold)| ==>
      D.IndexOf(loads.items, Overloaded(loads, threshold)[j]) < D.IndexOf(loads.items, Overloaded(loads, threshold)[k])
  {
    var ix := OverloadedAt(loads.items, threshold);
    var ov := Overloaded(loads, threshold);
    forall j, k | 0 <= j < k < |ov| ensures D.IndexOf(loads.items, ov[j]) < D.IndexOf(loads.items, ov[k]) {
      IndexOfAt(loads, ix[j]);
      IndexOfAt(loads, ix[k]);
    }
  }

  lemma IndexOfAt<V>(d: D.Dict<string, V>, i: int)
    requires D.Valid(d) && 0 <= i < |d.items|
    ensures D.IndexOf(d.items, d.items[i].0) == i
  {
    var k := D.IndexOf(d.items, d.items[i].0);
    assert k >= 0;
    assert d.items[k].0 == d.items[i].0;
    D.GetAt(d, i);
    D.GetAt(d, k);
  }

  /** The position of the first smallest load. */
  function ArgMin(items: seq<(string, real)>): (m: nat)
    requires |items| > 0
    ensures m < |items|
    ensures forall i :: 0 <= i < |items| ==> items[m].1 <= items[i].1
    ensures forall i :: 0 <= i < m ==> items[m].1 < items[i].1
  {
    if |items| == 1 then 0
    else
      var last := |items| - 1;
      var m := ArgMin(items[..last]);
      assert items[m] == items[..last][m];
      assert forall i :: 0 <= i < last ==> items[i] == items[..last][i];
      if items[last].1 < items[m].1 then last else m
  }

  /** `min(loads, key=loads.get)`: the first id of least load; ValueError for no loads. */
  function LeastLoaded(loads: D.Dict<string, real>): (r: Result<string>)
    ensures r.Err? <==> |loads.items| == 0
    ensures r.Err? ==> r.error == ValueError
    ensures r.Ok? ==> exists m ::
      && 0 <= m < |loads.items| && loads.items[m].0 == r.value
      && (forall i :: 0 <= i < |loads.items| ==> loads.items[m].1 <= loads.items[i].1)
      && (forall i :: 0 <= i < m ==> loads.items[m].1 < loads.items[i].1)
  {
    if |loads.items| == 0 then Err(ValueError)
    else
      var m := ArgMin(loads.items);
      Ok(loads.items[m].0)
  }

  /** The policy content that steers traffic from `source` to `target`. */
  function SteerContent(source: string, target: string): (c: Content)
    ensures c.Keys == {"action", "source_du", "target_du", "ue_group", "intensity"}
    ensures c["source_du"] == VStr(source) && c["target_du"] == VStr(target)
  {
    map["action" := VStr("steer_traffic"), "source_du" := VStr(source), "target_du" := VStr(target),
        "ue_group" := VStr("high_load_ues"), "intensity" := VStr("high")]
  }

  /** The index of the first RIC hosting `du`, or -1. */
  function FirstHosting<R>(rics: seq<R>, du: string, hosts: (R, string) -> bool): (i: int)
    ensures -1 <= i < |rics|
    ensures i == -1 <==> forall j :: 0 <= j < |rics| ==> !hosts(rics[j], du)
    ensures i >= 0 ==> hosts(rics[i], du) && forall j :: 0 <= j < i ==> !hosts(rics[j], du)
  {
    if |rics| == 0 then -1
    else if hosts(rics[0], du) then 0
    else
      var i := FirstHosting(rics[1..], du, hosts);
      assert forall j :: 0 < j < |rics| ==> rics[j] == rics[1..][j - 1];
      if i == -1 then -1 else i + 1
  }

  /** What a sent policy looks like: a TYPE_2 policy for the O-DUs from one of `sources` to `target`. */
  predicate SteersTo(s: Content, sources: seq<string>, target: string) {
    && A1.FromDict(s).Ok?
    && A1.FromDict(s).value.policyType == A1PolicyData.Type2
    && A1.FromDict(s).value.target == "o_du"
    && "target_du" in A1.FromDict(s).value.policyContent
    && A1.FromDict(s).value.policyContent["target_du"] == VStr(target)
    && "source_du" in A1.FromDict(s).value.policyContent
    && A1.FromDict(s).value.policyContent["source_du"].VStr?
    && A1.FromDict(s).value.policyContent["source_du"].s in sources
  }

  /** The id `create_a1_policy` gives the next policy of `rapp`. */
  function NextPolicyId<R>(rapp: RApp.RApp<R>): string {
    A1.PolicyId(|rapp.policies.items| + 1)
  }

  /** The steering policy created under `id` for the overloaded `du`. */
  function SteerPolicy(id: string, du: string, target: string): A1.A1Policy {
    A1.A1Policy(A1PolicyData.Type2, id, SteerContent(du, target), A1PolicyData.DefaultVersion, "o_du")
  }

  /**
   * Whether the steering policy for `du` can be delivered: no managed RIC
   * hosts `du`, or the RIC found by the id of the first one that does is the
   * A1 interface's own Near-RT RIC.
   */
  predicate Reachable<Rp, R(==)>(a1: A1.A1Interface<R>, n: Ric.NonRtRic<Rp, R>, du: string, idOf: R -> string, hosts: (R, string) -> bool) {
    var h := FirstHosting(n.managed, du, hosts);
    h == -1 || a1.nearRtRic == n.managed[RApp.FindRic(n.managed, idOf(n.managed[h]), idOf)]
  }

  /** The overloaded O-DUs, in order, that some managed RIC hosts: the ones a policy is sent for. */
  function Hosted<R>(rics: seq<R>, dus: seq<string>, hosts: (R, string) -> bool): (h: seq<string>)
    ensures |h| <= |dus|
    ensures forall x :: x in h <==> x in dus && FirstHosting(rics, x, hosts) >= 0
  {
    if dus == [] then []
    else (if FirstHosting(rics, dus[0], hosts) >= 0 then [dus[0]] else []) + Hosted(rics, dus[1..], hosts)
  }

  /**
   * One turn of the balancing loop for the overloaded `du`: create the
   * steering policy towards `target` and send it, by id, to the first managed
   * RIC that hosts `du`; with no such RIC the policy is still created but
   * nothing is sent. The only error is the A1 interface refusing that RIC.
   */
  function BalanceOne<Rp, R(==)>(lb: LoadBalancingRApp<R>, n: Ric.NonRtRic<Rp, R>, du: string, target: string, idOf: R -> string, hosts: (R, string) -> bool): (r: Result<(LoadBalancingRApp<R>, seq<Sent<R>>)>)
    requires RApp.Valid(lb.base)
    ensures r.Ok? <==> Reachable(lb.base.a1, n, du, idOf, hosts)
    ensures r.Err? ==> r.error == ValueError && FirstHosting(n.managed, du, hosts) >= 0
    ensures r.Ok? ==> RApp.Valid(r.value.0.base) && r.value.0.loadThreshold == lb.loadThreshold
    ensures r.Ok? ==> r.value.0.base.a1 == lb.base.a1 && r.value.0.base.rappId == lb.base.rappId
    ensures r.Ok? ==> var id := NextPolicyId(lb.base);
      && D.Get(r.value.0.base.policies, id) == Some(SteerPolicy(id, du, target))
      && forall k :: k != id ==> D.Get(r.value.0.base.policies, k) == D.Get(lb.base.policies, k)
    ensures r.Ok? && A1.DenseIds(lb.base.policies) ==>
      A1.DenseIds(r.value.0.base.policies) && |r.value.0.base.policies.items| == |lb.base.policies.items| + 1
    ensures r.Ok? ==> (r.value.1 == [] <==> FirstHosting(n.managed, du, hosts) == -1) && |r.value.1| <= 1
    ensures r.Ok? && r.value.1 != [] ==> r.value.1[0].ric == lb.base.a1.nearRtRic
    ensures r.Ok? && r.value.1 != [] ==> A1.FromDict(r.value.1[0].policy) == Ok(SteerPolicy(NextPolicyId(lb.base), du, target))
    ensures r.Ok? && r.value.1 != [] ==> idOf(r.value.1[0].ric) == idOf(n.managed[FirstHosting(n.managed, du, hosts)])
  {
    var created := RApp.CreateA1Policy(lb.base, A1PolicyData.Type2, SteerContent(du, target), "o_du");
    var base := created.0;
    var p := created.1;
    CreateSteerDense(lb.base, du, target);
    var h := FirstHosting(n.managed, du, hosts);
    if h == -1 then Ok((lb.(base := base), []))
    else
      assert RApp.FindRic(n.managed, idOf(n.managed[h]), idOf) >= 0;
      match RApp.SendA1Policy(base, n, p.policyId, idOf(n.managed[h]), idOf)
      case Err(e) => Err(e)
      case Ok((ric, d)) => Ok((lb.(base := base), [Sent(ric, d)]))
  }

  /** Creating the steering policy in a densely numbered rApp keeps it dense and adds one policy. */
  lemma CreateSteerDense<R>(rapp: RApp.RApp<R>, du: string, target: string)
    requires RApp.Valid(rapp)
    ensures A1.DenseIds(rapp.policies) ==>
      var r := RApp.CreateA1Policy(rapp, A1PolicyData.Type2, SteerContent(du, target), "o_du").0;
      A1.DenseIds(r.policies) && |r.policies.items| == |rapp.policies.items| + 1
  {
    if A1.DenseIds(rapp.policies) {
      RApp.CreateKeepsDense(rapp, A1PolicyData.Type2, SteerContent(du, target), "o_du");
    }
  }

  /** What goes out for a steering policy created from `SteerContent(du, target)` steers from `du` to `target`. */
  lemma SentSteers(d: Content, p: A1.A1Policy, du: string, target: string)
    requires A1.FromDict(d) == Ok(p)
    requires p.policyType == A1PolicyData.Type2 && p.target == "o_du" && p.policyContent == SteerContent(du, target)
    ensures SteersTo(d, [du], target)
  {
  }

  /**
   * The sends of a balancing run towards `target`: the `j`-th send carries
   * the steering policy of the `j`-th of `dus` and went to `ric`, the first
   * managed RIC hosting that O-DU.
   */
  ghost predicate SendsFor<R>(sent: seq<Sent<R>>, dus: seq<string>, target: string, ric: R, rics: seq<R>, idOf: R -> string, hosts: (R, string) -> bool) {
    && |sent| == |dus|
    && forall j :: 0 <= j < |sent| ==> SendFor(sent[j], dus[j], target, ric, rics, idOf, hosts)
  }

  ghost predicate SendFor<R>(s: Sent<R>, du: string, target: string, ric: R, rics: seq<R>, idOf: R -> string, hosts: (R, string) -> bool) {
    && SteersTo(s.policy, [du], target)
    && s.ric == ric
    && FirstHosting(rics, du, hosts) >= 0
    && idOf(s.ric) == idOf(rics[FirstHosting(rics, du, hosts)])
  }

  /**
   * The policies of a balancing run over `dus` towards `target`, starting
   * from the densely numbered `before`: one steering policy per O-DU under the
   * next ids in order, and every policy kept before untouched.
   */
  ghost predicate CreatedFor(before: D.Dict<string, A1.A1Policy>, after: D.Dict<string, A1.A1Policy>, dus: seq<string>, target: string) {
    && A1.DenseIds(after)
    && |after.items| == |before.items| + |dus|
    && (forall k :: D.Has(before, k) ==> D.Get(after, k) == D.Get(before, k))
    && forall j :: 0 <= j < |dus| ==>
      D.Get(after, A1.PolicyId(|before.items| + j + 1)) == Some(SteerPolicy(A1.PolicyId(|before.items| + j + 1), dus[j], target))
  }

  /**
   * `initiate_load_balancing(overloaded, loads)`: for each overloaded id in
   * order, one turn of `BalanceOne` towards the least-loaded O-DU. An error
   * from `min` or from sending ends the whole run. On success one policy was
   * created per overloaded O-DU, and one was sent per hosted one.
   */
  function Initiate<Rp, R(==)>(lb: LoadBalancingRApp<R>, n: Ric.NonRtRic<Rp, R>, overloaded: seq<string>, loads: D.Dict<string, real>, idOf: R -> string, hosts: (R, string) -> bool): (r: Result<(LoadBalancingRApp<R>, seq<Sent<R>>)>)
    requires RApp.Valid(lb.base)
    decreases |overloaded|
    ensures r.Err? ==> r.error == ValueError
    ensures overloaded != [] && |loads.items| == 0 ==> r.Err?
    ensures r.Ok? ==> forall du :: du in overloaded ==> Reachable(lb.base.a1, n, du, idOf, hosts)
    ensures r.Ok? ==> RApp.Valid(r.value.0.base) && r.value.0.loadThreshold == lb.loadThreshold
    ensures r.Ok? ==> r.value.0.base.a1 == lb.base.a1 && r.value.0.base.rappId == lb.base.rappId
    ensures r.Ok? ==> |r.value.1| == |Hosted(n.managed, overloaded, hosts)|
    ensures r.Ok? && overloaded != [] ==>
      SendsFor(r.value.1, Hosted(n.managed, overloaded, hosts), LeastLoaded(loads).value, lb.base.a1.nearRtRic, n.managed, idOf, hosts)
  {
    if overloaded == [] then Ok((lb, []))
    else
      match LeastLoaded(loads)
      case Err(e) => Err(e)
      case Ok(target) =>
        match BalanceOne(lb, n, overloaded[0], target, idOf, hosts)
        case Err(e) => Err(e)
        case Ok((lb', now)) =>
          match Initiate(lb', n, overloaded[1..], loads, idOf, hosts)
          case Err(e) => Err(e)
          case Ok((lb'', later)) =>
            assert forall du :: du in overloaded ==> du == overloaded[0] || du in overloaded[1..];
            InitiateSends(lb, n, overloaded, target, now, later, idOf, hosts);
            Ok((lb'', now + later))
  }

  /** The sends of the first turn followed by those of the rest are the sends for the hosted O-DUs in order. */
  lemma InitiateSends<Rp, R>(lb: LoadBalancingRApp<R>, n: Ric.NonRtRic<Rp, R>, overloaded: seq<string>, target: string, now: seq<Sent<R>>, later: seq<Sent<R>>, idOf: R -> string, hosts: (R, string) -> bool)
    requires overloaded != []
    requires (now == [] <==> FirstHosting(n.managed, overloaded[0], hosts) == -1) && |now| <= 1
    requires now != [] ==> A1.FromDict(now[0].policy) == Ok(SteerPolicy(NextPolicyId(lb.base), overloaded[0], target))
    requires now != [] ==> now[0].ric == lb.base.a1.nearRtRic
    requires now != [] ==> idOf(now[0].ric) == idOf(n.managed[FirstHosting(n.managed, overloaded[0], hosts)])
    requires |later| == |Hosted(n.managed, overloaded[1..], hosts)|
    requires overloaded[1..] != [] ==> SendsFor(later, Hosted(n.managed, overloaded[1..], hosts), target, lb.base.a1.nearRtRic, n.managed, idOf, hosts)
    ensures SendsFor(now + later, Hosted(n.managed, overloaded, hosts), target, lb.base.a1.nearRtRic, n.managed, idOf, hosts)
  {
    var first := if now != [] then [overloaded[0]] else [];
    if now != [] {
      SentSteers(now[0].policy, SteerPolicy(NextPolicyId(lb.base), overloaded[0], target), overloaded[0], target);
    }
    var rest := Hosted(n.managed, overloaded[1..], hosts);
    assert Hosted(n.managed, overloaded, hosts) == first + rest;
    assert SendsFor(now, first, target, lb.base.a1.nearRtRic, n.managed, idOf, hosts);
    if overloaded[1..] == [] {
      assert rest == [];
    }
    SendsForAppend(now, later, first, rest, target, lb.base.a1.nearRtRic, n.managed, idOf, hosts);
  }

  /** The sends for `a` followed by the sends for `b` are the sends for `a + b`. */
  lemma SendsForAppend<R>(now: seq<Sent<R>>, later: seq<Sent<R>>, a: seq<string>, b: seq<string>, target: string, ric: R, rics: seq<R>, idOf: R -> string, hosts: (R, string) -> bool)
    requires SendsFor(now, a, target, ric, rics, idOf, hosts) && SendsFor(later, b, target, ric, rics, idOf, hosts)
    ensures SendsFor(now + later, a + b, target, ric, rics, idOf, hosts)
  {
    forall j | 0 <= j < |now + later|
      ensures SendFor((now + later)[j], (a + b)[j], target, ric, rics, idOf, hosts)
    {
      if j < |now| {
        assert SendFor(now[j], a[j], target, ric, rics, idOf, hosts);
        assert (now + later)[j] == now[j] && (a + b)[j] == a[j];
      } else {
        var i := j - |now|;
        assert SendFor(later[i], b[i], target, ric, rics, idOf, hosts);
        assert (now + later)[j] == later[i] && (a + b)[j] == b[i];
      }
    }
  }

  /** The policies after the first turn and after the rest: `CreatedFor` composes. */
  lemma InitiateCreates(before: D.Dict<string, A1.A1Policy>, mid: D.Dict<string, A1.A1Policy>, after: D.Dict<string, A1.A1Policy>, overloaded: seq<string>, target: string)
    requires overloaded != [] && A1.DenseIds(before)
    requires D.Get(mid, A1.PolicyId(|before.items| + 1)) == Some(SteerPolicy(A1.PolicyId(|before.items| + 1), overloaded[0], target))
    requires forall k :: k != A1.PolicyId(|before.items| + 1) ==> D.Get(mid, k) == D.Get(before, k)
    requires A1.DenseIds(mid) && |mid.items| == |before.items| + 1
    requires overloaded[1..] == [] ==> after == mid
    requires overloaded[1..] != [] ==> CreatedFor(mid, after, overloaded[1..], target)
    ensures CreatedFor(before, after, overloaded, target)
  {
    A1.DenseNextIsFresh(before);
    CreatesKeepOld(before, mid, after, overloaded[1..]);
    if overloaded[1..] == [] {
      CreatedNew(before, mid, after, overloaded, target);
    } else {
      CreatedNew(before, mid, after, overloaded, target);
    }
  }

  /** The first turn's policy under the next id, and the rest's under the ids after it. */
  lemma CreatedNew(before: D.Dict<string, A1.A1Policy>, mid: D.Dict<string, A1.A1Policy>, after: D.Dict<string, A1.A1Policy>, overloaded: seq<string>, target: string)
    requires overloaded != [] && |mid.items| == |before.items| + 1
    requires D.Get(mid, A1.PolicyId(|before.items| + 1)) == Some(SteerPolicy(A1.PolicyId(|before.items| + 1), overloaded[0], target))
    requires overloaded[1..] == [] ==> after == mid
    requires overloaded[1..] != [] ==> forall k :: D.Has(mid, k) ==> D.Get(after, k) == D.Get(mid, k)
    requires forall i :: 0 <= i < |overloaded[1..]| ==>
      D.Get(after, A1.PolicyId(|mid.items| + i + 1)) == Some(SteerPolicy(A1.PolicyId(|mid.items| + i + 1), overloaded[1..][i], target))
    ensures forall j :: 0 <= j < |overloaded| ==>
      D.Get(after, A1.PolicyId(|before.items| + j + 1)) == Some(SteerPolicy(A1.PolicyId(|before.items| + j + 1), overloaded[j], target))
  {
    forall j | 0 <= j < |overloaded|
      ensures D.Get(after, A1.PolicyId(|before.items| + j + 1)) == Some(SteerPolicy(A1.PolicyId(|before.items| + j + 1), overloaded[j], target))
    {
      if j == 0 {
        CreatedFirst(before, mid, after, overloaded, target);
      } else {
        CreatedShift(before, mid, after, overloaded, target, j);
      }
    }
  }

  /** The first turn's policy survives the rest. */
  lemma CreatedFirst(before: D.Dict<string, A1.A1Policy>, mid: D.Dict<string, A1.A1Policy>, after: D.Dict<string, A1.A1Policy>, overloaded: seq<string>, target: string)
    requires overloaded != []
    requires D.Get(mid, A1.PolicyId(|before.items| + 1)) == Some(SteerPolicy(A1.PolicyId(|before.items| + 1), overloaded[0], target))
    requires overloaded[1..] == [] ==> after == mid
    requires overloaded[1..] != [] ==> forall k :: D.Has(mid, k) ==> D.Get(after, k) == D.Get(mid, k)
    ensures D.Get(after, A1.PolicyId(|before.items| + 1)) == Some(SteerPolicy(A1.PolicyId(|before.items| + 1), overloaded[0], target))
  {
    assert D.Has(mid, A1.PolicyId(|before.items| + 1));
  }

  /** The rest's `j - 1`-th policy is the run's `j`-th. */
  lemma CreatedShift(before: D.Dict<string, A1.A1Policy>, mid: D.Dict<string, A1.A1Policy>, after: D.Dict<string, A1.A1Policy>, overloaded: seq<string>, target: string, j: int)
    requires 0 < j < |overloaded| && |mid.items| == |before.items| + 1
    requires forall i :: 0 <= i < |overloaded[1..]| ==>
      D.Get(after, A1.PolicyId(|mid.items| + i + 1)) == Some(SteerPolicy(A1.PolicyId(|mid.items| + i + 1), overloaded[1..][i], target))
    ensures D.Get(after, A1.PolicyId(|before.items| + j + 1)) == Some(SteerPolicy(A1.PolicyId(|before.items| + j + 1), overloaded[j], target))
  {
    assert overloaded[1..][j - 1] == overloaded[j];
    var k: nat := |mid.items| + (j - 1) + 1;
    assert k == |before.items| + j + 1;
  }

  /** A key kept before the first turn, which is not the fresh id that turn takes, survives both. */
  lemma CreatesKeepOld(before: D.Dict<string, A1.A1Policy>, mid: D.Dict<string, A1.A1Policy>, after: D.Dict<string, A1.A1Policy>, rest: seq<string>)
    requires !D.Has(before, A1.PolicyId(|before.items| + 1))
    requires forall k :: k != A1.PolicyId(|before.items| + 1) ==> D.Get(mid, k) == D.Get(before, k)
    requires forall k :: D.Has(mid, k) ==> D.Get(after, k) == D.Get(mid, k)
    ensures forall k :: D.Has(before, k) ==> D.Get(after, k) == D.Get(before, k)
  {
    forall k | D.Has(before, k)
      ensures D.Get(after, k) == D.Get(before, k)
    {
      assert D.Get(before, k).Some?;
      assert D.Get(mid, k).Some?;
    }
  }

  /** A policy steering from some source in `a` steers from a source in any `b` that contains `a`. */
  lemma SteersToWiden(s: Content, a: seq<string>, b: seq<string>, target: string)
    requires SteersTo(s, a, target) && forall x :: x in a ==> x in b
    ensures SteersTo(s, b, target)
  {
  }

  /** When no managed RIC hosts any overloaded O-DU, balancing succeeds and sends nothing. */
  lemma InitiateSendsNothing<Rp, R>(lb: LoadBalancingRApp<R>, n: Ric.NonRtRic<Rp, R>, overloaded: seq<string>, loads: D.Dict<string, real>, idOf: R -> string, hosts: (R, string) -> bool)
    requires RApp.Valid(lb.base) && overloaded != [] && |loads.items| > 0
    requires forall du :: du in overloaded ==> FirstHosting(n.managed, du, hosts) == -1
    ensures var r := Initiate(lb, n, overloaded, loads, idOf, hosts);
      r.Ok? && r.value.1 == []
    decreases |overloaded|
  {
    if |overloaded| > 1 {
      var lb' := BalanceOne(lb, n, overloaded[0], LeastLoaded(loads).value, idOf, hosts).value.0;
      InitiateSendsNothing(lb', n, overloaded[1..], loads, idOf, hosts);
    }
  }

  /**
   * With some load to compare, balancing succeeds exactly when every
   * overloaded O-DU is reachable, and then it sends exactly one policy per
   * hosted O-DU.
   */
  lemma {:induction false} InitiateSendsOnePerHosted<Rp, R>(lb: LoadBalancingRApp<R>, n: Ric.NonRtRic<Rp, R>, overloaded: seq<string>, loads: D.Dict<string, real>, idOf: R -> string, hosts: (R, string) -> bool)
    requires RApp.Valid(lb.base) && |loads.items| > 0
    ensures var r := Initiate(lb, n, overloaded, loads, idOf, hosts);
      r.Ok? <==> forall du :: du in overloaded ==> Reachable(lb.base.a1, n, du, idOf, hosts)
    ensures var r := Initiate(lb, n, overloaded, loads, idOf, hosts);
      r.Ok? ==> |r.value.1| == |Hosted(n.managed, overloaded, hosts)|
    decreases |overloaded|
  {
    if overloaded != [] && forall du :: du in overloaded ==> Reachable(lb.base.a1, n, du, idOf, hosts) {
      var lb' := BalanceOne(lb, n, overloaded[0], LeastLoaded(loads).value, idOf, hosts).value.0;
      assert forall du :: du in overloaded[1..] ==> du in overloaded;
      InitiateSendsOnePerHosted(lb', n, overloaded[1..], loads, idOf, hosts);
    }
  }

  /**
   * A successful run starting from densely numbered policies created one
   * steering policy per overloaded O-DU, hosted or not, under the next ids
   * in order, and left every earlier policy untouched.
   */
  lemma {:induction false} InitiateCreatesOnePerOverloaded<Rp, R>(lb: LoadBalancingRApp<R>, n: Ric.NonRtRic<Rp, R>, overloaded: seq<string>, loads: D.Dict<string, real>, idOf: R -> string, hosts: (R, string) -> bool)
    requires RApp.Valid(lb.base)
    ensures var r := Initiate(lb, n, overloaded, loads, idOf, hosts);
      r.Ok? && overloaded != [] && A1.DenseIds(lb.base.policies) ==>
        CreatedFor(lb.base.policies, r.value.0.base.policies, overloaded, LeastLoaded(loads).value)
    decreases |overloaded|
  {
    var r := Initiate(lb, n, overloaded, loads, idOf, hosts);
    if r.Ok? && overloaded != [] && A1.DenseIds(lb.base.policies) {
      var target := LeastLoaded(loads).value;
      var lb' := BalanceOne(lb, n, overloaded[0], target, idOf, hosts).value.0;
      var lb'' := Initiate(lb', n, overloaded[1..], loads, idOf, hosts).value.0;
      assert r.value.0 == lb'';
      InitiateCreatesOnePerOverloaded(lb', n, overloaded[1..], loads, idOf, hosts);
      InitiateCreates(lb.base.policies, lb'.base.policies, lb''.base.policies, overloaded, target);
    }
  }

  /** The loads the monitor samples for `o_du_1`, `o_du_2` and `o_du_3`. */
  function SampleLoads(d1: real, d2: real, d3: real): (loads: D.Dict<string, real>)
    ensures D.Valid(loads) && D.Keys(loads) == ["o_du_1", "o_du_2", "o_du_3"]
    ensures D.Values(loads) == [d1, d2, d3]
  {
    D.Dict([("o_du_1", d1), ("o_du_2", d2), ("o_du_3", d3)])
  }

  /**
   * `monitor_o_du_load()`: sample the loads, balance when something is
   * overloaded, and schedule the next run five seconds on. An error while
   * balancing escapes before the next run is scheduled.
   */
  function Monitor<Rp, R(==)>(lb: LoadBalancingRApp<R>, n: Ric.NonRtRic<Rp, R>, d1: real, d2: real, d3: real, idOf: R -> string, hosts: (R, string) -> bool): (r: Result<(LoadBalancingRApp<R>, seq<Sent<R>>, Request<Task>)>)
    requires RApp.Valid(lb.base)
    ensures r.Err? ==> r.error == ValueError
    ensures r.Ok? <==> forall du :: du in Overloaded(SampleLoads(d1, d2, d3), lb.loadThreshold) ==> Reachable(lb.base.a1, n, du, idOf, hosts)
    ensures r.Ok? ==> r.value.2 == Request(5.0, MonitorLoad)
    ensures Overloaded(SampleLoads(d1, d2, d3), lb.loadThreshold) == [] ==> r == Ok((lb, [], Request(5.0, MonitorLoad)))
    ensures r.Ok? ==> |r.value.1| == |Hosted(n.managed, Overloaded(SampleLoads(d1, d2, d3), lb.loadThreshold), hosts)|
    ensures r.Ok? ==> SendsFor(r.value.1, Hosted(n.managed, Overloaded(SampleLoads(d1, d2, d3), lb.loadThreshold), hosts),
      LeastLoaded(SampleLoads(d1, d2, d3)).value, lb.base.a1.nearRtRic, n.managed, idOf, hosts)
    ensures r.Ok? && A1.DenseIds(lb.base.policies) ==>
      CreatedFor(lb.base.policies, r.value.0.base.policies, Overloaded(SampleLoads(d1, d2, d3), lb.loadThreshold), LeastLoaded(SampleLoads(d1, d2, d3)).value)
  {
    var loads := SampleLoads(d1, d2, d3);
    var ov := Overloaded(loads, lb.loadThreshold);
    if ov == [] then Ok((lb, [], Request(MonitorPeriod, MonitorLoad)))
    else
      match Initiate(lb, n, ov, loads, idOf, hosts)
      case Err(e) =>
        InitiateSendsOnePerHosted(lb, n, ov, loads, idOf, hosts);
        Err(e)
      case Ok((lb', sent)) =>
        InitiateCreatesOnePerOverloaded(lb, n, ov, loads, idOf, hosts);
        Ok((lb', sent, Request(MonitorPeriod, MonitorLoad)))
  }

  /**
   * With the sampled ranges (0.6-0.9, 0.3-0.7, 0.7-0.95) and the default
   * threshold, `o_du_2` is never overloaded and `o_du_3` is never the
   * least-loaded target.
   */
  lemma SecondDuNeverOverloaded(d1: real, d2: real, d3: real)
    requires 0.6 <= d1 <= 0.9 && 0.3 <= d2 <= 0.7 && 0.7 <= d3 <= 0.95
    ensures "o_du_2" !in Overloaded(SampleLoads(d1, d2, d3), DefaultThreshold)
    ensures LeastLoaded(SampleLoads(d1, d2, d3)) != Ok("o_du_3")
  {
    var loads := SampleLoads(d1, d2, d3);
    OverloadedExactly(loads, DefaultThreshold, "o_du_2");
    D.GetAt(loads, 1);
  }

  /** The least-loaded O-DU can be the overloaded O-DU itself: then the policy steers it to itself. */
  lemma TargetCanBeSource()
    ensures var loads := D.Dict([("o_du_1", 0.9)]);
      Overloaded(loads, DefaultThreshold) == ["o_du_1"] && LeastLoaded(loads) == Ok("o_du_1")
  {
    SingleOverloaded();
    SingleLeastLoaded();
  }

  lemma SingleOverloaded()
    ensures OverloadedAt([("o_du_1", 0.9)], DefaultThreshold) == [0]
  {
    var items := [("o_du_1", 0.9)];
    assert items[..0] == [];
  }

  lemma SingleLeastLoaded()
    ensures ArgMin([("o_du_1", 0.9)]) == 0
  {
  }
}

=== FILE: mobility.dfy ===
/**
 * UE mobility. A UE's position is replaced by what its mobility model
 * returns. The random-waypoint model alternates between pausing, picking a
 * new waypoint, and walking towards it. The Manhattan model picks a
 * neighbouring grid cell and walks towards its corner. Random draws are
 * parameters. The Euclidean distance to the target is a parameter too,
 * pinned down by its defining equation rather than computed.
 */
module Mobility {
  import opened Base

  datatype Pos = Pos(x: real, y: real)

  function Sub(a: Pos, b: Pos): Pos {
    Pos(a.x - b.x, a.y - b.y)
  }

  function Add(a: Pos, b: Pos): Pos {
    Pos(a.x + b.x, a.y + b.y)
  }

  function Scale(v: Pos, c: real): Pos {
    Pos(v.x * c, v.y * c)
  }

  /** `d` is the Euclidean length of `v`, `np.linalg.norm(v)`. */
  predicate IsNorm(d: real, v: Pos) {
    d >= 0.0 && d * d == v.x * v.x + v.y * v.y
  }

  lemma ScaleNorm(d: real, v: Pos, c: real)
    requires IsNorm(d, v) && c >= 0.0
    ensures IsNorm(c * d, Scale(v, c))
  {
    assert c * d >= 0.0;
    calc {
      (c * d) * (c * d);
      (c * c) * (d * d);
      (c * c) * (v.x * v.x + v.y * v.y);
      (v.x * c) * (v.x * c) + (v.y * c) * (v.y * c);
    }
  }

  /**
   * One walking step of length `step` (speed times elapsed time) towards
   * `target`, `dist` away: the target itself when it is closer than `step`,
   * otherwise `step` further along the straight line to it.
   */
  function Move(pos: Pos, target: Pos, step: real, dist: real): (r: Pos)
    requires IsNorm(dist, Sub(target, pos))
    ensures dist < step ==> r == target
  {
    if dist < step then target
    else if dist == 0.0 then pos
    else Add(pos, Scale(Sub(target, pos), step / dist))
  }

  /** A UE already on its target stays there. */
  lemma MoveOnTarget(pos: Pos, step: real)
    ensures Move(pos, pos, step, 0.0) == pos
  {
  }

  /**
   * A step never overshoots: it either lands on the target or leaves the UE
   * exactly `step` closer to it, having moved exactly that far.
   */
  lemma MoveApproaches(pos: Pos, target: Pos, step: real, dist: real)
    requires IsNorm(dist, Sub(target, pos)) && step >= 0.0
    ensures var r := Move(pos, target, step, dist);
      r == target || (IsNorm(dist - step, Sub(target, r)) && IsNorm(step, Sub(r, pos)))
  {
    var r := Move(pos, target, step, dist);
    if step <= dist && dist != 0.0 {
      var v := Sub(target, pos);
      var k := step / dist;
      assert k * dist == step;
      assert k >= 0.0;
      assert r == Add(pos, Scale(v, k));
      assert Sub(r, pos) == Scale(v, k);
      ScaleNorm(dist, v, k);
      assert Sub(target, r) == Scale(v, 1.0 - k);
      QuotientAtMostOne(step, dist);
      ScaleNorm(dist, v, 1.0 - k);
      assert (1.0 - k) * dist == dist - step;
    }
  }

  datatype Waypoint = Waypoint(
    speed: real, width: real, height: real, pauseMean: real, pauseStd: real,
    target: Option<Pos>, pauseTimer: real, isPaused: bool, tolerance: real)

  /** A waypoint model with no target yet, not paused: speed 1, a 100 x 100 area, pauses of 5 +- 2, tolerance 1e-6 by default. */
  function NewWaypoint(speed: real, width: real, height: real, pauseMean: real, pauseStd: real, tolerance: real): (m: Waypoint)
    ensures m.target.None? && !m.isPaused && m.pauseTimer == 0.0
    ensures m.speed == speed && m.width == width && m.height == height && m.tolerance == tolerance
  {
    Waypoint(speed, width, height, pauseMean, pauseStd, None, 0.0, false, tolerance)
  }

  function Abs(a: real): real {
    if a < 0.0 then -a else a
  }

  /** Within `tol` of the target in both coordinates. */
  predicate Near(pos: Pos, target: Pos, tol: real) {
    Abs(pos.x - target.x) < tol && Abs(pos.y - target.y) < tol
  }

  /**
   * `RandomWaypointModel.update_position(pos, elapsed)`. `pauseDraw` is the
   * normal pause-length draw (made only while paused), `fx` and `fy` the
   * uniform fractions that place a new waypoint, and `dist` the distance to
   * the current target.
   */
  function WaypointUpdate(m: Waypoint, pos: Pos, elapsed: real, pauseDraw: real, fx: real, fy: real, dist: real): (r: (Waypoint, Pos))
    requires 0.0 <= fx <= 1.0 && 0.0 <= fy <= 1.0
    requires m.target.Some? ==> IsNorm(dist, Sub(m.target.value, pos))
    ensures m.isPaused ==> r.1 == pos && r.0.target == m.target
    ensures m.isPaused && m.pauseTimer + elapsed < Max0(pauseDraw) ==> r.0 == m.(pauseTimer := m.pauseTimer + elapsed)
    ensures m.isPaused && m.pauseTimer + elapsed >= Max0(pauseDraw) ==> r.0 == m.(pauseTimer := 0.0, isPaused := false)
    ensures !m.isPaused && (m.target.None? || Near(pos, m.target.value, m.tolerance)) ==>
      && r.1 == pos && r.0.isPaused && r.0.pauseTimer == m.pauseTimer
      && r.0.target.Some? && InArea(r.0.target.value, m.width, m.height)
    ensures !m.isPaused && m.target.Some? && !Near(pos, m.target.value, m.tolerance) ==>
      r.0 == m && r.1 == Move(pos, m.target.value, m.speed * elapsed, dist)
  {
    if m.isPaused then
      var t := m.pauseTimer + elapsed;
      if t >= Max0(pauseDraw) then (m.(pauseTimer := 0.0, isPaused := false), pos)
      else (m.(pauseTimer := t), pos)
    else if m.target.None? || Near(pos, m.target.value, m.tolerance) then
      UniformInRange(m.width, fx);
      UniformInRange(m.height, fy);
      (m.(target := Some(Pos(m.width * fx, m.height * fy)), isPaused := true), pos)
    else (m, Move(pos, m.target.value, m.speed * elapsed, dist))
  }

  /** `max(0.0, draw)`: a pause is never negative. */
  function Max0(draw: real): (p: real)
    ensures p >= 0.0 && p >= draw && (p == draw || p == 0.0)
  {
    if draw > 0.0 then draw else 0.0
  }

  /** Inside the area spanned by 0 and each side (`random.uniform(0, side)` allows a negative side). */
  predicate InArea(p: Pos, width: real, height: real) {
    Between(p.x, width) && Between(p.y, height)
  }

  predicate Between(a: real, side: real) {
    (0.0 <= a <= side) || (side <= a <= 0.0)
  }

  lemma UniformInRange(side: real, f: real)
    requires 0.0 <= f <= 1.0
    ensures Between(side * f, side)
  {
    if side >= 0.0 {
      assert side * f <= side * 1.0;
    } else {
      assert side * f >= side * 1.0;
    }
  }

  /** The very first update picks a waypoint and pauses; the UE does not move. */
  lemma FirstUpdateStays(speed: real, width: real, height: real, pm: real, ps: real, tol: real, pos: Pos, elapsed: real, pauseDraw: real, fx: real, fy: real, dist: real)
    requires 0.0 <= fx <= 1.0 && 0.0 <= fy <= 1.0
    ensures var r := WaypointUpdate(NewWaypoint(speed, width, height, pm, ps, tol), pos, elapsed, pauseDraw, fx, fy, dist);
      r.1 == pos && r.0.isPaused && r.0.target.Some?
  {
  }

  /** Once paused, a UE stays put until the pause ends, and the tick that ends it does not move it either. */
  lemma PausedNeverMoves(m: Waypoint, pos: Pos, elapsed: real, pauseDraw: real, fx: real, fy: real, dist: real)
    requires 0.0 <= fx <= 1.0 && 0.0 <= fy <= 1.0 && m.isPaused
    requires m.target.Some? ==> IsNorm(dist, Sub(m.target.value, pos))
    ensures WaypointUpdate(m, pos, elapsed, pauseDraw, fx, fy, dist).1 == pos
  {
  }

  datatype Manhattan = Manhattan(speed: real, rows: int, cols: int, blockSize: real, target: Option<Pos>)

  /** A Manhattan model with no target yet: speed 1, a 10 x 10 grid and blocks of 10 by default. */
  function NewManhattan(speed: real, rows: int, cols: int, blockSize: real): (m: Manhattan)
    ensures m.target.None? && m.speed == speed && m.rows == rows && m.cols == cols && m.blockSize == blockSize
  {
    Manhattan(speed, rows, cols, blockSize, None)
  }

  /** A grid cell, as (column, row). */
  datatype Cell = Cell(col: int, row: int)

  /**
   * The cells one step from (col, row): up, down, left, right, each only
   * when the bound on that side allows it. Rows are bounded by the first
   * grid size, columns by the second.
   */
  function Candidates(col: int, row: int, rows: int, cols: int): (cs: seq<Cell>)
    ensures |cs| <= 4
    ensures forall c :: c in cs <==>
      || (c == Cell(col, row - 1) && row > 0)
      || (c == Cell(col, row + 1) && row < rows - 1)
      || (c == Cell(col - 1, row) && col > 0)
      || (c == Cell(col + 1, row) && col < cols - 1)
  {
    (if row > 0 then [Cell(col, row - 1)] else [])
    + (if row < rows - 1 then [Cell(col, row + 1)] else [])
    + (if col > 0 then [Cell(col - 1, row)] else [])
    + (if col < cols - 1 then [Cell(col + 1, row)] else [])
  }

  /** Every candidate is a neighbour: one coordinate changes by exactly one. */
  lemma CandidatesAreNeighbours(col: int, row: int, rows: int, cols: int, c: Cell)
    requires c in Candidates(col, row, rows, cols)
    ensures (c.col == col && (c.row == row + 1 || c.row == row - 1)) || (c.row == row && (c.col == col + 1 || c.col == col - 1))
  {
  }

  /** From a cell inside the grid every candidate is inside the grid. */
  lemma CandidatesInBounds(col: int, row: int, rows: int, cols: int, c: Cell)
    requires 0 <= row < rows && 0 <= col < cols
    requires c in Candidates(col, row, rows, cols)
    ensures 0 <= c.row < rows && 0 <= c.col < cols
  {
  }

  /** The corner of a cell: its column and row scaled by the block size. */
  function Corner(c: Cell, blockSize: real): Pos {
    Pos(c.col as real * blockSize, c.row as real * blockSize)
  }

  /**
   * `int(a // block)` where `a` is a component of a numpy position. numpy's
   * floor division by a zero block gives an infinity, which `int` refuses
   * with OverflowError, or NaN when `a` is zero too, refused with ValueError.
   */
  function FloorDiv(a: real, block: real): (r: Result<int>)
    ensures r.Ok? <==> block != 0.0
    ensures r.Err? ==> (r.error == ValueError <==> a == 0.0)
    ensures r.Err? ==> (r.error == OverflowError <==> a != 0.0)
    ensures r.Ok? ==> r.value as real <= a / block < r.value as real + 1.0
  {
    if block != 0.0 then Ok((a / block).Floor)
    else if a == 0.0 then Err(ValueError)
    else Err(OverflowError)
  }

  /**
   * `ManhattanModel.update_position(pos, elapsed)`. With no target, or on
   * it, pick one of the neighbouring cells (the `pick`-th modulo their
   * number, as `random.choice` does), aim at its corner and stay. Otherwise
   * walk. A zero block size fails on the row, the first quotient taken, and
   * a cell with no neighbour raises IndexError.
   */
  function ManhattanUpdate(m: Manhattan, pos: Pos, elapsed: real, pick: nat, dist: real): (r: Result<(Manhattan, Pos)>)
    requires m.target.Some? ==> IsNorm(dist, Sub(m.target.value, pos))
    ensures (m.target.None? || pos == m.target.value) && m.blockSize == 0.0 ==>
      r == Err(if pos.y == 0.0 then ValueError else OverflowError)
    ensures r.Err? ==> r.error == ValueError || r.error == OverflowError || r.error == IndexError
    ensures m.target.Some? && pos != m.target.value ==> r == Ok((m, Move(pos, m.target.value, m.speed * elapsed, dist)))
    ensures (m.target.None? || pos == m.target.value) && r.Ok? ==> r.value.1 == pos
    ensures (m.target.None? || pos == m.target.value) && r.Ok? ==> exists c ::
      && c in Candidates((pos.x / m.blockSize).Floor, (pos.y / m.blockSize).Floor, m.rows, m.cols)
      && r.value.0 == m.(target := Some(Corner(c, m.blockSize)))
    ensures (m.target.None? || pos == m.target.value) && m.blockSize != 0.0 ==>
      var cs := Candidates((pos.x / m.blockSize).Floor, (pos.y / m.blockSize).Floor, m.rows, m.cols);
      && (r.Err? <==> cs == [])
      && (r.Err? ==> r.error == IndexError)
      && (cs != [] ==> r == Ok((m.(target := Some(Corner(cs[pick % |cs|], m.blockSize))), pos)))
  {
    if m.target.None? || pos == m.target.value then
      match FloorDiv(pos.y, m.blockSize)
      case Err(e) => Err(e)
      case Ok(row) =>
        var col := (pos.x / m.blockSize).Floor;
        assert row == (pos.y / m.blockSize).Floor;
        var cs := Candidates(col, row, m.rows, m.cols);
        if |cs| == 0 then Err(IndexError)
        else
          var c := cs[pick % |cs|];
          Ok((m.(target := Some(Corner(c, m.blockSize))), pos))
    else Ok((m, Move(pos, m.target.value, m.speed * elapsed, dist)))
  }

  /** A 1 x 1 grid offers no move, so the first update raises. */
  lemma SingleCellHasNoMove(pos: Pos, elapsed: real, pick: nat, dist: real)
    requires 0.0 <= pos.x < 10.0 && 0.0 <= pos.y < 10.0
    ensures ManhattanUpdate(NewManhattan(1.0, 1, 1, 10.0), pos, elapsed, pick, dist) == Err(IndexError)
  {
    assert (pos.y / 10.0).Floor == 0;
    assert (pos.x / 10.0).Floor == 0;
  }

  /**
   * From a cell inside the grid, with a nonzero block size, picking a new
   * target succeeds exactly when the grid has more than one cell, and the new
   * target is then the corner of a cell inside the grid one step away.
   */
  lemma ManhattanPicksWhenNeighbours(m: Manhattan, pos: Pos, elapsed: real, pick: nat, dist: real)
    requires m.target.Some? ==> IsNorm(dist, Sub(m.target.value, pos))
    requires m.target.None? || pos == m.target.value
    requires m.blockSize != 0.0
    requires 0 <= (pos.y / m.blockSize).Floor < m.rows && 0 <= (pos.x / m.blockSize).Floor < m.cols
    ensures ManhattanUpdate(m, pos, elapsed, pick, dist).Ok? <==> m.rows > 1 || m.cols > 1
    ensures var r := ManhattanUpdate(m, pos, elapsed, pick, dist);
      r.Ok? ==> r.value.1 == pos && exists c: Cell ::
        && r.value.0 == m.(target := Some(Corner(c, m.blockSize)))
        && 0 <= c.row < m.rows && 0 <= c.col < m.cols
        && Distance1(c, Cell((pos.x / m.blockSize).Floor, (pos.y / m.blockSize).Floor)) == 1
  {
    var row := (pos.y / m.blockSize).Floor;
    var col := (pos.x / m.blockSize).Floor;
    var cs := Candidates(col, row, m.rows, m.cols);
    if m.rows > 1 {
      assert Cell(col, if row > 0 then row - 1 else row + 1) in cs;
    } else if m.cols > 1 {
      assert Cell(if col > 0 then col - 1 else col + 1, row) in cs;
    }
    var r := ManhattanUpdate(m, pos, elapsed, pick, dist);
    if r.Ok? {
      var c := cs[pick % |cs|];
      CandidatesInBounds(col, row, m.rows, m.cols, c);
      CandidatesAreNeighbours(col, row, m.rows, m.cols, c);
      assert r.value.0 == m.(target := Some(Corner(c, m.blockSize)));
    }
  }

  /** The number of unit steps, along the grid, between two cells. */
  function Distance1(a: Cell, b: Cell): nat {
    (if a.col >= b.col then a.col - b.col else b.col - a.col) + (if a.row >= b.row then a.row - b.row else b.row - a.row)
  }

  /** A Manhattan model on a 5 x 5 grid of 10-metre blocks, at speed 5, heading for the corner (15, 5). */
  function Heading(): (m: Manhattan)
    ensures m.target == Some(Pos(15.0, 5.0)) && m.speed == 5.0
  {
    NewManhattan(5.0, 5, 5, 10.0).(target := Some(Pos(15.0, 5.0)))
  }

  /** From (5, 5) towards (15, 5) at speed 5, one second takes the UE halfway, to (10, 5). */
  lemma ManhattanWalksHalfway()
    ensures ManhattanUpdate(Heading(), Pos(5.0, 5.0), 1.0, 0, 10.0) == Ok((Heading(), Pos(10.0, 5.0)))
  {
    var m, pos, target := Heading(), Pos(5.0, 5.0), Pos(15.0, 5.0);
    assert Sub(target, pos) == Pos(10.0, 0.0);
    assert IsNorm(10.0, Sub(target, pos));
    assert pos != target;
    WalkHalfway();
  }

  /** The next second it arrives on (15, 5), without overshooting. */
  lemma ManhattanArrives()
    ensures ManhattanUpdate(Heading(), Pos(10.0, 5.0), 1.0, 0, 5.0) == Ok((Heading(), Pos(15.0, 5.0)))
  {
    var m, pos, target := Heading(), Pos(10.0, 5.0), Pos(15.0, 5.0);
    assert Sub(target, pos) == Pos(5.0, 0.0);
    assert IsNorm(5.0, Sub(target, pos));
    assert pos != target;
    WalkArrives();
  }

  lemma WalkHalfway()
    ensures Move(Pos(5.0, 5.0), Pos(15.0, 5.0), 5.0, 10.0) == Pos(10.0, 5.0)
  {
    assert IsNorm(10.0, Pos(10.0, 0.0));
    assert Sub(Pos(15.0, 5.0), Pos(5.0, 5.0)) == Pos(10.0, 0.0);
  }

  lemma WalkArrives()
    ensures Move(Pos(10.0, 5.0), Pos(15.0, 5.0), 5.0, 5.0) == Pos(15.0, 5.0)
  {
    assert IsNorm(5.0, Pos(5.0, 0.0));
  }

  /** A UE's mobility model. */
  datatype Model = WaypointModel(w: Waypoint) | ManhattanModel(g: Manhattan)

  datatype UE = UE(position: Pos, model: Model)

  /** The draws one update may consume, and the distance to the current target. */
  datatype Draws = Draws(pauseDraw: real, fx: real, fy: real, pick: nat, dist: real)

  /** The draws are in range and `dist` is the distance from `pos` to the model's target. */
  predicate DrawsFit(m: Model, pos: Pos, d: Draws) {
    && 0.0 <= d.fx <= 1.0 && 0.0 <= d.fy <= 1.0
    && match m
       case WaypointModel(w) => w.target.Some? ==> IsNorm(d.dist, Sub(w.target.value, pos))
       case ManhattanModel(g) => g.target.Some? ==> IsNorm(d.dist, Sub(g.target.value, pos))
  }

  /** `UE.update_position(elapsed)`: the position becomes the model's output and the model keeps its new state. */
  function UpdateUe(ue: UE, elapsed: real, d: Draws): (r: Result<UE>)
    requires DrawsFit(ue.model, ue.position, d)
    ensures ue.model.WaypointModel? ==>
      (r.Ok? && r.value.model.WaypointModel?
       && (r.value.model.w, r.value.position) == WaypointUpdate(ue.model.w, ue.position, elapsed, d.pauseDraw, d.fx, d.fy, d.dist))
    ensures ue.model.ManhattanModel? ==>
      (r.Err? <==> ManhattanUpdate(ue.model.g, ue.position, elapsed, d.pick, d.dist).Err?)
    ensures ue.model.ManhattanModel? && r.Ok? ==>
      (r.value.model.ManhattanModel?
       && Ok((r.value.model.g, r.value.position)) == ManhattanUpdate(ue.model.g, ue.position, elapsed, d.pick, d.dist))
  {
    match ue.model
    case WaypointModel(w) =>
      var (w', p) := WaypointUpdate(w, ue.position, elapsed, d.pauseDraw, d.fx, d.fy, d.dist);
      Ok(UE(p, WaypointModel(w')))
    case ManhattanModel(g) =>
      match ManhattanUpdate(g, ue.position, elapsed, d.pick, d.dist)
      case Err(e) => Err(e)
      case Ok((g', p)) => Ok(UE(p, ManhattanModel(g')))
  }
}

=== FILE: nodes.dfy ===
/**
 * The radio nodes' configuration handling and IQ-data hand-off: an O-DU
 * collects the IQ data delivered to it, an O-RU sends IQ data to an O-DU
 * after a random latency that never drops below one millisecond, and both
 * take O1 configuration by overwriting exactly the fields the O1 dict names.
 * A configuration field holds whatever value the dict carried.
 */
module Nodes {
  import opened Base
  import opened Channel

  /** `BaseStationConfig`: a cell id, with `max_ues` 100 and `transmit_power` 46.0 by default. */
  datatype DuConfig = DuConfig(cellId: int, maxUes: Value, transmitPower: Value)

  function DefaultDuConfig(cellId: int): (c: DuConfig)
    ensures c.cellId == cellId && c.maxUes == VInt(100) && c.transmitPower == VReal(46.0)
  {
    DuConfig(cellId, VInt(100), VReal(46.0))
  }

  datatype ODu<I> = ODu(config: DuConfig, receivedIq: seq<I>)

  function NewDu<I>(config: DuConfig): (d: ODu<I>)
  {
    ODu(config, [])
  }

  /** A new O-DU keeps its configuration and has received no IQ data. */
  lemma NewDuIsEmpty<I>(config: DuConfig)
    ensures var d := NewDu<I>(config);
      d.config == config && d.receivedIq == []
  {
  }

  /** `O_DU.receive_iq_data`: keep exactly one more IQ block, at the end. */
  function ReceiveIqData<I>(d: ODu<I>, iq: I): (r: ODu<I>)
    ensures r.config == d.config
    ensures |r.receivedIq| == |d.receivedIq| + 1
    ensures r.receivedIq[..|d.receivedIq|] == d.receivedIq && r.receivedIq[|d.receivedIq|] == iq
  {
    var s := d.receivedIq + [iq];
    assert s[..|d.receivedIq|] == d.receivedIq;
    d.(receivedIq := s)
  }

  /** The value a config dict gives `key`, or the current one when the key is absent. */
  function Override(config: Content, key: string, current: Value): (v: Value)
    ensures key in config ==> v == config[key]
    ensures key !in config ==> v == current
  {
    if key in config then config[key] else current
  }

  /** `O_DU.apply_o1_config`: `max_ues` and `transmit_power` are overwritten only when present. */
  function ApplyDuConfig<I>(d: ODu<I>, config: Content): (r: ODu<I>)
    ensures r.receivedIq == d.receivedIq && r.config.cellId == d.config.cellId
    ensures r.config.maxUes == if "max_ues" in config then config["max_ues"] else d.config.maxUes
    ensures r.config.transmitPower == if "transmit_power" in config then config["transmit_power"] else d.config.transmitPower
  {
    d.(config := d.config.(maxUes := Override(config, "max_ues", d.config.maxUes),
                           transmitPower := Override(config, "transmit_power", d.config.transmitPower)))
  }

  /** `RUConfig`: 3.5 GHz, 100 MHz, 46.0 dBm and 1024 IQ samples per slot by default. */
  datatype RuConfig = RuConfig(ruId: int, frequency: Value, bandwidth: Value, txPower: Value, iqSamplesPerSlot: int)

  function DefaultRuConfig(ruId: int): (c: RuConfig)
    ensures c.ruId == ruId && c.frequency == VReal(3500000000.0) && c.bandwidth == VReal(100000000.0)
    ensures c.txPower == VReal(46.0) && c.iqSamplesPerSlot == 1024
  {
    RuConfig(ruId, VReal(3500000000.0), VReal(100000000.0), VReal(46.0), 1024)
  }

  datatype ORu<I> = ORu(config: RuConfig, iqBuffer: seq<I>)

  /** A new O-RU has an empty IQ buffer. */
  function NewRu<I>(config: RuConfig): (r: ORu<I>)
  {
    ORu(config, [])
  }

  /** A new O-RU keeps its configuration and starts with an empty IQ buffer. */
  lemma NewRuIsEmpty<I>(config: RuConfig)
    ensures var r := NewRu<I>(config);
      r.config == config && r.iqBuffer == []
  {
  }

  /** `O_RU.apply_o1_config`: `frequency`, `bandwidth` and `tx_power` are overwritten only when present. */
  function ApplyRuConfig<I>(ru: ORu<I>, config: Content): (r: ORu<I>)
    ensures r.iqBuffer == ru.iqBuffer
    ensures r.config.ruId == ru.config.ruId && r.config.iqSamplesPerSlot == ru.config.iqSamplesPerSlot
    ensures r.config.frequency == if "frequency" in config then config["frequency"] else ru.config.frequency
    ensures r.config.bandwidth == if "bandwidth" in config then config["bandwidth"] else ru.config.bandwidth
    ensures r.config.txPower == if "tx_power" in config then config["tx_power"] else ru.config.txPower
  {
    ru.(config := ru.config.(frequency := Override(config, "frequency", ru.config.frequency),
                             bandwidth := Override(config, "bandwidth", ru.config.bandwidth),
                             txPower := Override(config, "tx_power", ru.config.txPower)))
  }

  /** Applying two O1 dicts one after the other is applying their merge, later keys winning. */
  lemma ApplyDuConfigMerges<I>(d: ODu<I>, c1: Content, c2: Content)
    ensures ApplyDuConfig(ApplyDuConfig(d, c1), c2) == ApplyDuConfig(d, c1 + c2)
  {
  }

  lemma ApplyRuConfigMerges<I>(ru: ORu<I>, c1: Content, c2: Content)
    ensures ApplyRuConfig(ApplyRuConfig(ru, c1), c2) == ApplyRuConfig(ru, c1 + c2)
  {
  }

  /** An O1 dict naming none of a node's fields leaves the node as it is. */
  lemma ApplyUnrelatedConfig<I>(d: ODu<I>, ru: ORu<I>, config: Content)
    requires "max_ues" !in config && "transmit_power" !in config
    requires "frequency" !in config && "bandwidth" !in config && "tx_power" !in config
    ensures ApplyDuConfig(d, config) == d && ApplyRuConfig(ru, config) == ru
  {
  }

  /** The delivery a fronthaul transfer schedules: `receive_iq_data` of an O-DU with one IQ block. */
  datatype IqDelivery<N, I> = ReceiveIq(du: N, iq: I)

  /** The O-RU latency floor: one millisecond. */
  const MinRuLatency: real := 0.001

  /** `max(0.001, draw)`: the drawn latency, raised to the floor when it falls below. */
  function RuLatency(draw: real): (l: real)
    ensures l >= MinRuLatency
    ensures l == draw || l == MinRuLatency
    ensures draw >= MinRuLatency ==> l == draw
  {
    if MinRuLatency >= draw then MinRuLatency else draw
  }

  /**
   * `O_RU.send_iq_data(target_du)`: schedule one delivery of the generated IQ
   * block to the target O-DU after the floored latency. `draw` is the normal
   * draw with mean 0.1 and deviation 0.02; `iq` the generated block.
   */
  function SendIqData<I, N>(ru: ORu<I>, target: N, iq: I, draw: real): (r: Request<IqDelivery<N, I>>)
    ensures r.delay >= MinRuLatency
    ensures draw >= MinRuLatency ==> r.delay == draw
    ensures draw < MinRuLatency ==> r.delay == MinRuLatency
    ensures r.callback == ReceiveIq(target, iq)
  {
    Request(RuLatency(draw), ReceiveIq(target, iq))
  }

  /** Running the scheduled delivery makes the O-DU hold exactly that block as its newest. */
  lemma SendIqDataDelivers<I>(ru: ORu<I>, d: ODu<I>, iq: I, draw: real)
    ensures var req := SendIqData(ru, d, iq, draw);
      var d' := ReceiveIqData(req.callback.du, req.callback.iq);
      d'.receivedIq == d.receivedIq + [iq]
  {
  }
}

=== FILE: o1.dfy ===
/**
 * The O1 interface's configuration versioning. Per node it keeps the current
 * configuration, the history of stored configurations, a status (applied,
 * rolled back or committed) and a version number. Storing a configuration
 * merges its keys into the current one and appends it to the history.
 * Rolling back makes the current configuration a history entry, and it is
 * that entry itself, not a copy: a later store merges into the history
 * entry. The model keeps this sharing explicit: the current configuration is
 * either owned or an alias of one history entry.
 */
module O1 {
  import opened Base
  import D = PyDict
  import Nodes

  datatype Status = Applied | RolledBack | Committed

  /** The current configuration: a dict of its own, or the very dict held at `history[index]`. */
  datatype Current = Own(config: Content) | Alias(index: nat)

  datatype NodeState = NodeState(current: Current, history: seq<Content>, status: Status, version: nat)

  /** Node ids are whatever the configurations' `node_id` holds. */
  datatype O1 = O1(nodes: map<Value, NodeState>)

  predicate NodeValid(st: NodeState) {
    |st.history| > 0 && st.version < |st.history| && (st.current.Alias? ==> st.current.index < |st.history|)
  }

  predicate Valid(s: O1) {
    forall id :: id in s.nodes ==> NodeValid(s.nodes[id])
  }

  /** An interface with no configuration loaded. */
  function New(): (s: O1)
    ensures Valid(s) && s.nodes == map[]
  {
    O1(map[])
  }

  /** The node's current configuration, reading through an alias. */
  function CurrentConfig(st: NodeState): (c: Content)
    requires NodeValid(st)
    ensures st.current.Own? ==> c == st.current.config
    ensures st.current.Alias? ==> c == st.history[st.current.index]
  {
    match st.current
    case Own(c) => c
    case Alias(i) => st.history[i]
  }

  /**
   * `_store_config(config)`: KeyError without a `node_id`. Otherwise the keys
   * are merged into the node's current configuration (a new node starts from
   * an empty one), the configuration is appended to the history, and the
   * node is APPLIED at the last version. When the current configuration is
   * a history entry, the merge rewrites that entry.
   */
  function Store(s: O1, config: Content): (r: Result<O1>)
    requires Valid(s)
    ensures r.Err? <==> "node_id" !in config
    ensures r.Err? ==> r.error == KeyError
    ensures r.Ok? ==> Valid(r.value) && r.value.nodes.Keys == s.nodes.Keys + {config["node_id"]}
    ensures r.Ok? ==> forall id :: id in s.nodes && id != config["node_id"] ==> r.value.nodes[id] == s.nodes[id]
    ensures r.Ok? ==> var id := config["node_id"]; var st := r.value.nodes[id];
      && st.status == Applied && st.version == |st.history| - 1 && st.history[st.version] == config
      && |st.history| == (if id in s.nodes then |s.nodes[id].history| else 0) + 1
      && CurrentConfig(st) == (if id in s.nodes then CurrentConfig(s.nodes[id]) else map[]) + config
  {
    if "node_id" !in config then Err(KeyError)
    else
      var id := config["node_id"];
      if id !in s.nodes then Ok(O1(s.nodes[id := NodeState(Own(map[] + config), [config], Applied, 0)]))
      else
        var st := s.nodes[id];
        var st' := match st.current
          case Own(c) => NodeState(Own(c + config), st.history + [config], Applied, |st.history|)
          case Alias(i) => NodeState(Alias(i), st.history[i := st.history[i] + config] + [config], Applied, |st.history|);
        Ok(O1(s.nodes[id := st']))
  }

  /** A store changes no history entry other than the one the current configuration aliases. */
  lemma StoreKeepsOtherEntries(s: O1, config: Content, i: nat)
    requires Valid(s) && "node_id" in config && config["node_id"] in s.nodes
    requires var st := s.nodes[config["node_id"]]; i < |st.history| && !(st.current.Alias? && st.current.index == i)
    ensures Store(s, config).value.nodes[config["node_id"]].history[i] == s.nodes[config["node_id"]].history[i]
  {
  }

  /** `get_node_config(node_id)`: the current configuration; KeyError for an unknown node. */
  function GetNodeConfig(s: O1, id: Value): (r: Result<Content>)
    requires Valid(s)
    ensures r.Err? <==> id !in s.nodes
    ensures r.Err? ==> r.error == KeyError
    ensures r.Ok? ==> r.value == CurrentConfig(s.nodes[id])
  {
    if id !in s.nodes then Err(KeyError) else Ok(CurrentConfig(s.nodes[id]))
  }

  /** A node of the simulation, as far as O1 sees it: an O-DU, an O-RU, or something without `apply_o1_config`. */
  datatype Node<I> = Du(du: Nodes.ODu<I>) | Ru(ru: Nodes.ORu<I>) | Other(tag: nat)

  /**
   * `apply_config(node, node_id)`: hand the node its current configuration.
   * An unknown node id or a node without `apply_o1_config` is logged and the
   * node is left as it was; nothing is raised.
   */
  function ApplyConfig<I>(s: O1, node: Node<I>, id: Value): (n: Node<I>)
    requires Valid(s)
    ensures id !in s.nodes || node.Other? ==> n == node
    ensures id in s.nodes && node.Du? ==> n == Du(Nodes.ApplyDuConfig(node.du, CurrentConfig(s.nodes[id])))
    ensures id in s.nodes && node.Ru? ==> n == Ru(Nodes.ApplyRuConfig(node.ru, CurrentConfig(s.nodes[id])))
  {
    match GetNodeConfig(s, id)
    case Err(_) => node
    case Ok(c) =>
      match node
      case Du(d) => Du(Nodes.ApplyDuConfig(d, c))
      case Ru(u) => Ru(Nodes.ApplyRuConfig(u, c))
      case Other(_) => node
  }

  /** `apply_configs(nodes)`: `apply_config` for every node under its own id, in order; nothing is raised. */
  function ApplyConfigs<I>(s: O1, nodes: D.Dict<Value, Node<I>>): (r: D.Dict<Value, Node<I>>)
    requires Valid(s)
    ensures D.Keys(r) == D.Keys(nodes)
    ensures forall j :: 0 <= j < |nodes.items| ==> r.items[j].1 == ApplyConfig(s, nodes.items[j].1, nodes.items[j].0)
  {
    D.Dict(seq(|nodes.items|, j requires 0 <= j < |nodes.items| => (nodes.items[j].0, ApplyConfig(s, nodes.items[j].1, nodes.items[j].0))))
  }

  /** The version a rollback targets: the one before last by default, or the one asked for. */
  function RollbackTarget(history: seq<Content>, version: Option<int>): (r: Result<nat>)
    ensures version.None? ==> (r.Ok? <==> |history| >= 2) && (r.Ok? ==> r.value == |history| - 2)
    ensures version.Some? ==> (r.Ok? <==> 0 <= version.value < |history|) && (r.Ok? ==> r.value == version.value)
    ensures r.Err? ==> r.error == ValueError
  {
    match version
    case None => if |history| > 1 then Ok(|history| - 2) else Err(ValueError)
    case Some(v) => if v < 0 || v >= |history| then Err(ValueError) else Ok(v)
  }

  /**
   * `rollback_config(node_id, version)`: KeyError for a node without history;
   * ValueError when there is no version to go back to or the version is out
   * of range. Otherwise the current configuration becomes the history entry
   * itself, the node is ROLLED_BACK at that version, and the history is kept.
   */
  function Rollback(s: O1, id: Value, version: Option<int>): (r: Result<O1>)
    requires Valid(s)
    ensures id !in s.nodes ==> r == Err(KeyError)
    ensures id in s.nodes ==> (r.Err? <==> RollbackTarget(s.nodes[id].history, version).Err?)
    ensures r.Err? ==> r.error == KeyError || r.error == ValueError
    ensures r.Ok? ==> Valid(r.value) && r.value.nodes.Keys == s.nodes.Keys
    ensures r.Ok? ==> forall k :: k in s.nodes && k != id ==> r.value.nodes[k] == s.nodes[k]
    ensures r.Ok? ==> var v := RollbackTarget(s.nodes[id].history, version).value; var st := r.value.nodes[id];
      && st.history == s.nodes[id].history && st.status == RolledBack && st.version == v
      && CurrentConfig(st) == s.nodes[id].history[v]
      && st.current == Alias(v)
  {
    if id !in s.nodes then Err(KeyError)
    else
      var st := s.nodes[id];
      match RollbackTarget(st.history, version)
      case Err(e) => Err(e)
      case Ok(v) => Ok(O1(s.nodes[id := st.(current := Alias(v), status := RolledBack, version := v)]))
  }

  /** `commit_config(node_id)`: a bare Exception for an unknown node; otherwise only the status changes, to COMMITTED. */
  function Commit(s: O1, id: Value): (r: Result<O1>)
    requires Valid(s)
    ensures r.Err? <==> id !in s.nodes
    ensures r.Err? ==> r.error == BareException
    ensures r.Ok? ==> Valid(r.value) && r.value.nodes.Keys == s.nodes.Keys
    ensures r.Ok? ==> forall k :: k in s.nodes && k != id ==> r.value.nodes[k] == s.nodes[k]
    ensures r.Ok? ==> r.value.nodes[id] == s.nodes[id].(status := Committed)
  {
    if id !in s.nodes then Err(BareException)
    else Ok(O1(s.nodes[id := s.nodes[id].(status := Committed)]))
  }

  /** Committing twice is committing once. */
  lemma CommitIdempotent(s: O1, id: Value)
    requires Valid(s) && id in s.nodes
    ensures Commit(Commit(s, id).value, id) == Commit(s, id)
  {
    var s1 := Commit(s, id).value;
    assert s1.nodes[id := s1.nodes[id].(status := Committed)] == s1.nodes;
  }

  /** Rolling back to a version and reading the configuration gives that version's entry, whatever was current. */
  lemma RollbackRestores(s: O1, id: Value, v: nat)
    requires Valid(s) && id in s.nodes && v < |s.nodes[id].history|
    ensures GetNodeConfig(Rollback(s, id, Some(v)).value, id) == Ok(s.nodes[id].history[v])
  {
  }

  /**
   * The sharing shows: roll back to version `v`, store a configuration
   * with a key the entry lacks, and history entry `v` now carries that key.
   * Rolling back to `v` again no longer restores what was stored as `v`.
   */
  lemma StoreAfterRollbackRewritesHistory(s: O1, id: Value, v: nat, config: Content, key: string)
    requires Valid(s) && id in s.nodes && v < |s.nodes[id].history|
    requires "node_id" in config && config["node_id"] == id && key in config && key !in s.nodes[id].history[v]
    ensures var s1 := Rollback(s, id, Some(v)).value;
      var s2 := Store(s1, config).value;
      && s2.nodes[id].history[v] == s.nodes[id].history[v] + config
      && s2.nodes[id].history[v] != s.nodes[id].history[v]
      && GetNodeConfig(Rollback(s2, id, Some(v)).value, id) != Ok(s.nodes[id].history[v])
  {
    var s1 := Rollback(s, id, Some(v)).value;
    var s2 := Store(s1, config).value;
    assert key in s2.nodes[id].history[v];
  }

  /** Rollback with the history entry copied: the current configuration becomes a dict of its own. */
  function RollbackCopy(s: O1, id: Value, version: Option<int>): (r: Result<O1>)
    requires Valid(s)
    ensures r.Err? <==> Rollback(s, id, version).Err?
    ensures r.Err? ==> r == Rollback(s, id, version)
    ensures r.Ok? ==> Valid(r.value) && r.value.nodes.Keys == s.nodes.Keys
    ensures r.Ok? ==> forall k :: k in s.nodes && k != id ==> r.value.nodes[k] == s.nodes[k]
    ensures r.Ok? ==> var st, st' := r.value.nodes[id], Rollback(s, id, version).value.nodes[id];
      st.history == st'.history && st.status == st'.status && st.version == st'.version
      && CurrentConfig(st) == CurrentConfig(st') && st.current.Own?
  {
    match Rollback(s, id, version)
    case Err(e) => Err(e)
    case Ok(s1) =>
      var st := s1.nodes[id];
      Ok(O1(s1.nodes[id := st.(current := Own(CurrentConfig(st)))]))
  }

  /** No node's current configuration aliases a history entry. */
  predicate NoAliases(s: O1) {
    forall id :: id in s.nodes ==> s.nodes[id].current.Own?
  }

  /**
   * With copying rollbacks the history is append-only: every store, copying
   * rollback and commit leaves each recorded entry as it was.
   */
  lemma HistoryAppendOnly(s: O1, config: Content, id: Value, version: Option<int>)
    requires Valid(s) && NoAliases(s)
    ensures Store(s, config).Ok? ==>
      (NoAliases(Store(s, config).value) && forall k :: k in s.nodes ==> s.nodes[k].history <= Store(s, config).value.nodes[k].history)
    ensures RollbackCopy(s, id, version).Ok? ==>
      (NoAliases(RollbackCopy(s, id, version).value)
       && forall k :: k in s.nodes ==> s.nodes[k].history == RollbackCopy(s, id, version).value.nodes[k].history)
    ensures Commit(s, id).Ok? ==>
      (NoAliases(Commit(s, id).value) && forall k :: k in s.nodes ==> s.nodes[k].history == Commit(s, id).value.nodes[k].history)
  {
  }

  /** With copying rollbacks a later store leaves the rolled-back entry alone, so rolling back again restores it. */
  lemma CopyingRollbackRestoresAgain(s: O1, id: Value, v: nat, config: Content)
    requires Valid(s) && NoAliases(s) && id in s.nodes && v < |s.nodes[id].history|
    requires "node_id" in config && config["node_id"] == id
    ensures var s1 := RollbackCopy(s, id, Some(v)).value;
      var s2 := Store(s1, config).value;
      s2.nodes[id].history[v] == s.nodes[id].history[v]
      && GetNodeConfig(RollbackCopy(s2, id, Some(v)).value, id) == Ok(s.nodes[id].history[v])
  {
    var h := s.nodes[id].history;
    assert RollbackTarget(h, Some(v)) == Ok(v);
    var s1 := RollbackCopy(s, id, Some(v)).value;
    assert s1.nodes[id].history == h;
    HistoryAppendOnly(s, config, id, Some(v));
    var s2 := Store(s1, config).value;
    HistoryAppendOnly(s1, config, id, Some(v));
    assert h <= s2.nodes[id].history;
    assert s2.nodes[id].history[v] == h[v];
    assert RollbackTarget(s2.nodes[id].history, Some(v)) == Ok(v);
    var s3 := RollbackCopy(s2, id, Some(v)).value;
    assert CurrentConfig(s3.nodes[id]) == h[v];
  }
}

=== FILE: open_fronthaul.dfy ===
/**
 * The Open Fronthaul link between one O-RU and one O-DU: a transfer checks
 * that the given endpoints are the configured ones and schedules delivery of
 * the IQ data to the O-DU after a latency made of a normal latency draw plus
 * a normal jitter draw, clamped at zero. Endpoints are compared by identity;
 * an unset endpoint is `None`.
 */
module OpenFronthaul {
  import opened Base
  import opened Channel
  import Nodes

  datatype Fronthaul<N> = Fronthaul(latencyMean: real, latencyStd: real, jitterStd: real, oRu: Option<N>, oDu: Option<N>)

  /** A new link with the default 0.1 s mean latency, 0.02 s deviation and 0.005 s jitter, and no endpoints. */
  function New<N>(): (f: Fronthaul<N>)
  {
    Fronthaul(0.1, 0.02, 0.005, None, None)
  }

  /** A new link has the default latency parameters and no endpoints. */
  lemma NewDefaults<N>()
    ensures var f := New<N>();
      f.latencyMean == 0.1 && f.latencyStd == 0.02 && f.jitterStd == 0.005 && f.oRu.None? && f.oDu.None?
  {
  }

  function SetORu<N>(f: Fronthaul<N>, ru: N): (r: Fronthaul<N>)
    ensures r.oRu == Some(ru) && r.oDu == f.oDu
    ensures r.latencyMean == f.latencyMean && r.latencyStd == f.latencyStd && r.jitterStd == f.jitterStd
  {
    f.(oRu := Some(ru))
  }

  function SetODu<N>(f: Fronthaul<N>, du: N): (r: Fronthaul<N>)
    ensures r.oDu == Some(du) && r.oRu == f.oRu
    ensures r.latencyMean == f.latencyMean && r.latencyStd == f.latencyStd && r.jitterStd == f.jitterStd
  {
    f.(oDu := Some(du))
  }

  /** `_calculate_latency`: the latency draw plus the jitter draw, never below zero. */
  function CalculateLatency(latencyDraw: real, jitterDraw: real): (l: real)
    ensures l >= 0.0
    ensures l == latencyDraw + jitterDraw || l == 0.0
    ensures latencyDraw + jitterDraw >= 0.0 ==> l == latencyDraw + jitterDraw
  {
    if 0.0 >= latencyDraw + jitterDraw then 0.0 else latencyDraw + jitterDraw
  }

  /**
   * `transmit_iq_data(iq, o_ru, o_du)`: ValueError when the O-RU or the O-DU
   * passed is not the configured one. When both match but no O-DU is set,
   * reaching for its receiver fails with AttributeError. Otherwise one
   * delivery to the configured O-DU is scheduled after the computed latency.
   */
  function Transmit<N(==), I>(f: Fronthaul<N>, iq: I, ru: Option<N>, du: Option<N>, latencyDraw: real, jitterDraw: real): (r: Result<Request<Nodes.IqDelivery<N, I>>>)
    ensures r.Err? <==> ru != f.oRu || du != f.oDu || f.oDu.None?
    ensures r.Err? ==> r.error == if ru != f.oRu || du != f.oDu then ValueError else AttributeError
    ensures r.Ok? ==> r.value.delay >= 0.0 && r.value.callback == Nodes.ReceiveIq(f.oDu.value, iq)
  {
    if ru != f.oRu then Err(ValueError)
    else if du != f.oDu then Err(ValueError)
    else if f.oDu.None? then Err(AttributeError)
    else Ok(Request(CalculateLatency(latencyDraw, jitterDraw), Nodes.ReceiveIq(f.oDu.value, iq)))
  }

  /** Once both endpoints are set, transmitting between exactly them succeeds whatever the draws. */
  lemma TransmitConfigured<N, I>(f: Fronthaul<N>, ru: N, du: N, iq: I, l: real, j: real)
    ensures var g := SetODu(SetORu(f, ru), du);
      Transmit(g, iq, Some(ru), Some(du), l, j) == Ok(Request(CalculateLatency(l, j), Nodes.ReceiveIq(du, iq)))
  {
  }

  /** The latency grows with each draw. */
  lemma LatencyMonotone(l1: real, j1: real, l2: real, j2: real)
    requires l1 <= l2 && j1 <= j2
    ensures CalculateLatency(l1, j1) <= CalculateLatency(l2, j2)
  {
  }
}

=== FILE: peer_router.dfy ===
/**
 * The point-to-point inter-node routers X2 and Xn. Both keep a registry of
 * nodes by id and a FIFO queue of `(message, source, destination)`; a send
 * checks both ends are registered, enqueues, and asks for a zero-delay
 * drain; the drain empties the queue and hands each message with its source
 * id to the destination's receiver. The two interfaces differ only in the
 * name of the receiver method, which `Link` records.
 */
module PeerRouter {
  import opened Base
  import opened Channel

  datatype Link = X2 | Xn

  /** The method the drain calls on the destination node. */
  function ReceiverMethod(link: Link): (m: string)
    ensures link.X2? <==> m == "receive_x2_message"
    ensures link.Xn? <==> m == "receive_xn_message"
  {
    match link
    case X2 => "receive_x2_message"
    case Xn => "receive_xn_message"
  }

  datatype Queued = Queued(message: Content, src: string, dst: string)

  datatype Router<N> = Router(link: Link, nodes: map<string, N>, queue: seq<Queued>)

  /** The callback a send schedules: `_process_message_queue` of this interface. */
  datatype Drain = ProcessMessageQueue(link: Link)

  function New<N>(link: Link): (r: Router<N>)
  {
    Router(link, map[], [])
  }

  /** A new router on a link has no nodes and nothing queued. */
  lemma NewIsEmpty<N>(link: Link)
    ensures var r := New<N>(link);
      r.link == link && r.nodes == map[] && r.queue == []
  {
  }

  /** `register_node`: a new id is added; an id already present keeps its first node. */
  function Register<N>(r: Router<N>, id: string, node: N): (r': Router<N>)
    ensures r'.link == r.link && r'.queue == r.queue
    ensures r'.nodes.Keys == r.nodes.Keys + {id}
    ensures r'.nodes[id] == if id in r.nodes then r.nodes[id] else node
    ensures forall k :: k in r.nodes ==> r'.nodes[k] == r.nodes[k]
  {
    if id in r.nodes then r else r.(nodes := r.nodes[id := node])
  }

  /** `unregister_node`: the id is gone and every other registration is kept; an unknown id changes nothing. */
  function Unregister<N>(r: Router<N>, id: string): (r': Router<N>)
    ensures r'.link == r.link && r'.queue == r.queue
    ensures r'.nodes.Keys == r.nodes.Keys - {id}
    ensures forall k :: k in r'.nodes ==> r'.nodes[k] == r.nodes[k]
    ensures id !in r.nodes ==> r' == r
  {
    if id in r.nodes then r.(nodes := map k | k in r.nodes && k != id :: r.nodes[k]) else r
  }

  /** Registering a fresh id and unregistering it again restores the router. */
  lemma RegisterUnregister<N>(r: Router<N>, id: string, node: N)
    requires id !in r.nodes
    ensures Unregister(Register(r, id, node), id) == r
  {
    assert Unregister(Register(r, id, node), id).nodes == r.nodes;
  }

  /** A second registration under the same id is a no-op, whatever the node. */
  lemma RegisterFirstWins<N>(r: Router<N>, id: string, a: N, b: N)
    ensures Register(Register(r, id, a), id, b) == Register(r, id, a)
  {
  }

  /**
   * `send_message`: ValueError, with nothing queued, unless both source and
   * destination are registered; otherwise the message joins the back of the
   * queue and a zero-delay drain is requested.
   */
  function Send<N>(r: Router<N>, message: Content, src: string, dst: string): (res: Result<(Router<N>, Request<Drain>)>)
    ensures res.Err? <==> src !in r.nodes || dst !in r.nodes
    ensures res.Err? ==> res.error == ValueError
    ensures res.Ok? ==> res.value.0.link == r.link && res.value.0.nodes == r.nodes
    ensures res.Ok? ==> |res.value.0.queue| == |r.queue| + 1 && res.value.0.queue[..|r.queue|] == r.queue
    ensures res.Ok? ==> res.value.0.queue[|r.queue|] == Queued(message, src, dst)
    ensures res.Ok? ==> res.value.1 == Request(0.0, ProcessMessageQueue(r.link))
  {
    if src !in r.nodes then Err(ValueError)
    else if dst !in r.nodes then Err(ValueError)
    else
      var r' := r.(queue := r.queue + [Queued(message, src, dst)]);
      assert r'.queue[..|r.queue|] == r.queue;
      Ok((r', Request(0.0, ProcessMessageQueue(r.link))))
  }

  /** The node a queued message goes to: its destination as registered when the drain runs, if it is. */
  function Route<N>(nodes: map<string, N>, m: Queued): (t: Option<N>)
    ensures t.Some? <==> m.dst in nodes
    ensures t.Some? ==> t.value == nodes[m.dst]
  {
    if m.dst in nodes then Some(nodes[m.dst]) else None
  }

  /**
   * `_process_message_queue`: empty the queue front to back, handing each
   * message to its destination as registered when the drain runs. A missing
   * destination is logged and a raising receiver is caught; `fails` says
   * which receiver calls raise.
   */
  function ProcessQueue<N>(r: Router<N>, fails: (N, Queued) -> bool): (res: (Router<N>, seq<Outcome<N, Queued>>))
    ensures res.0 == r.(queue := [])
    ensures |res.1| == |r.queue|
    ensures forall i :: 0 <= i < |r.queue| ==> res.1[i].payload == r.queue[i]
    ensures forall i :: 0 <= i < |r.queue| ==>
      (Called(res.1[i]) <==> r.queue[i].dst in r.nodes)
    ensures forall i :: 0 <= i < |r.queue| && Called(res.1[i]) ==>
      res.1[i].target == r.nodes[r.queue[i].dst] && (res.1[i].Raised? <==> fails(res.1[i].target, r.queue[i]))
  {
    (r.(queue := []), Channel.Drain(r.queue, (m: Queued) => Route(r.nodes, m), fails))
  }

  /** A second drain right after the first finds nothing to deliver. */
  lemma DrainIdempotent<N>(r: Router<N>, f: (N, Queued) -> bool)
    ensures var d := ProcessQueue(r, f).0;
      ProcessQueue(d, f).0 == d && ProcessQueue(d, f).1 == []
  {
  }

  /**
   * End to end: a message sent on an idle router reaches the destination's
   * receiver exactly once, with its source id, on the requested drain.
   */
  lemma SendThenDrain<N>(r: Router<N>, message: Content, src: string, dst: string, f: (N, Queued) -> bool)
    requires r.queue == [] && src in r.nodes && dst in r.nodes
    ensures var s := Send(r, message, src, dst).value.0;
      Calls(ProcessQueue(s, f).1) == [(r.nodes[dst], Queued(message, src, dst))]
  {
    var s := Send(r, message, src, dst).value.0;
    var os := ProcessQueue(s, f).1;
    assert |os| == 1;
    assert os[1..] == [];
  }
}

=== FILE: pydict.dfy ===
/**
 * Python's insertion-ordered `dict`: a sequence of key/value pairs with
 * distinct keys. Assigning to an existing key keeps its position, a new
 * key goes to the end, and `del` removes the pair while keeping the order
 * of the rest. Iteration order (`items()`, `values()`) is the sequence order.
 */
module PyDict {
  import opened Base

  datatype Dict<K, V> = Dict(items: seq<(K, V)>)

  function Empty<K, V>(): Dict<K, V> {
    Dict([])
  }

  /** Keys in iteration order. */
  function Keys<K, V>(d: Dict<K, V>): (ks: seq<K>)
    ensures |ks| == |d.items|
    ensures forall i :: 0 <= i < |ks| ==> ks[i] == d.items[i].0
  {
    seq(|d.items|, i requires 0 <= i < |d.items| => d.items[i].0)
  }

  /** Values in iteration order. */
  function Values<K, V>(d: Dict<K, V>): (vs: seq<V>)
    ensures |vs| == |d.items|
    ensures forall i :: 0 <= i < |vs| ==> vs[i] == d.items[i].1
  {
    seq(|d.items|, i requires 0 <= i < |d.items| => d.items[i].1)
  }

  /** No key occurs twice. */
  predicate Valid<K(==), V>(d: Dict<K, V>) {
    forall i, j :: 0 <= i < j < |d.items| ==> d.items[i].0 != d.items[j].0
  }

  predicate Has<K(==), V>(d: Dict<K, V>, k: K) {
    exists i :: 0 <= i < |d.items| && d.items[i].0 == k
  }

  /** Position of `k`, or -1 when absent. */
  function IndexOf<K(==), V>(items: seq<(K, V)>, k: K): (r: int)
    ensures -1 <= r < |items|
    ensures r == -1 <==> forall i :: 0 <= i < |items| ==> items[i].0 != k
    ensures r >= 0 ==> items[r].0 == k && forall i :: 0 <= i < r ==> items[i].0 != k
  {
    if |items| == 0 then -1
    else if items[0].0 == k then 0
    else
      var r := IndexOf(items[1..], k);
      if r == -1 then -1 else r + 1
  }

  lemma IndexOfSameKeys<K, V>(a: seq<(K, V)>, b: seq<(K, V)>, k: K)
    requires |a| == |b|
    requires forall i :: 0 <= i < |a| ==> a[i].0 == b[i].0
    ensures IndexOf(a, k) == IndexOf(b, k)
  {
    if |a| > 0 {
      IndexOfSameKeys(a[1..], b[1..], k);
    }
  }

  lemma IndexOfAppend<K, V>(a: seq<(K, V)>, p: (K, V), k: K)
    requires p.0 != k
    ensures IndexOf(a + [p], k) == IndexOf(a, k)
  {
    if |a| > 0 {
      assert (a + [p])[1..] == a[1..] + [p];
      IndexOfAppend(a[1..], p, k);
    }
  }

  /** `d.get(k)`. */
  function Get<K(==), V>(d: Dict<K, V>, k: K): (r: Option<V>)
    ensures r.None? <==> !Has(d, k)
    ensures r.Some? ==> exists i :: 0 <= i < |d.items| && d.items[i] == (k, r.value)
  {
    var i := IndexOf(d.items, k);
    if i >= 0 then Some(d.items[i].1) else None
  }

  /** In a valid dict the pair at any position is what `Get` returns for its key. */
  lemma GetAt<K, V>(d: Dict<K, V>, i: int)
    requires Valid(d)
    requires 0 <= i < |d.items|
    ensures Get(d, d.items[i].0) == Some(d.items[i].1)
  {
  }

  /** `d[k] = v`. */
  function Put<K(==,!new), V>(d: Dict<K, V>, k: K, v: V): (r: Dict<K, V>)
    requires Valid(d)
    ensures Valid(r)
    ensures Has(d, k) ==> Keys(r) == Keys(d)
    ensures !Has(d, k) ==> Keys(r) == Keys(d) + [k]
    ensures Get(r, k) == Some(v)
    ensures forall k' :: k' != k ==> Get(r, k') == Get(d, k')
  {
    var i := IndexOf(d.items, k);
    var r := if i >= 0 then Dict(d.items[i := (k, v)]) else Dict(d.items + [(k, v)]);
    assert Keys(r) == (if i >= 0 then Keys(d) else Keys(d) + [k]);
    forall k' | k' != k
      ensures IndexOf(r.items, k') == IndexOf(d.items, k')
    {
      if i >= 0 {
        IndexOfSameKeys(r.items, d.items, k');
      } else {
        IndexOfAppend(d.items, (k, v), k');
      }
    }
    assert r.items[if i >= 0 then i else |d.items|].0 == k;
    GetAt(r, if i >= 0 then i else |d.items|);
    r
  }

  /** The dict without the pair at position `i`. */
  function DropAt<K, V>(d: Dict<K, V>, i: int): (r: Dict<K, V>)
    requires 0 <= i < |d.items|
    ensures |r.items| == |d.items| - 1
    ensures forall j :: 0 <= j < |r.items| ==> r.items[j] == d.items[if j < i then j else j + 1]
  {
    Dict(d.items[..i] + d.items[i + 1..])
  }

  lemma DropAtKeys<K, V>(d: Dict<K, V>, i: int, k': K)
    requires Valid(d)
    requires 0 <= i < |d.items|
    ensures Valid(DropAt(d, i))
    ensures Has(DropAt(d, i), k') <==> Has(d, k') && k' != d.items[i].0
  {
    var r := DropAt(d, i);
    if Has(d, k') && k' != d.items[i].0 {
      var j :| 0 <= j < |d.items| && d.items[j].0 == k';
      assert Keys(r)[if j < i then j else j - 1] == k';
    }
  }

  lemma DropAtGet<K, V>(d: Dict<K, V>, i: int, k': K)
    requires Valid(d)
    requires 0 <= i < |d.items|
    requires k' != d.items[i].0
    ensures Get(DropAt(d, i), k') == Get(d, k')
  {
    var r := DropAt(d, i);
    DropAtKeys(d, i, k');
    if Has(d, k') {
      var j :| 0 <= j < |d.items| && d.items[j].0 == k';
      var j' := if j < i then j else j - 1;
      assert r.items[j'] == d.items[j];
      GetAt(d, j);
      GetAt(r, j');
    }
  }

  lemma DropAtProps<K(!new), V>(d: Dict<K, V>, i: int)
    requires Valid(d)
    requires 0 <= i < |d.items|
    ensures Valid(DropAt(d, i))
    ensures forall k' :: Has(DropAt(d, i), k') <==> Has(d, k') && k' != d.items[i].0
    ensures forall k' :: k' != d.items[i].0 ==> Get(DropAt(d, i), k') == Get(d, k')
  {
    forall k' ensures Has(DropAt(d, i), k') <==> Has(d, k') && k' != d.items[i].0 {
      DropAtKeys(d, i, k');
    }
    forall k' | k' != d.items[i].0 ensures Get(DropAt(d, i), k') == Get(d, k') {
      DropAtGet(d, i, k');
    }
    DropAtKeys(d, i, d.items[i].0);
  }

  /** `del d[k]`; a missing key leaves the dict as it is. */
  function Remove<K(==,!new), V>(d: Dict<K, V>, k: K): (r: Dict<K, V>)
    requires Valid(d)
    ensures Valid(r)
    ensures !Has(r, k)
    ensures !Has(d, k) ==> r == d
    ensures forall k' :: k' != k ==> Get(r, k') == Get(d, k')
    ensures forall k' :: Has(r, k') <==> Has(d, k') && k' != k
    ensures |r.items| == if Has(d, k) then |d.items| - 1 else |d.items|
    ensures Has(d, k) ==> Keys(r) == Keys(d)[..IndexOf(d.items, k)] + Keys(d)[IndexOf(d.items, k) + 1..]
  {
    var i := IndexOf(d.items, k);
    if i < 0 then d
    else
      var r := DropAt(d, i);
      DropAtProps(d, i);
      assert Keys(r) == Keys(d)[..i] + Keys(d)[i + 1..];
      r
  }

  /** Removing a key just added restores the dict. */
  lemma PutThenRemove<K(!new), V>(d: Dict<K, V>, k: K, v: V)
    requires Valid(d)
    requires !Has(d, k)
    ensures Remove(Put(d, k, v), k) == d
  {
    var p := Put(d, k, v);
    assert p.items == d.items + [(k, v)];
    assert IndexOf(p.items, k) == |d.items|;
    assert DropAt(p, |d.items|).items == d.items;
  }
}

=== FILE: rapp.dfy ===
/**
 * The rApp base class: an rApp registers with its Non-RT RIC and keeps the
 * A1 policies it created, keyed by id. Ids are `policy-(n+1)` for the `n`
 * policies currently kept, so after a deletion a new policy can take the id
 * of a live one and replace it. Sending looks the Near-RT RIC up by id among
 * the Non-RT RIC's managed RICs and hands the stored policy to the A1
 * interface.
 */
module RApp {
  import opened Base
  import D = PyDict
  import A1
  import A1PolicyData
  import Ric

  datatype RApp<R> = RApp(rappId: string, a1: A1.A1Interface<R>, policies: D.Dict<string, A1.A1Policy>)

  predicate Valid<R>(rapp: RApp<R>) {
    D.Valid(rapp.policies)
  }

  /** A new rApp keeps no policy. */
  function New<R>(rappId: string, a1: A1.A1Interface<R>): (rapp: RApp<R>)
    ensures Valid(rapp) && A1.DenseIds(rapp.policies)
    ensures rapp.rappId == rappId && rapp.a1 == a1 && rapp.policies.items == []
  {
    RApp(rappId, a1, D.Empty())
  }

  /** `register()`: the Non-RT RIC's `add_rapp` with this rApp. */
  function Register<Rp(!new), R>(n: Ric.NonRtRic<Rp, R>, rappId: string, rapp: Rp): (n': Ric.NonRtRic<Rp, R>)
    requires Ric.NonRtValid(n)
    ensures Ric.NonRtValid(n') && n'.a1 == n.a1 && n'.managed == n.managed
    ensures D.Get(n'.rapps, rappId) == Some(rapp)
    ensures forall k :: k != rappId ==> D.Get(n'.rapps, k) == D.Get(n.rapps, k)
  {
    Ric.AddRapp(n, rappId, rapp)
  }

  /** `unregister()`: the Non-RT RIC's `remove_rapp` with this rApp's id. */
  function Unregister<Rp(!new), R>(n: Ric.NonRtRic<Rp, R>, rappId: string): (n': Ric.NonRtRic<Rp, R>)
    requires Ric.NonRtValid(n)
    ensures Ric.NonRtValid(n') && n'.a1 == n.a1 && n'.managed == n.managed
    ensures !D.Has(n'.rapps, rappId)
    ensures forall k :: k != rappId ==> D.Get(n'.rapps, k) == D.Get(n.rapps, k)
  {
    Ric.RemoveRapp(n, rappId)
  }

  /** Registering an rApp that was not registered and unregistering it leaves the Non-RT RIC as it was. */
  lemma RegisterThenUnregister<Rp(!new), R>(n: Ric.NonRtRic<Rp, R>, rappId: string, rapp: Rp)
    requires Ric.NonRtValid(n) && !D.Has(n.rapps, rappId)
    ensures Unregister(Register(n, rappId, rapp), rappId) == n
  {
    Ric.AddThenRemoveRapp(n, rappId, rapp);
  }

  /**
   * `create_a1_policy(type, content, target)`: a policy with id
   * `policy-(n+1)`, stored under that id (replacing a policy already there)
   * and returned.
   */
  function CreateA1Policy<R>(rapp: RApp<R>, policyType: A1PolicyData.PolicyType, content: Content, target: string): (r: (RApp<R>, A1.A1Policy))
    requires Valid(rapp)
    ensures Valid(r.0) && r.0.rappId == rapp.rappId && r.0.a1 == rapp.a1
    ensures r.1 == A1.A1Policy(policyType, A1.PolicyId(|rapp.policies.items| + 1), content, A1PolicyData.DefaultVersion, target)
    ensures D.Get(r.0.policies, r.1.policyId) == Some(r.1)
    ensures forall k :: k != r.1.policyId ==> D.Get(r.0.policies, k) == D.Get(rapp.policies, k)
  {
    var id := A1.PolicyId(|rapp.policies.items| + 1);
    var p := A1.A1Policy(policyType, id, content, A1PolicyData.DefaultVersion, target);
    (rapp.(policies := D.Put(rapp.policies, id, p)), p)
  }

  /** Without deletions the ids stay `policy-1, policy-2, ...` in order, and each creation adds a policy without replacing one. */
  lemma CreateKeepsDense<R>(rapp: RApp<R>, t: A1PolicyData.PolicyType, c: Content, g: string)
    requires Valid(rapp) && A1.DenseIds(rapp.policies)
    ensures var r := CreateA1Policy(rapp, t, c, g).0;
      A1.DenseIds(r.policies) && D.Keys(r.policies) == D.Keys(rapp.policies) + [A1.PolicyId(|rapp.policies.items| + 1)]
  {
    A1.DenseNextIsFresh(rapp.policies);
    var r := CreateA1Policy(rapp, t, c, g).0;
    assert D.Keys(r.policies) == D.Keys(rapp.policies) + [A1.PolicyId(|rapp.policies.items| + 1)];
    forall i | 0 <= i < |r.policies.items| ensures r.policies.items[i].0 == A1.PolicyId(i + 1) {
      assert D.Keys(r.policies)[i] == r.policies.items[i].0;
    }
  }

  /** The index of the first RIC in `rics` whose id is `ricId`, or -1. */
  function FindRic<R>(rics: seq<R>, ricId: string, idOf: R -> string): (i: int)
    ensures -1 <= i < |rics|
    ensures i == -1 <==> forall j :: 0 <= j < |rics| ==> idOf(rics[j]) != ricId
    ensures i >= 0 ==> idOf(rics[i]) == ricId && forall j :: 0 <= j < i ==> idOf(rics[j]) != ricId
  {
    if |rics| == 0 then -1
    else if idOf(rics[0]) == ricId then 0
    else
      var i := FindRic(rics[1..], ricId, idOf);
      assert forall j :: 0 < j < |rics| ==> rics[j] == rics[1..][j - 1];
      if i == -1 then -1 else i + 1
  }

  /**
   * `send_a1_policy(policy_id, near_rt_ric_id)`: KeyError for a policy the
   * rApp does not keep; ValueError when no managed RIC has the id; otherwise
   * the A1 interface's `send_policy` with the first such RIC, whose own
   * ValueError (a RIC other than the interface's) propagates. On success the
   * result is the receiving RIC and the dict it was given. A RIC's id is
   * read through `idOf`.
   */
  function SendA1Policy<Rp, R(==)>(rapp: RApp<R>, n: Ric.NonRtRic<Rp, R>, policyId: string, ricId: string, idOf: R -> string): (r: Result<(R, Content)>)
    ensures !D.Has(rapp.policies, policyId) ==> r == Err(KeyError)
    ensures D.Has(rapp.policies, policyId) && FindRic(n.managed, ricId, idOf) == -1 ==> r == Err(ValueError)
    ensures r.Ok? <==>
      (D.Has(rapp.policies, policyId) && FindRic(n.managed, ricId, idOf) >= 0 && rapp.a1.nearRtRic == n.managed[FindRic(n.managed, ricId, idOf)])
    ensures r.Ok? ==> idOf(r.value.0) == ricId && r.value.0 == rapp.a1.nearRtRic
    ensures r.Ok? ==> A1.FromDict(r.value.1) == Ok(D.Get(rapp.policies, policyId).value)
    ensures r.Err? ==> r.error == KeyError || r.error == ValueError
  {
    match D.Get(rapp.policies, policyId)
    case None => Err(KeyError)
    case Some(policy) =>
      var i := FindRic(n.managed, ricId, idOf);
      if i == -1 then Err(ValueError)
      else
        match A1.SendPolicy(rapp.a1, policy, n.managed[i])
        case Err(e) => Err(e)
        case Ok(d) => Ok((n.managed[i], d))
  }

  /**
   * `update_a1_policy(policy_id, content)`: KeyError for an unknown id;
   * otherwise only that policy's content changes.
   */
  function UpdateA1Policy<R>(rapp: RApp<R>, policyId: string, content: Content): (r: Result<RApp<R>>)
    requires Valid(rapp)
    ensures r.Err? <==> !D.Has(rapp.policies, policyId)
    ensures r.Err? ==> r.error == KeyError
    ensures r.Ok? ==> Valid(r.value) && r.value.rappId == rapp.rappId && r.value.a1 == rapp.a1
    ensures r.Ok? ==> D.Keys(r.value.policies) == D.Keys(rapp.policies)
    ensures r.Ok? ==> D.Get(r.value.policies, policyId) == Some(D.Get(rapp.policies, policyId).value.(policyContent := content))
    ensures r.Ok? ==> forall k :: k != policyId ==> D.Get(r.value.policies, k) == D.Get(rapp.policies, k)
  {
    match D.Get(rapp.policies, policyId)
    case None => Err(KeyError)
    case Some(p) => Ok(rapp.(policies := D.Put(rapp.policies, policyId, p.(policyContent := content))))
  }

  /** An update keeps the policy's id, type, version and target. */
  lemma UpdateKeepsIdentity<R>(rapp: RApp<R>, policyId: string, content: Content)
    requires Valid(rapp) && D.Has(rapp.policies, policyId)
    ensures var p, q := D.Get(rapp.policies, policyId).value, D.Get(UpdateA1Policy(rapp, policyId, content).value.policies, policyId).value;
      q.policyId == p.policyId && q.policyType == p.policyType && q.version == p.version && q.target == p.target
      && q.policyContent == content
  {
  }

  /** `delete_a1_policy(policy_id)`: KeyError for an unknown id; otherwise the entry is gone and the others stay. */
  function DeleteA1Policy<R>(rapp: RApp<R>, policyId: string): (r: Result<RApp<R>>)
    requires Valid(rapp)
    ensures r.Err? <==> !D.Has(rapp.policies, policyId)
    ensures r.Err? ==> r.error == KeyError
    ensures r.Ok? ==> Valid(r.value) && r.value.rappId == rapp.rappId && r.value.a1 == rapp.a1
    ensures r.Ok? ==> !D.Has(r.value.policies, policyId) && |r.value.policies.items| == |rapp.policies.items| - 1
    ensures r.Ok? ==> forall k :: k != policyId ==> D.Get(r.value.policies, k) == D.Get(rapp.policies, k)
  {
    if D.Has(rapp.policies, policyId) then Ok(rapp.(policies := D.Remove(rapp.policies, policyId))) else Err(KeyError)
  }

  /** Deleting the policy just created restores the rApp, when the id it took was free. */
  lemma CreateThenDelete<R>(rapp: RApp<R>, t: A1PolicyData.PolicyType, c: Content, g: string)
    requires Valid(rapp) && !D.Has(rapp.policies, A1.PolicyId(|rapp.policies.items| + 1))
    ensures var (r, p) := CreateA1Policy(rapp, t, c, g);
      DeleteA1Policy(r, p.policyId) == Ok(rapp)
  {
    var id := A1.PolicyId(|rapp.policies.items| + 1);
    D.PutThenRemove(rapp.policies, id, A1.A1Policy(t, id, c, A1PolicyData.DefaultVersion, g));
  }

  /**
   * Count-based ids collide: create `policy-1` and `policy-2`, delete
   * `policy-1`, and the next creation is given the id `policy-2` again and
   * replaces the live policy kept under it.
   */
  lemma CreateAfterDeleteCollides<R>(a1: A1.A1Interface<R>, c1: Content, c2: Content, c3: Content)
    requires c2 != c3
    ensures var r0 := New("rapp", a1);
      var (r1, p1) := CreateA1Policy(r0, A1PolicyData.Type1, c1, "o_du");
      var (r2, p2) := CreateA1Policy(r1, A1PolicyData.Type1, c2, "o_du");
      var r3 := DeleteA1Policy(r2, p1.policyId).value;
      var (r4, p3) := CreateA1Policy(r3, A1PolicyData.Type1, c3, "o_du");
      && p3.policyId == p2.policyId
      && |r4.policies.items| == 1
      && D.Get(r4.policies, p2.policyId) == Some(p3)
      && D.Get(r4.policies, p2.policyId) != Some(p2)
  {
    var r0: RApp<R> := New("rapp", a1);
    var (r1, p1) := CreateA1Policy(r0, A1PolicyData.Type1, c1, "o_du");
    CreateKeepsDense(r0, A1PolicyData.Type1, c1, "o_du");
    assert |r1.policies.items| == 1;
    var (r2, p2) := CreateA1Policy(r1, A1PolicyData.Type1, c2, "o_du");
    CreateKeepsDense(r1, A1PolicyData.Type1, c2, "o_du");
    assert |r2.policies.items| == 2;
    assert p1.policyId != p2.policyId by {
      if p1.policyId == p2.policyId {
        A1.PolicyIdInjective(1, 2);
      }
    }
    var r3 := DeleteA1Policy(r2, p1.policyId).value;
    assert |r3.policies.items| == 1;
    assert D.Has(r3.policies, p2.policyId);
    var (r4, p3) := CreateA1Policy(r3, A1PolicyData.Type1, c3, "o_du");
    assert p3.policyId == p2.policyId;
  }
}

=== FILE: ric.dfy ===
/**
 * The two RAN intelligent controllers. The Near-RT RIC keeps its xApps
 * (each subscribed on its E2 interface), the A1 policies it received (last
 * write per id wins), and its E2 nodes; enforcing policies visits, per
 * policy, the E2 nodes of the class the policy targets. The Non-RT RIC keeps
 * its rApps and the list of Near-RT RICs it manages, and mints A1 policies
 * whose id comes from the Near-RT RIC's current policy count. Both use the
 * A1 interface's own (type-checking only) policy model.
 */
module Ric {
  import opened Base
  import D = PyDict
  import E2
  import A1
  import A1PolicyData
  import Channel

  /** An E2 node as the RIC sees it: the name of its class and an identity. */
  datatype E2Node = E2Node(className: string, handle: nat)

  datatype NearRtRic<X, Cb> = NearRtRic(
    id: string,
    xapps: D.Dict<string, X>,
    a1Policies: D.Dict<string, A1.A1Policy>,
    e2Nodes: D.Dict<string, E2Node>,
    e2: E2.E2Interface<Cb>)

  predicate Valid<X, Cb>(r: NearRtRic<X, Cb>) {
    D.Valid(r.xapps) && D.Valid(r.a1Policies) && D.Valid(r.e2Nodes) && E2.Valid(r.e2)
  }

  /** Every registered xApp is subscribed on E2. */
  ghost predicate XappsSubscribed<X, Cb>(r: NearRtRic<X, Cb>) {
    forall id :: D.Has(r.xapps, id) ==> D.Has(r.e2.subscribers, id)
  }

  /** A new Near-RT RIC has no xApps, no A1 policies and no E2 nodes. */
  function NewNearRtRic<X, Cb>(id: string, e2: E2.E2Interface<Cb>): (r: NearRtRic<X, Cb>)
    requires E2.Valid(e2)
  {
    NearRtRic(id, D.Empty(), D.Empty(), D.Empty(), e2)
  }

  /** A new Near-RT RIC has no xApps, no A1 policies and no E2 nodes. */
  lemma NewNearRtRicIsEmpty<X, Cb>(id: string, e2: E2.E2Interface<Cb>)
    requires E2.Valid(e2)
    ensures var r := NewNearRtRic<X, Cb>(id, e2);
      Valid(r) && XappsSubscribed(r) && r.id == id && r.e2 == e2 && r.xapps.items == [] && r.a1Policies.items == [] && r.e2Nodes.items == []
  {
  }

  /** `add_xapp(xapp)`: store the xApp under its id and subscribe its `receive_indication` on E2. */
  function AddXapp<X(!new), Cb(!new)>(r: NearRtRic<X, Cb>, xappId: string, xapp: X, receiveIndication: Cb): (r': NearRtRic<X, Cb>)
    requires Valid(r)
    ensures Valid(r') && r'.id == r.id && r'.a1Policies == r.a1Policies && r'.e2Nodes == r.e2Nodes
    ensures D.Get(r'.xapps, xappId) == Some(xapp)
    ensures D.Get(r'.e2.subscribers, xappId) == Some(receiveIndication)
    ensures forall k :: k != xappId ==> D.Get(r'.xapps, k) == D.Get(r.xapps, k)
    ensures forall k :: k != xappId ==> D.Get(r'.e2.subscribers, k) == D.Get(r.e2.subscribers, k)
    ensures r'.e2.queue == r.e2.queue
    ensures D.Keys(r'.xapps) == if D.Has(r.xapps, xappId) then D.Keys(r.xapps) else D.Keys(r.xapps) + [xappId]
    ensures D.Keys(r'.e2.subscribers) ==
      if D.Has(r.e2.subscribers, xappId) then D.Keys(r.e2.subscribers) else D.Keys(r.e2.subscribers) + [xappId]
  {
    var e2 := E2.Subscribe(r.e2, VStr(xappId), E2.Callable(receiveIndication)).value;
    r.(xapps := D.Put(r.xapps, xappId, xapp), e2 := e2)
  }

  /** `remove_xapp(xapp_id)`: drop the xApp and its subscription; an unknown id changes nothing. */
  function RemoveXapp<X(!new), Cb(!new)>(r: NearRtRic<X, Cb>, xappId: string): (r': NearRtRic<X, Cb>)
    requires Valid(r)
    ensures Valid(r') && r'.id == r.id && r'.a1Policies == r.a1Policies && r'.e2Nodes == r.e2Nodes
    ensures !D.Has(r'.xapps, xappId)
    ensures !D.Has(r.xapps, xappId) ==> r' == r
    ensures D.Has(r.xapps, xappId) ==> !D.Has(r'.e2.subscribers, xappId)
    ensures forall k :: k != xappId ==> D.Get(r'.xapps, k) == D.Get(r.xapps, k)
    ensures forall k :: k != xappId ==> D.Get(r'.e2.subscribers, k) == D.Get(r.e2.subscribers, k)
    ensures r'.e2.queue == r.e2.queue
    ensures D.Has(r.xapps, xappId) ==> var i := D.IndexOf(r.xapps.items, xappId);
      D.Keys(r'.xapps) == D.Keys(r.xapps)[..i] + D.Keys(r.xapps)[i + 1..]
    ensures D.Has(r.xapps, xappId) && D.Has(r.e2.subscribers, xappId) ==> var i := D.IndexOf(r.e2.subscribers.items, xappId);
      D.Keys(r'.e2.subscribers) == D.Keys(r.e2.subscribers)[..i] + D.Keys(r.e2.subscribers)[i + 1..]
    ensures !D.Has(r.e2.subscribers, xappId) ==> r'.e2 == r.e2
  {
    if D.Has(r.xapps, xappId) then
      r.(xapps := D.Remove(r.xapps, xappId), e2 := E2.Unsubscribe(r.e2, xappId))
    else r
  }

  /** Adding and removing xApps keeps every registered xApp subscribed. */
  lemma XappsStaySubscribed<X(!new), Cb(!new)>(r: NearRtRic<X, Cb>, xappId: string, xapp: X, cb: Cb, other: string)
    requires Valid(r) && XappsSubscribed(r)
    ensures XappsSubscribed(AddXapp(r, xappId, xapp, cb))
    ensures XappsSubscribed(RemoveXapp(r, other))
  {
    var a := AddXapp(r, xappId, xapp, cb);
    forall id | D.Has(a.xapps, id) ensures D.Has(a.e2.subscribers, id) {
      if id != xappId {
        assert D.Get(a.xapps, id) == D.Get(r.xapps, id);
        assert D.Get(a.e2.subscribers, id) == D.Get(r.e2.subscribers, id);
      }
    }
    var b := RemoveXapp(r, other);
    forall id | D.Has(b.xapps, id) ensures D.Has(b.e2.subscribers, id) {
      assert D.Get(b.xapps, id) == D.Get(r.xapps, id);
      assert D.Get(b.e2.subscribers, id) == D.Get(r.e2.subscribers, id);
    }
  }

  /** Adding an xApp under a fresh id and removing it again restores the RIC. */
  lemma AddThenRemoveXapp<X(!new), Cb(!new)>(r: NearRtRic<X, Cb>, xappId: string, xapp: X, cb: Cb)
    requires Valid(r) && !D.Has(r.xapps, xappId) && !D.Has(r.e2.subscribers, xappId)
    ensures RemoveXapp(AddXapp(r, xappId, xapp, cb), xappId) == r
  {
    D.PutThenRemove(r.xapps, xappId, xapp);
    E2.SubscribeUnsubscribe(r.e2, xappId, cb);
  }

  /** `store_a1_policy(policy)`: keep the policy under its id, replacing any policy stored with that id. */
  function StoreA1Policy<X, Cb>(r: NearRtRic<X, Cb>, p: A1.A1Policy): (r': NearRtRic<X, Cb>)
    requires Valid(r)
    ensures Valid(r') && r' == r.(a1Policies := r'.a1Policies)
    ensures D.Get(r'.a1Policies, p.policyId) == Some(p)
    ensures forall k :: k != p.policyId ==> D.Get(r'.a1Policies, k) == D.Get(r.a1Policies, k)
    ensures |r'.a1Policies.items| == if D.Has(r.a1Policies, p.policyId) then |r.a1Policies.items| else |r.a1Policies.items| + 1
  {
    r.(a1Policies := D.Put(r.a1Policies, p.policyId, p))
  }

  /** Of two policies stored under one id, the later is kept. */
  lemma LastPolicyWins<X, Cb>(r: NearRtRic<X, Cb>, p: A1.A1Policy, q: A1.A1Policy)
    requires Valid(r) && p.policyId == q.policyId
    ensures D.Get(StoreA1Policy(StoreA1Policy(r, p), q).a1Policies, p.policyId) == Some(q)
    ensures D.Keys(StoreA1Policy(StoreA1Policy(r, p), q).a1Policies) == D.Keys(StoreA1Policy(r, q).a1Policies)
  {
  }

  /**
   * `receive_a1_policy(d)`: a dict that is not a policy is logged and
   * discarded, nothing raised; a policy is stored.
   */
  function ReceiveA1Policy<X, Cb>(r: NearRtRic<X, Cb>, d: Content): (r': NearRtRic<X, Cb>)
    requires Valid(r)
    ensures Valid(r')
    ensures A1.FromDict(d).Err? ==> r' == r
    ensures A1.FromDict(d).Ok? ==> r' == StoreA1Policy(r, A1.FromDict(d).value)
  {
    match A1.FromDict(d)
    case Err(_) => r
    case Ok(p) => StoreA1Policy(r, p)
  }

  /** `A1Interface.receive_policy(d)` against this RIC: the answer, and the RIC after the store. */
  function ReceivePolicyVia<X, Cb>(r: NearRtRic<X, Cb>, d: Content): (res: (bool, NearRtRic<X, Cb>))
    requires Valid(r)
    ensures Valid(res.1)
    ensures res.0 <==> A1.FromDict(d).Ok?
    ensures !res.0 ==> res.1 == r
    ensures res.0 ==> D.Get(res.1.a1Policies, A1.FromDict(d).value.policyId) == A1.ReceivePolicy(d).1
  {
    var (ok, p) := A1.ReceivePolicy(d);
    if ok then (true, StoreA1Policy(r, p.value)) else (false, r)
  }

  /** A policy the RIC enforces on this kind of node. */
  predicate Targets(target: string, className: string) {
    (target == "o_du" && className == "O_DU") || (target == "o_ru" && className == "O_RU")
  }

  /** One enforcement step: a policy applied to one E2 node. */
  datatype Application = Application(policy: A1.A1Policy, nodeId: string)

  /** The nodes, in order, that one policy is applied to. */
  function ApplyTo(p: A1.A1Policy, nodes: seq<(string, E2Node)>): (apps: seq<Application>)
    ensures forall a :: a in apps <==> a.policy == p && exists j :: 0 <= j < |nodes| && nodes[j].0 == a.nodeId && Targets(p.target, nodes[j].1.className)
  {
    if |nodes| == 0 then []
    else
      var rest := ApplyTo(p, nodes[1..]);
      var head := if Targets(p.target, nodes[0].1.className) then [Application(p, nodes[0].0)] else [];
      assert forall j :: 0 < j < |nodes| ==> nodes[j] == nodes[1..][j - 1];
      head + rest
  }

  function Sweep(ps: seq<A1.A1Policy>, nodes: seq<(string, E2Node)>): (apps: seq<Application>)
    ensures forall a :: a in apps <==> a.policy in ps && exists j :: 0 <= j < |nodes| && nodes[j].0 == a.nodeId && Targets(a.policy.target, nodes[j].1.className)
  {
    if |ps| == 0 then [] else ApplyTo(ps[0], nodes) + Sweep(ps[1..], nodes)
  }

  /**
   * Applications follow node order: those for an earlier run of nodes come
   * before those for a later run.
   */
  lemma {:induction false} ApplyToAppend(p: A1.A1Policy, a: seq<(string, E2Node)>, b: seq<(string, E2Node)>)
    ensures ApplyTo(p, a + b) == ApplyTo(p, a) + ApplyTo(p, b)
    decreases |a|
  {
    if |a| == 0 {
      assert a + b == b;
    } else {
      var ab := a + b;
      assert ab[0] == a[0] && ab[1..] == a[1..] + b;
      ApplyToAppend(p, a[1..], b);
    }
  }

  /** A single node yields at most one application: the policy's, when its class matches. */
  lemma ApplyToOne(p: A1.A1Policy, n: (string, E2Node))
    ensures ApplyTo(p, [n]) == if Targets(p.target, n.1.className) then [Application(p, n.0)] else []
  {
    assert [n][1..] == [];
  }

  /** Applications follow policy order: every application of an earlier policy run comes first. */
  lemma {:induction false} SweepAppend(ps: seq<A1.A1Policy>, qs: seq<A1.A1Policy>, nodes: seq<(string, E2Node)>)
    ensures Sweep(ps + qs, nodes) == Sweep(ps, nodes) + Sweep(qs, nodes)
    ensures |ps| == 1 ==> Sweep(ps, nodes) == ApplyTo(ps[0], nodes)
    decreases |ps|
  {
    if |ps| == 1 {
      assert Sweep(ps[1..], nodes) == [];
    }
    if |ps| > 0 {
      assert (ps + qs)[1..] == ps[1..] + qs;
      SweepAppend(ps[1..], qs, nodes);
    } else {
      assert ps + qs == qs;
    }
  }

  /**
   * `enforce_a1_policies()`: for each stored policy in order, each E2 node in
   * order whose class matches the policy's target. Nothing is changed, so the
   * RIC is not an output.
   */
  function EnforceA1Policies<X, Cb>(r: NearRtRic<X, Cb>): (apps: seq<Application>)
    ensures forall a :: a in apps <==>
      && a.policy in D.Values(r.a1Policies)
      && exists j :: 0 <= j < |r.e2Nodes.items| && r.e2Nodes.items[j].0 == a.nodeId && Targets(a.policy.target, r.e2Nodes.items[j].1.className)
  {
    Sweep(D.Values(r.a1Policies), r.e2Nodes.items)
  }

  /** Only O-DUs receive "o_du" policies and only O-RUs "o_ru" ones; other targets reach no node. */
  lemma EnforceRespectsClass<X, Cb>(r: NearRtRic<X, Cb>, a: Application)
    requires Valid(r) && a in EnforceA1Policies(r)
    ensures a.policy.target == "o_du" || a.policy.target == "o_ru"
    ensures D.Has(r.e2Nodes, a.nodeId)
    ensures D.Get(r.e2Nodes, a.nodeId).value.className == if a.policy.target == "o_du" then "O_DU" else "O_RU"
  {
    var j :| 0 <= j < |r.e2Nodes.items| && r.e2Nodes.items[j].0 == a.nodeId && Targets(a.policy.target, r.e2Nodes.items[j].1.className);
    D.GetAt(r.e2Nodes, j);
  }

  /**
   * `receive_e2_message(message, node_id)`: pass the message on as an
   * indication to every E2 subscriber, in subscription order; a subscriber
   * that raises does not stop the others.
   */
  function ReceiveE2Message<X, Cb>(r: NearRtRic<X, Cb>, message: Content, nodeId: string, fails: (E2.Target<Cb>, E2.Queued) -> bool): (os: seq<Channel.Outcome<E2.Target<Cb>, E2.Queued>>)
    ensures |os| == |r.e2.subscribers.items|
    ensures forall j :: 0 <= j < |os| ==>
      && Channel.Called(os[j]) && os[j].target == r.e2.subscribers.items[j] && os[j].payload == E2.Queued(message, nodeId)
      && (os[j].Raised? <==> fails(os[j].target, E2.Queued(message, nodeId)))
  {
    E2.SendIndication(r.e2, message, nodeId, fails)
  }

  /** `register_e2_node(node_id, node)`: set the id to the node, replacing an earlier one. */
  function RegisterE2Node<X, Cb>(r: NearRtRic<X, Cb>, nodeId: string, node: E2Node): (r': NearRtRic<X, Cb>)
    requires Valid(r)
    ensures Valid(r') && r' == r.(e2Nodes := r'.e2Nodes)
    ensures GetE2Node(r', nodeId) == Some(node)
    ensures forall k :: k != nodeId ==> GetE2Node(r', k) == GetE2Node(r, k)
  {
    r.(e2Nodes := D.Put(r.e2Nodes, nodeId, node))
  }

  /** `get_e2_node(node_id)`: the node, or None for an unknown id. */
  function GetE2Node<X, Cb>(r: NearRtRic<X, Cb>, nodeId: string): (n: Option<E2Node>)
    ensures n.None? <==> !D.Has(r.e2Nodes, nodeId)
    ensures n.Some? ==> exists i :: 0 <= i < |r.e2Nodes.items| && r.e2Nodes.items[i] == (nodeId, n.value)
  {
    D.Get(r.e2Nodes, nodeId)
  }

  datatype NonRtRic<Rp, R> = NonRtRic(a1: A1.A1Interface<R>, rapps: D.Dict<string, Rp>, managed: seq<R>)

  predicate NonRtValid<Rp, R>(n: NonRtRic<Rp, R>) {
    D.Valid(n.rapps)
  }

  /** A new Non-RT RIC has no rApps and manages no Near-RT RIC. */
  function NewNonRtRic<Rp, R>(a1: A1.A1Interface<R>): (n: NonRtRic<Rp, R>)
  {
    NonRtRic(a1, D.Empty(), [])
  }

  /** A new Non-RT RIC has no rApps and manages no Near-RT RIC. */
  lemma NewNonRtRicIsEmpty<Rp, R>(a1: A1.A1Interface<R>)
    ensures var n := NewNonRtRic<Rp, R>(a1);
      NonRtValid(n) && n.a1 == a1 && n.rapps.items == [] && n.managed == []
  {
  }

  /** `add_rapp(rapp)`: the rApp under its id, replacing an earlier one. */
  function AddRapp<Rp(!new), R>(n: NonRtRic<Rp, R>, rappId: string, rapp: Rp): (n': NonRtRic<Rp, R>)
    requires NonRtValid(n)
    ensures NonRtValid(n') && n' == n.(rapps := n'.rapps)
    ensures D.Get(n'.rapps, rappId) == Some(rapp)
    ensures forall k :: k != rappId ==> D.Get(n'.rapps, k) == D.Get(n.rapps, k)
  {
    n.(rapps := D.Put(n.rapps, rappId, rapp))
  }

  /** `remove_rapp(rapp_id)`: the id is gone; an unknown id changes nothing. */
  function RemoveRapp<Rp(!new), R>(n: NonRtRic<Rp, R>, rappId: string): (n': NonRtRic<Rp, R>)
    requires NonRtValid(n)
    ensures NonRtValid(n') && n' == n.(rapps := n'.rapps)
    ensures !D.Has(n'.rapps, rappId)
    ensures !D.Has(n.rapps, rappId) ==> n' == n
    ensures forall k :: k != rappId ==> D.Get(n'.rapps, k) == D.Get(n.rapps, k)
  {
    n.(rapps := D.Remove(n.rapps, rappId))
  }

  lemma AddThenRemoveRapp<Rp(!new), R>(n: NonRtRic<Rp, R>, rappId: string, rapp: Rp)
    requires NonRtValid(n) && !D.Has(n.rapps, rappId)
    ensures RemoveRapp(AddRapp(n, rappId, rapp), rappId) == n
  {
    D.PutThenRemove(n.rapps, rappId, rapp);
  }

  /** `add_managed_near_rt_ric(ric)`: append, so the same RIC can be listed twice. */
  function AddManagedNearRtRic<Rp, R>(n: NonRtRic<Rp, R>, ric: R): (n': NonRtRic<Rp, R>)
    ensures n'.a1 == n.a1 && n'.rapps == n.rapps
    ensures |n'.managed| == |n.managed| + 1 && n'.managed[..|n.managed|] == n.managed && n'.managed[|n.managed|] == ric
  {
    var m := n.managed + [ric];
    assert m[..|n.managed|] == n.managed;
    n.(managed := m)
  }

  /**
   * `create_a1_policy(type, content, target)`: a policy whose id is
   * `policy-(n+1)` for the `n` policies the Near-RT RIC now holds. Nothing is stored.
   */
  function CreateA1Policy<X, Cb>(near: NearRtRic<X, Cb>, policyType: A1PolicyData.PolicyType, content: Content, target: string): (p: A1.A1Policy)
    ensures p.policyId == A1.PolicyId(|near.a1Policies.items| + 1)
    ensures p.policyType == policyType && p.policyContent == content && p.target == target
    ensures p.version == A1PolicyData.DefaultVersion
  {
    A1.A1Policy(policyType, A1.PolicyId(|near.a1Policies.items| + 1), content, A1PolicyData.DefaultVersion, target)
  }

  /** With nothing stored in between, two creations mint the same id. */
  lemma CreateTwiceSameId<X, Cb>(near: NearRtRic<X, Cb>, t1: A1PolicyData.PolicyType, c1: Content, g1: string, t2: A1PolicyData.PolicyType, c2: Content, g2: string)
    ensures CreateA1Policy(near, t1, c1, g1).policyId == CreateA1Policy(near, t2, c2, g2).policyId
  {
  }

  /** A minted id is new to the Near-RT RIC exactly when it does not already hold `policy-(n+1)`; storing it then grows the count. */
  lemma CreateThenStoreAdvances<X, Cb>(near: NearRtRic<X, Cb>, t: A1PolicyData.PolicyType, c: Content, g: string)
    requires Valid(near) && A1.DenseIds(near.a1Policies)
    ensures var p := CreateA1Policy(near, t, c, g);
      !D.Has(near.a1Policies, p.policyId) && |StoreA1Policy(near, p).a1Policies.items| == |near.a1Policies.items| + 1
  {
    A1.DenseNextIsFresh(near.a1Policies);
  }

  /** `send_a1_policy(policy, ric)`: delegate to the A1 interface. */
  function SendA1Policy<Rp, R(==)>(n: NonRtRic<Rp, R>, policy: A1.A1Policy, ric: R): (r: Result<Content>)
    ensures r.Err? <==> ric != n.a1.nearRtRic
    ensures r.Ok? ==> A1.FromDict(r.value) == Ok(policy)
  {
    A1.SendPolicy(n.a1, policy, ric)
  }

  /** End to end: a policy the Non-RT RIC sends is stored, as it was, in the receiving Near-RT RIC. */
  lemma SendThenReceiveStores<Rp, R, X, Cb>(n: NonRtRic<Rp, R>, policy: A1.A1Policy, near: NearRtRic<X, Cb>)
    requires Valid(near)
    ensures var r := SendA1Policy(n, policy, n.a1.nearRtRic);
      r.Ok? && D.Get(ReceiveA1Policy(near, r.value).a1Policies, policy.policyId) == Some(policy)
  {
  }
}

=== FILE: scheduler.dfy ===
/**
 * The simulator's scheduler: a virtual clock, the list of UEs under
 * simulation, and the engine's queue of pending work. `add_event` schedules
 * a one-shot callback; `add_ue` starts a process that moves the UE every
 * 0.1 virtual seconds, forever. The callback and its arguments are one
 * opaque value `C`; what a callback does when it fires is up to the caller,
 * which reads it off the trace `Run` returns.
 */
module Scheduler {
  import opened Base
  import EQ = EventQueue

  /** What a pending entry does when it fires. */
  datatype Task<C> =
    | Invoke(call: C)
      /** one `update_position(0.1)` of the UE at this index of `ues` */
    | MoveUe(ue: nat)

  /** The UE process wakes up every 0.1 virtual seconds. */
  const UePeriod: real := 0.1

  datatype ORANScheduler<C, U> = ORANScheduler(queue: EQ.Queue<Task<C>>, ues: seq<U>)

  predicate Valid<C, U>(s: ORANScheduler<C, U>) {
    EQ.Valid(s.queue)
  }

  function Now<C, U>(s: ORANScheduler<C, U>): real {
    s.queue.now
  }

  /** The periodic job that moves UE number `i`. */
  function UeJob<C>(i: nat): EQ.Job<Task<C>> {
    EQ.Every(UePeriod, MoveUe(i))
  }

  /** A new scheduler: clock at zero, no UEs, nothing pending. */
  function New<C, U>(): (s: ORANScheduler<C, U>)
  {
    ORANScheduler(EQ.Empty(), [])
  }

  /** A new scheduler starts at time zero with no UEs and nothing pending. */
  lemma NewIsEmpty<C, U>()
    ensures var s := New<C, U>();
      Valid(s) && Now(s) == 0.0 && s.ues == [] && s.queue.pending == []
  {
  }

  /**
   * `add_event(delay, callback, *args)`: run the call `delay` seconds from now.
   * The engine refuses a negative delay with ValueError.
   */
  function AddEvent<C, U>(s: ORANScheduler<C, U>, delay: real, call: C): (r: Result<ORANScheduler<C, U>>)
    requires Valid(s)
    ensures r.Err? <==> delay < 0.0
    ensures r.Err? ==> r.error == ValueError
    ensures r.Ok? ==> Valid(r.value) && r.value.ues == s.ues && Now(r.value) == Now(s)
    ensures r.Ok? ==>
      multiset(r.value.queue.pending) == multiset(s.queue.pending) + multiset{EQ.Entry(Now(s) + delay, s.queue.nextSeq, EQ.Once(Invoke(call)))}
  {
    match EQ.Schedule(s.queue, delay, EQ.Once(Invoke(call)))
    case Err(e) => Err(e)
    case Ok(q) => Ok(s.(queue := q))
  }

  /** `add_ue(ue)`: append the UE and start its movement process, first waking 0.1 from now. */
  function AddUe<C, U>(s: ORANScheduler<C, U>, ue: U): (r: ORANScheduler<C, U>)
    requires Valid(s)
    ensures Valid(r) && Now(r) == Now(s)
    ensures r.ues == s.ues + [ue]
    ensures multiset(r.queue.pending)
      == multiset(s.queue.pending) + multiset{EQ.Entry(Now(s) + UePeriod, s.queue.nextSeq, UeJob(|s.ues|))}
  {
    var q := EQ.Schedule(s.queue, UePeriod, UeJob(|s.ues|));
    ORANScheduler(q.value, s.ues + [ue])
  }

  /**
   * `run(until)`: fire every entry due strictly before `until`, in order, and
   * leave the clock at `until`. An end time not after the clock is refused
   * with ValueError.
   */
  function Run<C(!new), U>(s: ORANScheduler<C, U>, until: real): (r: Result<(ORANScheduler<C, U>, seq<EQ.Entry<Task<C>>>)>)
    requires Valid(s)
    ensures r.Err? <==> until <= Now(s)
    ensures r.Err? ==> r.error == ValueError
    ensures r.Ok? ==> Valid(r.value.0) && Now(r.value.0) == until && r.value.0.ues == s.ues
    ensures r.Ok? ==> forall i :: 0 <= i < |r.value.1| ==> Now(s) <= r.value.1[i].time < until
  {
    match EQ.Run(s.queue, until)
    case Err(e) => Err(e)
    case Ok(res) =>
      EQ.FireOrdered(s.queue, until);
      Ok((s.(queue := res.0), res.1))
  }

  /**
   * `run(until)` when the callbacks and UE updates of the entries `raises`
   * picks raise. The engine re-raises the first such exception out of
   * `run`: the raising entry is the third component, and the clock stays at
   * its time. Otherwise the clock ends at `until`.
   */
  function RunChecked<C(!new), U>(s: ORANScheduler<C, U>, until: real, raises: EQ.Entry<Task<C>> -> bool)
    : (r: Result<(ORANScheduler<C, U>, seq<EQ.Entry<Task<C>>>, Option<EQ.Entry<Task<C>>>)>)
    requires Valid(s)
    ensures r.Err? <==> until <= Now(s)
    ensures r.Err? ==> r.error == ValueError
    ensures r.Ok? ==> Valid(r.value.0) && r.value.0.ues == s.ues
    ensures r.Ok? && r.value.2.None? ==> Now(r.value.0) == until
    ensures r.Ok? && r.value.2.Some? ==>
      raises(r.value.2.value) && r.value.2.value in r.value.1 && Now(s) <= Now(r.value.0) == r.value.2.value.time < until
  {
    match EQ.RunChecked(s.queue, until, raises)
    case Err(e) => Err(e)
    case Ok(res) => Ok((s.(queue := res.0), res.1, res.2))
  }

  /**
   * A run in which some entries raise ends normally exactly when no entry of
   * the plain run raises, and is then the plain run; otherwise it stops at
   * the first raising entry of the plain run.
   */
  lemma RunCheckedMatchesRun<C(!new), U>(s: ORANScheduler<C, U>, until: real, raises: EQ.Entry<Task<C>> -> bool)
    requires Valid(s) && until > Now(s)
    ensures RunChecked(s, until, raises).value.2.None? <==> EQ.NoneRaise(Run(s, until).value.1, raises)
    ensures RunChecked(s, until, raises).value.2.None? ==> RunChecked(s, until, raises).value.0 == Run(s, until).value.0
    ensures var r := RunChecked(s, until, raises).value;
      r.2.Some? ==> exists n: nat :: EQ.StopsAt(r.1, Run(s, until).value.1, n, raises) && Run(s, until).value.1[n] == r.2.value
  {
    EQ.RunCheckedNoRaise(s.queue, until, raises);
    EQ.FireCheckedFirstRaise(s.queue, until, raises);
  }

  /**
   * A UE whose update raises at once (a one-cell Manhattan grid, say) stops
   * `run(until=1)` at its first tick: the clock stays at 0.1, the failed tick
   * is all that fired, and the UE's process is gone.
   */
  lemma UeErrorStopsRun<C(!new), U>(ue: U)
    ensures var r := RunChecked(AddUe(New<C, U>(), ue), 1.0, (e: EQ.Entry<Task<C>>) => e.job == UeJob(0)).value;
      var tick := EQ.Entry(0.1, 0, UeJob<C>(0));
      && r.2 == Some(tick)
      && r.1 == [tick]
      && Now(r.0) == 0.1
      && r.0.queue.pending == []
  {
    NewIsEmpty<C, U>();
    var s := AddUe(New<C, U>(), ue);
    var tick := EQ.Entry(0.1, 0, UeJob<C>(0));
    assert s.queue.pending == [tick] by {
      assert multiset(s.queue.pending) == multiset{tick};
      assert |s.queue.pending| == 1;
      assert s.queue.pending[0] in multiset(s.queue.pending);
    }
    var raises := (e: EQ.Entry<Task<C>>) => e.job == UeJob(0);
    var q1 := EQ.StepChecked(s.queue, raises);
    assert q1.pending == [] && q1.now == 0.1;
    assert EQ.FireInstant(q1, 1.0, raises) == (q1, []);
  }

  /**
   * A scheduled call fires in a run exactly when its delay has elapsed before
   * the end time, and then at exactly `now + delay`; otherwise it stays pending.
   */
  lemma EventFiresAfterDelay<C(!new), U>(s: ORANScheduler<C, U>, delay: real, call: C, until: real)
    requires Valid(s) && delay >= 0.0 && until > Now(s)
    ensures var s1 := AddEvent(s, delay, call).value;
      var e := EQ.Entry(Now(s) + delay, s.queue.nextSeq, EQ.Once(Invoke(call)));
      var r := Run(s1, until).value;
      && (e in r.1 <==> Now(s) + delay < until)
      && (e !in r.1 ==> e in r.0.queue.pending)
  {
    var s1 := AddEvent(s, delay, call).value;
    var e := EQ.Entry(Now(s) + delay, s.queue.nextSeq, EQ.Once(Invoke(call)));
    assert e in multiset(s1.queue.pending);
    EQ.FireDue(s1.queue, until);
    EQ.FireOrdered(s1.queue, until);
  }

  /** Scheduled with delay 1 on a fresh scheduler, a callback has fired after `run(until=2)`. */
  lemma FreshEventFires<C(!new), U>(call: C)
    ensures var s1 := AddEvent(New<C, U>(), 1.0, call).value;
      exists i :: 0 <= i < |Run(s1, 2.0).value.1| && Run(s1, 2.0).value.1[i].job == EQ.Once(Invoke(call))
  {
    var s := New<C, U>();
    EventFiresAfterDelay(s, 1.0, call, 2.0);
    var s1 := AddEvent(s, 1.0, call).value;
    var trace := Run(s1, 2.0).value.1;
    var e := EQ.Entry(1.0, 0, EQ.Once(Invoke(call)));
    var i :| 0 <= i < |trace| && trace[i] == e;
  }

  /** Two callbacks scheduled at 1 and 3 on a fresh scheduler both fire, once each, under `run(until=4)`. */
  lemma TwoEventsFire<C(!new), U>(a: C, b: C)
    ensures var s1 := AddEvent(New<C, U>(), 1.0, a).value;
      var s2 := AddEvent(s1, 3.0, b).value;
      var trace := Run(s2, 4.0).value.1;
      && |trace| == 2
      && trace[0].job == EQ.Once(Invoke(a)) && trace[0].time == 1.0
      && trace[1].job == EQ.Once(Invoke(b)) && trace[1].time == 3.0
  {
    NewIsEmpty<C, U>();
    var s2 := AddEvent(AddEvent(New<C, U>(), 1.0, a).value, 3.0, b).value;
    var e1 := EQ.Entry(1.0, 0, EQ.Once(Invoke(a)));
    var e2 := EQ.Entry(3.0, 1, EQ.Once(Invoke(b)));
    TwoEventsQueued<C, U>(a, b);
    EQ.FireAllOnce(s2.queue, 4.0);
    var r := EQ.Fire(s2.queue, 4.0);
    assert r.1 + r.0.pending == [e1, e2];
    assert r.1 == [e1, e2];
  }

  /** The two events of `TwoEventsFire` wait in the queue in the order of their times. */
  lemma TwoEventsQueued<C, U>(a: C, b: C)
    ensures AddEvent(AddEvent(New<C, U>(), 1.0, a).value, 3.0, b).value.queue.pending
      == [EQ.Entry(1.0, 0, EQ.Once(Invoke(a))), EQ.Entry(3.0, 1, EQ.Once(Invoke(b)))]
  {
    var e1 := EQ.Entry(1.0, 0, EQ.Once(Invoke(a)));
    var e2 := EQ.Entry(3.0, 1, EQ.Once(Invoke(b)));
    var s0 := New<C, U>();
    assert s0.queue == EQ.Queue(0.0, 0, []);
    AddEventQueue(s0, 1.0, a);
    var s1 := AddEvent(s0, 1.0, a).value;
    assert s1.queue == EQ.Queue(0.0, 1, [e1]);
    AddEventQueue(s1, 3.0, b);
    assert [e1][1..] == [] && EQ.Insert([], e2) == [e2];
    assert EQ.Insert([e1], e2) == [e1, e2];
  }

  /** An accepted event goes into the queue under the next sequence number. */
  lemma AddEventQueue<C, U>(s: ORANScheduler<C, U>, delay: real, call: C)
    requires Valid(s) && delay >= 0.0
    ensures AddEvent(s, delay, call).value.queue
      == EQ.Queue(s.queue.now, s.queue.nextSeq + 1, EQ.Insert(s.queue.pending, EQ.Entry(s.queue.now + delay, s.queue.nextSeq, EQ.Once(Invoke(call)))))
  {
    var e := EQ.Entry(s.queue.now + delay, s.queue.nextSeq, EQ.Once(Invoke(call)));
    assert EQ.Schedule(s.queue, delay, EQ.Once(Invoke(call))) == Ok(EQ.Queue(s.queue.now, s.queue.nextSeq + 1, EQ.Insert(s.queue.pending, e)));
  }

  /** The clock starts at zero and stands at the end time after a run. */
  lemma ClockAfterRun<C(!new), U>(ue: U)
    ensures Now(New<C, U>()) == 0.0
    ensures Now(Run(AddUe(New<C, U>(), ue), 5.0).value.0) == 5.0
  {
  }

  /**
   * After `add_ue`, the UE's movement fires at every multiple of 0.1 after
   * the current time that falls before the end of a run.
   */
  lemma UeMovesEveryPeriod<C(!new), U>(s: ORANScheduler<C, U>, ue: U, until: real, k: nat)
    requires Valid(s) && until > Now(s)
    requires EQ.Later(Now(s) + UePeriod, UePeriod, k) < until
    ensures EQ.FiresAt(Run(AddUe(s, ue), until).value.1, UeJob(|s.ues|), EQ.Later(Now(s) + UePeriod, UePeriod, k))
  {
    var s1 := AddUe(s, ue);
    var e := EQ.Entry(Now(s) + UePeriod, s.queue.nextSeq, UeJob<C>(|s.ues|));
    assert e in multiset(s1.queue.pending);
    EQ.FireEveryPeriod(s1.queue, until, e, k);
  }
}

=== FILE: xapp.dfy ===
/**
 * The xApp base class: registering and unregistering go through the
 * Near-RT RIC, an xApp hears E2 indications through the bound method
 * `receive_indication` it subscribed, and control messages go out on the
 * RIC's E2 interface.
 */
module XApp {
  import opened Base
  import opened Channel
  import D = PyDict
  import E2
  import Ric

  datatype XApp = XApp(xappId: string)

  /** The bound method `xapp.receive_indication`, as an E2 callback. */
  datatype Callback = ReceiveIndication(xappId: string)

  type Rt = Ric.NearRtRic<XApp, Callback>

  /** `register()`: the RIC's `add_xapp` with this xApp. */
  function Register(x: XApp, r: Rt): (r': Rt)
    requires Ric.Valid(r)
    ensures Ric.Valid(r')
    ensures D.Get(r'.xapps, x.xappId) == Some(x)
    ensures D.Get(r'.e2.subscribers, x.xappId) == Some(ReceiveIndication(x.xappId))
    ensures r'.id == r.id && r'.a1Policies == r.a1Policies && r'.e2Nodes == r.e2Nodes && r'.e2.queue == r.e2.queue
    ensures forall k :: k != x.xappId ==> D.Get(r'.xapps, k) == D.Get(r.xapps, k) && D.Get(r'.e2.subscribers, k) == D.Get(r.e2.subscribers, k)
    ensures D.Keys(r'.xapps) == if D.Has(r.xapps, x.xappId) then D.Keys(r.xapps) else D.Keys(r.xapps) + [x.xappId]
    ensures D.Keys(r'.e2.subscribers) ==
      if D.Has(r.e2.subscribers, x.xappId) then D.Keys(r.e2.subscribers) else D.Keys(r.e2.subscribers) + [x.xappId]
  {
    Ric.AddXapp(r, x.xappId, x, ReceiveIndication(x.xappId))
  }

  /** `unregister()`: the RIC's `remove_xapp` with this xApp's id. */
  function Unregister(x: XApp, r: Rt): (r': Rt)
    requires Ric.Valid(r)
    ensures Ric.Valid(r') && !D.Has(r'.xapps, x.xappId)
    ensures D.Has(r.xapps, x.xappId) ==> !D.Has(r'.e2.subscribers, x.xappId)
    ensures r'.id == r.id && r'.a1Policies == r.a1Policies && r'.e2Nodes == r.e2Nodes && r'.e2.queue == r.e2.queue
    ensures forall k :: k != x.xappId ==> D.Get(r'.xapps, k) == D.Get(r.xapps, k) && D.Get(r'.e2.subscribers, k) == D.Get(r.e2.subscribers, k)
    ensures !D.Has(r.xapps, x.xappId) ==> r' == r
    ensures D.Has(r.xapps, x.xappId) ==> var i := D.IndexOf(r.xapps.items, x.xappId);
      D.Keys(r'.xapps) == D.Keys(r.xapps)[..i] + D.Keys(r.xapps)[i + 1..]
    ensures D.Has(r.xapps, x.xappId) && D.Has(r.e2.subscribers, x.xappId) ==> var i := D.IndexOf(r.e2.subscribers.items, x.xappId);
      D.Keys(r'.e2.subscribers) == D.Keys(r.e2.subscribers)[..i] + D.Keys(r.e2.subscribers)[i + 1..]
  {
    Ric.RemoveXapp(r, x.xappId)
  }

  /** An xApp that was not registered leaves no trace after registering and unregistering. */
  lemma RegisterThenUnregister(x: XApp, r: Rt)
    requires Ric.Valid(r) && !D.Has(r.xapps, x.xappId) && !D.Has(r.e2.subscribers, x.xappId)
    ensures Unregister(x, Register(x, r)) == r
  {
    Ric.AddThenRemoveXapp(r, x.xappId, x, ReceiveIndication(x.xappId));
  }

  /** Exactly one outcome is addressed to `id`, and that one is its own callback's call with the message. */
  predicate HeardOnce(os: seq<Channel.Outcome<E2.Target<Callback>, E2.Queued>>, id: string, message: Content, nodeId: string) {
    && (exists j :: 0 <= j < |os| && Channel.Called(os[j]) && os[j].target == (id, ReceiveIndication(id)) && os[j].payload == E2.Queued(message, nodeId))
    && forall j1, j2 ::
         0 <= j1 < |os| && 0 <= j2 < |os| && Channel.Called(os[j1]) && Channel.Called(os[j2]) && os[j1].target.0 == id && os[j2].target.0 == id
         ==> j1 == j2
  }

  /** A registered xApp hears each E2 message the RIC receives exactly once, through its own callback. */
  lemma RegisteredHearsIndication(x: XApp, r: Rt, message: Content, nodeId: string, fails: (E2.Target<Callback>, E2.Queued) -> bool)
    requires Ric.Valid(r)
    ensures HeardOnce(Ric.ReceiveE2Message(Register(x, r), message, nodeId, fails), x.xappId, message, nodeId)
  {
    var r' := Register(x, r);
    var os := Ric.ReceiveE2Message(r', message, nodeId, fails);
    E2.FanOutOnce(r'.e2.subscribers, E2.Queued(message, nodeId), fails, x.xappId);
    var j :| 0 <= j < |os| && os[j].target.0 == x.xappId;
    D.GetAt(r'.e2.subscribers, j);
  }

  /**
   * `send_control_message(message, target_node_id)`: queue the message on the
   * RIC's E2 interface and request its drain. The source catches any failure,
   * and queueing cannot fail, so there is no error result.
   */
  function SendControlMessage(x: XApp, r: Rt, message: Content, targetNodeId: string): (res: (Rt, Request<E2.Drain>))
    ensures res.0 == r.(e2 := res.0.e2) && res.0.e2.subscribers == r.e2.subscribers
    ensures res.0.e2.queue == r.e2.queue + [E2.Queued(message, targetNodeId)]
    ensures res.1 == Request(0.0, E2.ProcessMessageQueue)
  {
    var (e2, req) := E2.SendMessage(r.e2, message, targetNodeId);
    assert e2.queue == r.e2.queue + [E2.Queued(message, targetNodeId)];
    (r.(e2 := e2), req)
  }

  /** Once drained, a control message sent on an idle interface reaches every subscriber as an indication would. */
  lemma ControlMessageDrains(x: XApp, r: Rt, message: Content, targetNodeId: string, fails: (E2.Target<Callback>, E2.Queued) -> bool)
    requires r.e2.queue == []
    ensures E2.ProcessQueue(SendControlMessage(x, r, message, targetNodeId).0.e2, fails).1
      == [Ric.ReceiveE2Message(r, message, targetNodeId, fails)]
  {
    E2.DrainMatchesIndication(r.e2, message, targetNodeId, fails);
  }
}
